=== FILE: README.md ===
# Lorescribe recording engine in Dafny

This project models the core of Lorescribe, a Discord bot that records voice
channels, transcribes and summarises the recordings, and posts the summaries.

The model treats the recording-session engine (`VoiceRecorder`) as a
sequential state machine. Around it sit the pure policies it relies on:

- per-recording capture state;
- segment finalisation;
- worker result shaping;
- the bounded-retry loops;
- the service container;
- the in-memory configuration store;
- storage naming and filtering;
- the Redis connection policy.

Every I/O collaborator becomes an outcome passed in as a parameter: Discord
voice, ffmpeg, OpenAI, Redis, the file system and timers. A retry loop is a
function over "how attempt `k` ended" that returns the result, the calls made
and the waits made. `Date.now()` is a parameter `now`.

One module per source file:

| module | source file |
|---|---|
| `Wrappers` | `Option` and `Result` |
| `Text` | the JavaScript string operations the services use: `startsWith`, `includes`, `split` on one character, first-occurrence `replace`, `trim` whitespace, `parseInt`, decimal rendering |
| `ServiceContainer` | src/services/Container.js |
| `RetryHandler` | src/utils/RetryHandler.js |
| `Transcription` | src/services/TranscriptionService.js (summary loop, key guard) |
| `VoiceStateService` | src/services/VoiceStateService.js |
| `Configuration` | src/services/ConfigurationService.js (in-memory store with its Redis mirror) |
| `Storage` | src/services/StorageService.js (names, parsing, filtering, retention, `deleteFile`) |
| `RedisConfig` | src/config/redis.js |
| `TranscriptionWorker` | src/workers/transcriptionWorker.js |
| `RecordingProcessor` | src/services/RecordingProcessorService.js |
| `AudioService` | src/services/AudioService.js (capture handlers, `convertToMp3` guards) |
| `VoiceRecorder` | src/VoiceRecorder.js |

The recorder's state has two parts:

- the registry of active recordings;
- what the operations touch in their collaborators: the voice-connection
  registry (`VoiceStateService.VoiceState`), the configuration store, the live
  rotation timers, the temporary files, and traces of emitted events, deleted
  files, scheduled background summary jobs, saved transcripts and channel
  posts.

The recorder is modelled as the code is written, including these
behaviours:

- Rotation builds a new recording info without the `rotationInterval` that
  `startRecording` attached to the first one. `cleanup` therefore never
  clears the first timer. That timer keeps firing `rotateStreams` for the
  guild: a no-op while the guild is absent, and a second rotation timer if
  the guild is started again (`VoiceRecorder.StrayTimerSurvivesCleanup`,
  `VoiceRecorder.RestartKeepsStrayTimer`).
- `stopRecording` reads the recording info and assigns to it before checking
  for null. Stopping a missing guild while another guild is active therefore
  throws a `TypeError`, and no entry is changed.
- `RecordingEvents.ROTATION_ERROR` does not exist, so rotation errors are
  emitted under the name `undefined`.
- When `leaveChannel` emits 'disconnected' from inside `cleanup`, the guild is
  still in the registry. The listener therefore emits CONNECTION_CLOSED and
  starts a second `stopRecording`, which runs concurrently. The model records
  that such a stop was started and does not follow it.

The worker destructures `{ summary, isTranscription, isUnableToSummarize }`
from `generateSummary`. `generateSummary` returns a plain string, so all
three fields are undefined (`TranscriptionWorker.StringReplyLosesSummary`).
`TranscriptionService` inherits its `transcribeAudio` from an interface whose
method returns nothing. Its own `transcribe` and `generateSummary` read
prompts from `this.config`, which the constructor never assigns, so both
throw before any request is sent (see "## Findings"). The recorder, the
processor and the worker receive the transcription as an outcome parameter.

## Model

| member | source | states |
|---|---|---|
| ServiceContainer.Empty | src/services/Container.js:2-6 | a new container has no services, factories or instances |
| ServiceContainer.Register | src/services/Container.js:9-14 | fails with 'Service X is already registered' exactly when the name is registered; otherwise maps the name to the instance, keeps every other service as it was, and leaves the factories and instances alone |
| ServiceContainer.RegisterFactory | src/services/Container.js:17-22 | fails with 'Factory X is already registered' exactly when a factory of that name exists; otherwise maps the name to the factory, keeps every other factory as it was, and leaves the services and instances alone |
| ServiceContainer.Get | src/services/Container.js:25-45 | looks in cached instances, then services, then factories; fails with 'Service X not found' exactly when the name is in none of them; invokes the factory only when nothing else matches, and caches its product |
| ServiceContainer.Remove | src/services/Container.js:53-57 | the name leaves all three maps; every other name keeps its service, factory and cached instance with the same value, and no name is added |
| ServiceContainer.Clear | src/services/Container.js:60-64 | the container is empty again |
| ServiceContainer.GetAfterRegister | src/services/Container.js:9-14 | a registered instance is what `get` returns |
| ServiceContainer.CachedInstanceShadowsRegistration | src/services/Container.js:27-34 | a cached instance wins over a service registered under the same name |
| ServiceContainer.FactoryInvokedAtMostOnce | src/services/Container.js:37-41 | after a factory ran, a second `get` returns the cached instance and does not invoke the factory |
| ServiceContainer.Has | src/services/Container.js:48-50 | true exactly when the name is registered as a service or a factory; a cached instance alone does not count (with `HasMeansGetSucceeds`, `has` means `get` succeeds) |
| ServiceContainer.HasMeansGetSucceeds | src/services/Container.js:48-50 | `has` holds iff the name is a service or a factory; then `get` succeeds, and without a cached instance it fails otherwise |
| ServiceContainer.RemoveThenRegister | src/services/Container.js:53-57 | after `remove`, registering the name again succeeds and `get` returns the new instance |
| ServiceContainer.ClearForgetsEverything | src/services/Container.js:60-64 | after `clear`, `has` is false and `get` throws 'not found' |
| RetryHandler.Execute | src/utils/RetryHandler.js:7-34 | at most `maxRetries` calls; every call before the last threw a non-fatal error; waits are initialDelay·2^k, with none after the last call; the last call's outcome settles the result: success, the fatal error unchanged, or 'Operation failed after N attempts. Last error: M'; with no retries at all, the TypeError from reading `lastError.message` |
| RetryHandler.Attempts | src/utils/RetryHandler.js:11-31 | the loop from attempt k on, with the same trace properties relative to k |
| RetryHandler.DefaultsExhaust | src/utils/RetryHandler.js:2 | with the defaults (3 tries, 1000 ms) and only non-fatal errors: three calls, waits [1000, 2000], and the exhausted message |
| RetryHandler.ExhaustedMessageOfThree | src/utils/RetryHandler.js:33 | the exhausted message for three attempts, written out |
| RetryHandler.IsFatalError | src/utils/RetryHandler.js:36-48 | the codes ENOENT, EACCES, ERR_INVALID_ARG_TYPE and InvalidTokenError are fatal, and so is any message containing 'Invalid token' or 'Unknown Channel'; any other error, with no code or a code outside the list, and with neither fragment, is retried |
| RetryHandler.UnlistedCodeIsRetried | src/utils/RetryHandler.js:18-27 | an error whose code is outside the fatal list (ECONNRESET, say) and whose message has neither fragment leads to a second attempt after the initial delay |
| RetryHandler.FatalStopsImmediately | src/utils/RetryHandler.js:18-20 | a fatal first error is rethrown after one call and no wait |
| Transcription.Step | src/services/TranscriptionService.js:100-111 | a reply ends the loop unless it carries 'No transcript available' before the fourth request; a thrown request ends it with the prefixed error |
| Transcription.GenerateSummary | src/services/TranscriptionService.js:56-154 | given how each request ends: 1 to 4 requests, to chatgpt-4o-latest, gpt-3.5-turbo, gpt-4o-mini and gpt-4o in order; wait 2000·i ms before request i>0; every earlier reply carried the marker; the last response settles the result |
| Transcription.Retries | src/services/TranscriptionService.js:65-113 | the loop from request i>0 on: each request is preceded by its backoff |
| Transcription.ErrorsArePrefixed | src/services/TranscriptionService.js:152 | every error leaving `generateSummary` starts with 'Failed to generate summary: ' |
| Transcription.Transcribe | src/services/TranscriptionService.js:13-53 | as written: without an OpenAI key for the guild the call throws the 'No OpenAI API key' message; with one, a failed stat of the file is rethrown, and otherwise building the request throws the TypeError of reading `TRANSCRIPTION_PROMPT` from the unassigned `this.config` |
| Transcription.TranscribeCorrected | src/services/TranscriptionService.js:13-53 | with the prompts available: the same two guards, then the transcription request settles the call |
| Transcription.SummaryRequestAsWritten | src/services/TranscriptionService.js:86-91 | as written, the first summary request always throws before it is sent: on the null client, or on reading `SUMMARY_PROMPT` from the unassigned `this.config` once a client is set |
| Transcription.TranscribeNeverReachesRequest | src/services/TranscriptionService.js:7-53 | `transcribe` as written never succeeds; it differs from the corrected call exactly when the guild has a key and the file exists |
| Transcription.GenerateSummaryAsWritten | src/services/TranscriptionService.js:56-154 | as written, `generateSummary` fails on its first pass with the prefixed TypeError, after one model, with no wait |
| Transcription.FirstUsableReplyWins | src/services/TranscriptionService.js:100-125 | the first reply without the marker is the summary, and no later model is asked |
| Transcription.AllMarkedFails | src/services/TranscriptionService.js:105-107 | four marked replies: all four models asked, waits 2000, 4000, 6000, and the prefixed 'Failed to generate summary' |
| Transcription.FirstRequestThrows | src/services/TranscriptionService.js:126-153 | a first request that throws ends the call with the prefixed message after one request |
| VoiceStateService.LeaveChannel | src/services/VoiceStateService.js:94-111 | the guild's connection is gone; 'disconnected' is emitted iff there was one; other guilds are unchanged |
| VoiceStateService.GetConnection | src/services/VoiceStateService.js:113-119 | null exactly when the connection is missing or destroyed |
| VoiceStateService.JoinWait | src/services/VoiceStateService.js:77-87 | after failed attempt k: 2000·3^(k-1) ms when the message mentions 500, else 2000·k ms |
| VoiceStateService.JoinChannel | src/services/VoiceStateService.js:10-92 | leaves first; 1 to 3 attempts, earlier ones failed; the first ready connection is registered and returned, otherwise the third error is thrown; one wait between attempts |
| VoiceStateService.JoinFrom | src/services/VoiceStateService.js:18-88 | the attempt loop from attempt k on: a failed attempt's connection is destroyed and leaves the registry as it was |
| VoiceStateService.ThreeFailures | src/services/VoiceStateService.js:77-91 | three failures give waits [2000, 4000], or [2000, 6000] when every message mentions 500, and the last error |
| VoiceStateService.RejoinLeavesFirst | src/services/VoiceStateService.js:12 | a second join emits 'disconnected' for the first connection and returns a different one |
| Configuration.GetGuildConfig | src/services/ConfigurationService.js:50-57 | the stored configuration, or null for an unknown guild |
| Configuration.SetGuildConfig | src/services/ConfigurationService.js:59-81 | 'Invalid guild ID' for an empty or non-string id, then 'Invalid configuration format' for a config that fails `_validateConfig`, then the Redis error; on success memory and Redis hold the config; on any error nothing changes |
| Configuration.BaseConfig | src/services/ConfigurationService.js:174 | the object a setter starts from: the stored config or `{}` |
| Configuration.SetFieldAsWritten | src/services/ConfigurationService.js:172-202 | the setters' shared step as written: 'Invalid guild ID', 'Invalid configuration format' or the Redis error exactly as `setGuildConfig` decides on the modified config, else true; Redis holds the modified config only on success; a guild that had a config holds the modified one in memory whatever the result, a new guild only on success; other guilds and `inMemoryKeys` are untouched |
| Configuration.CorrectedSetField | src/services/ConfigurationService.js:172-202 | the intended read-modify-write on a copy: succeeds iff the id is non-empty, the modified config validates and Redis accepts it; then only the guild's own entry changes, in memory and Redis; on error the store is unchanged |
| Configuration.GetSummaryChannel | src/services/ConfigurationService.js:183-191 | the channel id when present and truthy, else null |
| Configuration.SetSummaryChannel | src/services/ConfigurationService.js:172-181 | succeeds iff the id is non-empty, the channel id is a string and Redis accepts it, with the matching error otherwise; `getSummaryChannel` reads the new id back after a success, and for a guild that had a config even after a failure; Redis changes only on success, to what memory holds; other guilds are untouched |
| Configuration.GetTimeInterval | src/services/ConfigurationService.js:204-214 | a missing or falsy interval gives 4·60000 ms (src/config.js:3); a number n gives n·60000 |
| Configuration.SetTimeInterval | src/services/ConfigurationService.js:193-202 | succeeds iff the id is non-empty, the existing config validates and Redis accepts it; the summary channel is preserved; after a success, or for a guild that had a config whatever the result, a falsy interval reads as the default and a non-zero number n as n·60000; Redis changes only on success |
| Configuration.GetOpenAIKey | src/services/ConfigurationService.js:118-126 | the key when present and truthy, else null |
| Configuration.SetOpenAIKey | src/services/ConfigurationService.js:106-116 | always returns true, since the write is not awaited; a guild that had a config reads the key back whatever the write does, a new guild only when the write succeeds; Redis gets the config with the key only when the write succeeds; `hasOpenAIKey` and other guilds are unaffected |
| Configuration.ClearOpenAIKey | src/services/ConfigurationService.js:128-139 | an unknown guild changes nothing; a known guild loses its key in memory at once, and Redis gets the config without the key only when the rewrite validates and succeeds; other guilds are untouched |
| Configuration.DeleteGuildConfig | src/services/ConfigurationService.js:141-151 | true with the guild gone from memory and Redis, or false with nothing changed |
| Configuration.GuildOfKey | src/services/ConfigurationService.js:26 | the guild id is the second ':' field of a `guild:` key |
| Configuration.KeyHasGuildField | src/services/ConfigurationService.js:26 | a `guild:` key always has that second field |
| Configuration.GuildOfOwnKey | src/services/ConfigurationService.js:26 | a key built from a ':'-free id gives that id back |
| Configuration.LoadEntriesMeaning | src/services/ConfigurationService.js:24-41 | after loading, each guild holds its last entry that parses and validates; a guild without one keeps what it had |
| Configuration.LoadConfigs | src/services/ConfigurationService.js:17-48 | a failure to list keys is 'Failed to load configurations'; otherwise each guild with a loadable entry holds its last one, every other guild keeps what it had, Redis and `inMemoryKeys` are untouched, and a consistent store stays consistent |
| Configuration.LoadEntriesEveryGuild | src/services/ConfigurationService.js:24-41 | the meaning of the loading loop, for every guild at once |
| Configuration.LoadKeepsConsistent | src/services/ConfigurationService.js:30-36 | invalid configs are skipped, so only valid ones are loaded |
| Configuration.SetThenGet | src/services/ConfigurationService.js:50-81 | after a valid set, `getGuildConfig` returns the config |
| Configuration.ValidConfig | src/services/ConfigurationService.js:83-95 | a non-object is rejected; an object is accepted exactly when it has no `summaryChannelId` property or that property holds a string (a property holding `undefined` is present and rejected) |
| Configuration.HasOpenAIKey | src/services/ConfigurationService.js:97-104 | true exactly when the guild is in the `inMemoryKeys` Map, whatever the guild's configuration holds; nothing writes that Map (`SetKeyDoesNotMakeHasKey`) |
| Configuration.CorrectedSetFieldKeepsConsistent | src/services/ConfigurationService.js:83-95 | the corrected setter keeps every stored config valid |
| Configuration.AsWrittenKeepsConsistentUnlessChannel | src/services/ConfigurationService.js:83-95 | the setters as written keep every stored config valid unless they write a non-string summary channel |
| Configuration.AsWrittenDiffersOnlyOnFailure | src/services/ConfigurationService.js:172-202 | the setter as written returns what the corrected one returns; their stores differ only after a failure on a guild that had a config, which as written keeps the modified object |
| Configuration.AsWrittenFailedSetChangesMemory | src/services/ConfigurationService.js:172-176 | a failed set as written still changes memory, which then disagrees with Redis and holds an invalid config |
| Configuration.CorrectedFailedSetKeepsMemory | src/services/ConfigurationService.js:59-81 | the corrected setter on the same input changes nothing |
| Configuration.SetKeyDoesNotMakeHasKey | src/services/ConfigurationService.js:97-116 | `setOpenAIKey` does not make `hasOpenAIKey` true |
| Configuration.KeyVisibleWhateverTheWrite | src/services/ConfigurationService.js:106-111 | for a guild with a config, a key set while the Redis write fails reads back at once, and Redis keeps the old config |
| Configuration.ClearAfterSetForgetsKey | src/services/ConfigurationService.js:106-139 | for a guild with a config, clearing after setting leaves no key, whatever either write does |
| Configuration.DeleteForgetsGuild | src/services/ConfigurationService.js:141-151 | after a successful delete the guild has no config in memory or Redis, and other guilds are untouched |
| Configuration.PersistedReloads | src/services/ConfigurationService.js:17-81 | what a successful `setGuildConfig` writes under `guild:<id>` is what `loadConfigs` reads back for that guild |
| Configuration.ZeroIntervalFallsBack | src/services/ConfigurationService.js:207 | a stored interval of 0 reads as 240000 ms |
| Storage.TempFileName | src/services/StorageService.js:142-145 | `recording-<guild>-<ms>-<rand>.<type>`, with type 'pcm' by default |
| Storage.TempFileNameFields | src/services/StorageService.js:145 | with '-'-free parts the name splits back into guild, time and random id, and the time parses back |
| Storage.SavedFileNameRoundTrip | src/services/StorageService.js:223 | a saved summary or transcript name has the guild prefix, and the range query's parse gives its timestamp back |
| Storage.PrefixedHasThreeFields | src/services/StorageService.js:362-364 | a prefixed name always has the third '-' field the parse reads |
| Storage.WantedStamp | src/services/StorageService.js:364-365 | a wanted file name has the third field the parse reads, and its parsed timestamp lies in [start, end] |
| Storage.WantedFiles | src/services/StorageService.js:361-365 | exactly the listed files with the prefix and an in-range timestamp |
| Storage.ReadAll | src/services/StorageService.js:366-371 | succeeds iff every file reads; entry i carries file i's parsed timestamp, its content and its name; a failed read's error is rethrown |
| Storage.InsertByTimestamp | src/services/StorageService.js:375 | insertion keeps the entries sorted by timestamp and is a permutation plus the new entry |
| Storage.SortByTimestamp | src/services/StorageService.js:375 | sorted ascending by timestamp, a permutation of the input |
| Storage.RangeQuery | src/services/StorageService.js:351-403 | a missing directory gives []; a listing failure is rethrown; the query succeeds iff every wanted file reads, and then gives one entry per prefixed, in-range file, with its content and the timestamp its name parses to, sorted ascending by that timestamp |
| Storage.RangeQueryEntries | src/services/StorageService.js:361-375 | one entry per wanted file, each in range, with its own content and its name's timestamp |
| Storage.RangeQueryStampsParse | src/services/StorageService.js:364-375 | the timestamp of every entry a range query returns is the one its file name parses to |
| Storage.InsertDescending | src/services/StorageService.js:295-296 | insertion keeps the names in descending order and is a permutation plus the new name |
| Storage.SortDescending | src/services/StorageService.js:295-296 | `sort().reverse()`: descending order, a permutation of the input |
| Storage.Take | src/services/StorageService.js:297 | `slice(0, limit)`: a prefix of length min(limit, n), with a negative limit counting from the end |
| Storage.SummaryNames | src/services/StorageService.js:294 | exactly the listed names with the guild's summary prefix |
| Storage.RecentFiles | src/services/StorageService.js:293-297 | prefixed names from the listing, in descending order; min(limit, n) of them for the n prefixed names, and max(n + limit, 0) for a negative limit |
| Storage.ReadableFiles | src/services/StorageService.js:305-329 | exactly the files whose read succeeds; all of them when every read does |
| Storage.ReadableKeepsDescending | src/services/StorageService.js:293-329 | skipping unreadable files keeps the descending order |
| Storage.ReadReadable | src/services/StorageService.js:305-329 | one entry per readable file and no other, in the files' order: entry k is the k-th readable file's timestamp text and content |
| Storage.GetRecentSummaries | src/services/StorageService.js:283-349 | a missing directory gives []; a listing failure is rethrown; otherwise one entry per readable chosen file, newest name first, each with the name's timestamp text and the file's content, and at most `limit` of them |
| Storage.AllReadableGivesNewest | src/services/StorageService.js:283-349 | when every read succeeds: min(limit, n) entries, entry k being the k-th newest summary's timestamp and content |
| Storage.RecentAreGreatest | src/services/StorageService.js:293-297 | a prefixed name left out is not greater than any name chosen |
| Storage.RetentionBoundary | src/services/StorageService.js:54 | one retention day is 86400000 ms, and the sweep's test is strict: a file exactly that old stays |
| Storage.CleanDirectory | src/services/StorageService.js:82-140 | a file is deleted iff it was listed, its stat succeeded, now − mtime > maxAge and its unlink succeeded; a listing failure deletes nothing |
| Storage.DeleteFile | src/services/StorageService.js:254-281 | true iff the file existed and was unlinked; the file set changes only then |
| RedisConfig.RetryStrategy | src/config/redis.js:45-48 | min(times·50, 2000): never above 2000 |
| RedisConfig.RetryStrategyMonotone | src/config/redis.js:46 | the delay does not decrease as `times` grows |
| RedisConfig.Auth | src/config/redis.js:29-31 | 'user:password' with a truthy username, else the password alone |
| RedisConfig.Protocol | src/config/redis.js:18-33 | 'rediss' iff REDIS_TLS_ENABLED is 'true' |
| RedisConfig.ConstructRedisUrl | src/config/redis.js:24-35 | development gives 'redis://redis:6379'; otherwise protocol://auth@host:port, with unset parts rendered as 'undefined' |
| RedisConfig.SchemeReadsBack | src/config/redis.js:33-34 | the URL's scheme reads back as 'rediss' exactly when TLS is on outside development |
| RedisConfig.UnsetPasswordRendersUndefined | src/config/redis.js:29-34 | with neither username nor password the URL contains '://undefined@' |
| TranscriptionWorker.ErrorText | src/workers/transcriptionWorker.js:57 | an empty error message becomes 'Unknown error in worker thread' |
| TranscriptionWorker.ProcessRecording | src/workers/transcriptionWorker.js:9-59 | timeouts give 'Transcription timeout' or 'Summary generation timeout'; a blank or absent transcript gives the no-speech success and no summary request; otherwise the transcript with the reply's fields; a failure always has a non-empty error |
| TranscriptionWorker.SuccessCarriesTranscript | src/workers/transcriptionWorker.js:25-52 | a success carries either '' for no speech or the non-blank transcript received |
| TranscriptionWorker.StringReplyLosesSummary | src/workers/transcriptionWorker.js:41-52 | a string reply yields a success whose summary and flags are undefined |
| RecordingProcessor.ProcessRecordings | src/services/RecordingProcessorService.js:26-48 | never throws; the output is exactly the successful transcriptions in input order; the calls are close, transcribe and delete for each recording in turn, whatever the outcomes |
| RecordingProcessor.Successful | src/services/RecordingProcessorService.js:34-36 | at most one output per recording, and each output is the user id and transcript of a recording whose transcription succeeded |
| RecordingProcessor.AllCalls | src/services/RecordingProcessorService.js:28-45 | three calls per recording, and calls 3i to 3i+2 are the close, transcribe and delete of recording i, so a close failure does not prevent the transcription |
| RecordingProcessor.AllCallsDeleteEachFile | src/services/RecordingProcessorService.js:39-45 | the files deleted are the recordings' files, in order |
| RecordingProcessor.EachFileDeletedOnce | src/services/RecordingProcessorService.js:39-45 | with distinct file names, each file is deleted exactly once |
| RecordingProcessor.FailureDropsOnlyThatUser | src/services/RecordingProcessorService.js:37-38 | a failed transcription leaves the output as if that recording were absent |
| AudioService.Fresh | src/services/AudioService.js:161-171 | a new info has no data, zero bytes, no streams and no speaking states |
| AudioService.StartRecording | src/services/AudioService.js:145-150 | throws 'No voice receiver available' exactly when there is no receiver |
| AudioService.Step | src/services/AudioService.js:183-223 | a start for a user with a stream changes nothing, otherwise it subscribes and marks speaking; an end sets false only for a user marked true; a chunk sets dataReceived and adds its length; the invariant is kept |
| AudioService.RunKeepsInv | src/services/AudioService.js:183-223 | any sequence of events keeps one stream per user and a speaking entry per stream |
| AudioService.RunKeepsStart | src/services/AudioService.js:183-223 | no handler touches the start time recorded when the info was built |
| AudioService.RunFromFresh | src/services/AudioService.js:195-199 | from a fresh info, bytesWritten is the sum of the chunk lengths and dataReceived says whether any chunk arrived |
| AudioService.StartDoesNotResume | src/services/AudioService.js:185-186 | a later start does not set a false speaking entry back to true |
| AudioService.EndOfUnknownUser | src/services/AudioService.js:218-222 | an end for an unknown user adds no entry |
| AudioService.ConvertToMp3 | src/services/AudioService.js:18-113 | succeeds iff the input is non-empty and still there, ffmpeg exits 0, and the output is non-empty; each failure has its own message |
| AudioService.OutputName | src/services/AudioService.js:29 | the output name is four characters longer than the input |
| AudioService.OutputNameReadsBack | src/services/AudioService.js:29 | the output name is the input name followed by '.mp3' |
| VoiceRecorder.DeleteTemp | src/VoiceRecorder.js:358-360 | the delete call is traced, the file is gone, and nothing else changes |
| VoiceRecorder.OnDisconnected | src/VoiceRecorder.js:23-30 | for an active guild: CONNECTION_CLOSED and a started stop; otherwise nothing |
| VoiceRecorder.DurationMinutes | src/VoiceRecorder.js:210-211 | `Math.round(d / 60000)`: the nearest minute, halves rounding up |
| VoiceRecorder.SummaryWithFallback | src/VoiceRecorder.js:445-454 | a failed summary falls back to the transcript and schedules a background job; otherwise the summary, no job |
| VoiceRecorder.SendSummary | src/VoiceRecorder.js:199-223 | posts once exactly when the guild id is set, the configured channel id is truthy and the channel is found; the post carries the rounded minutes and the summary |
| VoiceRecorder.Convert | src/VoiceRecorder.js:438 | the conversion's outcome; a produced MP3 joins the temp files |
| VoiceRecorder.Cleanup | src/VoiceRecorder.js:316-366 | the guild always ends absent and disconnected; an active guild's own timer is cleared, and its temp file is deleted only when `deleteFiles` is true and the name is non-empty; CONNECTION_CLOSED is emitted and a second `stopRecording` is started exactly when the guild was active and connected; other guilds are untouched; the invariant is kept |
| VoiceRecorder.StartRecording | src/VoiceRecorder.js:225-277 | a duplicate throws 'Recording already in progress' with no change; success iff the join, decoder and receiver succeed, when the entry, a timer with the guild's interval and RECORDING_STARTED appear; a failure leaves no entry |
| VoiceRecorder.ProcessRotated | src/VoiceRecorder.js:89-153 | fails iff conversion, the stat, or a non-empty file's transcription fails, and then deletes, posts and emits nothing; an empty file deletes only the PCM file and keeps the MP3; otherwise the transcript is saved, a failed summary schedules a job, the summary (or the transcript) is posted as `sendSummaryToChannel` would, INTERVAL_COMPLETED then RECORDING_SUMMARIZED are emitted, and the PCM file then the MP3 are deleted; the registry is untouched |
| VoiceRecorder.RotateStreams | src/VoiceRecorder.js:38-87 | no-op for an absent guild; the guild stays present: fresh info without a timer on success, the old info restored on a setup failure, with ROTATION_ERROR emitted and nothing else changed; on success the old info is processed: the saved transcripts, jobs, posts, delete calls and temp files are those `processRotatedRecording` leaves, and ROTATION_ERROR follows its events exactly when it fails; timers are untouched |
| VoiceRecorder.ClearStreamsAndSave | src/VoiceRecorder.js:383-476 | throws 'No audio data' with no change when no data was received; otherwise clears the streams and speaking maps; a vanished PCM file returns null with the guild still present; an error or null saves, posts, schedules, emits and deletes nothing; a produced MP3 is `<file>.mp3`, the transcript is saved, a failed summary has scheduled a job, the summary (or the transcript) is posted as `sendSummaryToChannel` would, RECORDING_SUMMARIZED is emitted (then CONNECTION_CLOSED by the cleanup when connected), no file is deleted and the guild has been cleaned up; the invariant is kept |
| VoiceRecorder.StopRecording | src/VoiceRecorder.js:279-314 | an empty id or registry returns at once; a missing guild in a non-empty registry throws the TypeError and changes nothing; a guild without data throws 'No audio data'; an error removes the guild; a stop that produced an MP3 returns `<file>.mp3`, has saved the transcript, scheduled a job for a failed summary, posted as `sendSummaryToChannel` would, emitted RECORDING_SUMMARIZED, CONNECTION_CLOSED when connected, then RECORDING_STOPPED, deleted no file, and removed the guild; other guilds are untouched; the invariant is kept |
| VoiceRecorder.GetStatus | src/VoiceRecorder.js:368-381 | null exactly for an absent guild, else the info's figures |
| VoiceRecorder.FireTimer | src/VoiceRecorder.js:256-260 | a cleared timer, or one whose guild is absent, changes nothing; a live timer of an active guild rotates it, putting a fresh info without a timer in place, or keeps the old info and fails exactly when the decoder or receiver is missing; the timers are untouched and the invariant is kept |
| VoiceRecorder.FailedStartLeavesNoEntry | src/VoiceRecorder.js:267-275 | a failed start leaves the registry as it was |
| VoiceRecorder.StopRemoves | src/VoiceRecorder.js:297-312 | stopping an active guild removes it on success and on error, unless the file vanished before the existence check and yet the final stat succeeded |
| VoiceRecorder.StrayTimerSurvivesCleanup | src/VoiceRecorder.js:61-65 | after start, rotation and cleanup, the first timer is still live for the guild, and its firing changes nothing |
| VoiceRecorder.RestartKeepsStrayTimer | src/VoiceRecorder.js:256-263 | a restart while that timer lives gives the guild two live rotation timers |
| VoiceRecorder.StatusAfterEvents | src/VoiceRecorder.js:368-381 | for a recording started at `now` whose handlers saw a sequence of receiver events, `getStatus` reports the elapsed time, the streams of the users who started speaking, the sum of the chunk lengths, and whether any chunk arrived |
| VoiceRecorder.DisconnectOfIdleGuild | src/VoiceRecorder.js:24 | a disconnect for a guild without an entry changes nothing |
| VoiceRecorder.PostedSummaryFallsBack | src/VoiceRecorder.js:113-122 | a failed summary posts the transcript under the rounded-minutes heading |

## Left out

- Concurrency. Operations run one at a time to completion. Interleavings at
  `await` points are not modelled: a timer firing mid-stop, the 1 s settle
  sleeps and the 5 s stream timeouts.
- The second `stopRecording` that `cleanup` starts through the
  'disconnected' listener (src/VoiceRecorder.js:23-28, reached from :318)
  runs concurrently. It is recorded in `reentrantStops` and not followed.
  That stop still holds the guild's `recordingInfo`. After a successful
  first stop it can therefore convert the PCM file, which was not deleted,
  a second time. It can then post a second summary and emit
  RECORDING_SUMMARIZED and RECORDING_STOPPED a second time. None of this
  appears in the model's traces.
- The opus decoder fallback chain, ffmpeg spawning and the `fs` streams.
  Each becomes an outcome: whether a decoder exists, how ffmpeg ended, and
  the stat results.
- OpenAI and Discord calls. Each is an outcome: completion contents, the
  transcription result, the channel fetch.
- `jobService.scheduleBackgroundSummary` is a recorded job, assumed to
  succeed.
- `storage.saveTranscript` is a recorded save, assumed to succeed. Unlink
  failures inside the recorder's own `deleteFile` calls are not modelled.
  `Storage.DeleteFile` models them.
- The 'error' listener of the voice service only logs and re-emits, and is
  left out.
- Logging everywhere.
- `setTimeout` waits are recorded delays, and `setInterval` timers are
  explicit timer records fired by `VoiceRecorder.FireTimer`. Their periods
  are not simulated.
- `Configuration.GetTimeInterval`: a string or object interval would go
  through JavaScript numeric coercion, and the model returns it as
  `Coerced` without evaluating it.
- `VoiceRecorder.GetStatus`: the arrays of speaking entries and stream keys
  become a map and a set, so their insertion order is not kept.
- `AudioService.Step`: a data chunk for a user without a stream is ignored,
  because only subscribed streams deliver data.
- Configuration.PersistedReloads: treats `JSON.stringify` then `JSON.parse` as the identity. `JSON.stringify` drops properties whose value is `undefined`, such as `openAIKey: undefined`, so such a property does not read back.
- Configuration.Value: a JavaScript number is modelled as an `int`. A
  fractional `timeInterval` read back from Redis, such as 1.5, cannot be
  represented, so the non-integer period `getTimeInterval` would give it is
  not modelled.
- Storage.CleanDirectory: `stats.mtimeMs` is a floating-point number, and
  the `stat` outcome gives it as an `int` of milliseconds. Sub-millisecond
  differences in the strict retention comparison are not modelled.
- `Configuration.LoadConfigs`: `redis.get` and `JSON.parse` are one outcome
  per key (`parsed`).
- `backupConfigs` is not part of the core.
- ServiceContainer.Get: a factory is a total, pure function of the
  registered factory value. Two cases are not modelled. A factory that
  throws makes `get` throw without caching anything. A factory that calls
  back into the container through `factory(this)`
  (src/services/Container.js:39) can cache other instances before its own
  product is cached. Nothing in the source registers a factory.
- Transcription.Transcribe: the configuration service is the one
  `transcribe` expects. src/services/ServiceFactory.js:65 passes the OpenAI
  client in its place, so as wired even `getOpenAIKey` at
  src/services/TranscriptionService.js:15 throws a TypeError. The factory's
  wiring is not part of this model.
- Transcription.GenerateSummary: models the loop given how each request
  ends. As written, no request is ever sent; see "## Findings" and
  `Transcription.GenerateSummaryAsWritten`.
- Slash commands, command registries, the bot's entry points, job queues,
  encryption, logger and error boundary are not part of this model.
- The process-level Redis connection options other than `retryStrategy` and
  the URL are not part of this model.

## Findings

| source | as written | input that shows it | evidently intended | confidence | as-written member | corrected member |
|---|---|---|---|---|---|---|
| src/services/ConfigurationService.js:172-202 | the setters assign the field on the object `getGuildConfig` returns, which is the one held in the in-memory Map, before `setGuildConfig` validates or writes to Redis | guild "1" stored as `{}`; `setSummaryChannel("1", null)` throws 'Invalid configuration format', yet memory now holds `{summaryChannelId: null}`, a config that never validated and that Redis does not have | modify a copy, so a failed set leaves memory and Redis unchanged and in agreement | not executed | Configuration.SetSummaryChannel, Configuration.AsWrittenFailedSetChangesMemory | Configuration.CorrectedSetField, Configuration.CorrectedFailedSetKeepsMemory |
| src/services/TranscriptionService.js:7-11 | the constructor takes one argument and never assigns `this.config`, yet `transcribe` builds its request with `this.config.TRANSCRIPTION_PROMPT` (:41) and `generateSummary` with `this.config.SUMMARY_PROMPT` (:91) | any guild with an OpenAI key and an existing audio file: `transcribe` throws "Cannot read properties of undefined (reading 'TRANSCRIPTION_PROMPT')" before the request; `generateSummary` on any transcript throws 'Failed to generate summary: ' followed by a TypeError on its first pass | the service holds the configuration with the prompts, as the service's own test constructs it with `(openai, config)` (src/tests/TranscriptionService.test.js:25), so the requests are sent | high; not executed | Transcription.Transcribe, Transcription.TranscribeNeverReachesRequest, Transcription.GenerateSummaryAsWritten | Transcription.TranscribeCorrected, Transcription.GenerateSummary, Transcription.FirstUsableReplyWins |

=== FILE: audio_service.dfy ===
/** The capture state of src/services/AudioService.js. `StartRecording`
    builds a recording info and installs three handlers (speaking start,
    speaking end, and data on a user's stream); their effect on the info is
    modelled as a transition function over receiver events. The guards and
    naming of `convertToMp3` are modelled over the outcomes of the file
    checks and the ffmpeg process. */
module AudioService {
  import opened Wrappers
  import opened Text

  /** The parts of a recording info the handlers read and write.
      `streams` is the key set of `audioStreams`; `subscriptions` lists the
      users `receiver.subscribe` was called for, in order. */
  datatype Capture = Capture(
    startTime: int,
    streams: set<string>,
    speaking: map<string, bool>,
    dataReceived: bool,
    bytesWritten: nat,
    lastDataTime: Option<int>,
    subscriptions: seq<string>)

  /** What the receiver reports: a user starts or stops speaking, or the
      subscribed stream of a user delivers a chunk of `length` bytes at
      time `at`. */
  datatype ReceiverEvent =
    | SpeakingStart(user: string)
    | SpeakingEnd(user: string)
    | Chunk(user: string, length: nat, at: int)

  const NoReceiver: string := "No voice receiver available"

  /** The info `StartRecording` stores before any event. */
  function Fresh(now: int): (c: Capture)
    ensures !c.dataReceived && c.bytesWritten == 0
    ensures c.streams == {} && c.speaking == map[] && c.subscriptions == []
    ensures c.startTime == now && c.lastDataTime.None?
  {
    Capture(now, {}, map[], false, 0, None, [])
  }

  /** `StartRecording(connection, opusDecoder, outputStream)`: a connection
      without a receiver throws. */
  function StartRecording(hasReceiver: bool, now: int): (r: Result<Capture>)
    ensures !hasReceiver <==> r == Err(NoReceiver)
    ensures hasReceiver ==> r == Ok(Fresh(now))
  {
    if !hasReceiver then Err(NoReceiver) else Ok(Fresh(now))
  }

  /** Every user with a stream has a speaking entry and vice versa, each
      user was subscribed once, and bytes imply data. */
  ghost predicate Inv(c: Capture) {
    && c.speaking.Keys == c.streams
    && (forall u :: u in c.subscriptions <==> u in c.streams)
    && (forall i, j :: 0 <= i < j < |c.subscriptions| ==> c.subscriptions[i] != c.subscriptions[j])
    && (c.bytesWritten > 0 ==> c.dataReceived)
  }

  /** The three handlers. */
  function Step(c: Capture, e: ReceiverEvent): (d: Capture)
    ensures Inv(c) ==> Inv(d)
    ensures d.startTime == c.startTime
    ensures c.streams <= d.streams
    ensures e.SpeakingStart? && e.user in c.streams ==> d == c
    ensures e.SpeakingStart? && e.user !in c.streams ==>
      d.speaking == c.speaking[e.user := true] && d.streams == c.streams + {e.user}
      && d.subscriptions == c.subscriptions + [e.user]
    ensures e.SpeakingEnd? ==>
      d.speaking == (if e.user in c.speaking && c.speaking[e.user] then c.speaking[e.user := false] else c.speaking)
      && d.streams == c.streams
    ensures e.Chunk? && e.user in c.streams ==>
      d.dataReceived && d.bytesWritten == c.bytesWritten + e.length && d.lastDataTime == Some(e.at)
    ensures !(e.Chunk? && e.user in c.streams) ==>
      d.dataReceived == c.dataReceived && d.bytesWritten == c.bytesWritten
  {
    match e
    case SpeakingStart(u) =>
      if u in c.streams then c
      else c.(speaking := c.speaking[u := true], streams := c.streams + {u},
              subscriptions := c.subscriptions + [u])
    case SpeakingEnd(u) =>
      if u in c.speaking && c.speaking[u] then c.(speaking := c.speaking[u := false]) else c
    case Chunk(u, n, at) =>
      // Only a subscribed user's stream delivers data.
      if u in c.streams then c.(dataReceived := true, bytesWritten := c.bytesWritten + n, lastDataTime := Some(at))
      else c
  }

  /** The events applied in order. */
  function Run(c: Capture, es: seq<ReceiverEvent>): Capture {
    if |es| == 0 then c else Step(Run(c, es[..|es| - 1]), es[|es| - 1])
  }

  /** Reference: the users that ever started speaking. */
  function StartedUsers(es: seq<ReceiverEvent>): set<string> {
    if |es| == 0 then {}
    else
      var last := es[|es| - 1];
      StartedUsers(es[..|es| - 1]) + (if last.SpeakingStart? then {last.user} else {})
  }

  /** Every chunk comes from a user who started speaking before it, as
      only subscribed streams deliver data. */
  predicate ChunksFollowStarts(es: seq<ReceiverEvent>) {
    |es| == 0 ||
      (var last := es[|es| - 1];
       ChunksFollowStarts(es[..|es| - 1]) && (last.Chunk? ==> last.user in StartedUsers(es[..|es| - 1])))
  }

  /** Reference: the total length of the chunks. */
  function ChunkBytes(es: seq<ReceiverEvent>): nat {
    if |es| == 0 then 0
    else
      var last := es[|es| - 1];
      ChunkBytes(es[..|es| - 1]) + (if last.Chunk? then last.length else 0)
  }

  predicate HasChunk(es: seq<ReceiverEvent>) {
    exists i :: 0 <= i < |es| && es[i].Chunk?
  }

  // -----------------------------------------------------------------------
  // Properties

  lemma {:induction false} RunKeepsInv(c: Capture, es: seq<ReceiverEvent>)
    requires Inv(c)
    ensures Inv(Run(c, es))
    decreases |es|
  {
    if |es| > 0 {
      RunKeepsInv(c, es[..|es| - 1]);
    }
  }

  lemma {:induction false} RunKeepsStart(c: Capture, es: seq<ReceiverEvent>)
    ensures Run(c, es).startTime == c.startTime
    decreases |es|
  {
    if |es| > 0 {
      RunKeepsStart(c, es[..|es| - 1]);
    }
  }

  /** From a fresh info, the streams are those of the users who started
      speaking, `bytesWritten` is the sum of the chunk lengths, and
      `dataReceived` says whether any chunk arrived. */
  lemma {:induction false} RunFromFresh(now: int, es: seq<ReceiverEvent>)
    requires ChunksFollowStarts(es)
    ensures Run(Fresh(now), es).streams == StartedUsers(es)
    ensures Run(Fresh(now), es).bytesWritten == ChunkBytes(es)
    ensures Run(Fresh(now), es).dataReceived <==> HasChunk(es)
    decreases |es|
  {
    if |es| > 0 {
      var init := es[..|es| - 1];
      var last := es[|es| - 1];
      RunFromFresh(now, init);
      if HasChunk(init) {
        var i :| 0 <= i < |init| && init[i].Chunk?;
        assert es[i] == init[i];
      }
      if HasChunk(es) && !last.Chunk? {
        var i :| 0 <= i < |es| && es[i].Chunk?;
        assert init[i] == es[i];
      }
    }
  }

  /** Once a user's speaking entry is false, a later start for that user
      does not set it back: the user already has a stream. */
  lemma StartDoesNotResume(c: Capture, u: string)
    requires Inv(c)
    requires u in c.speaking && !c.speaking[u]
    ensures Step(c, SpeakingStart(u)).speaking[u] == false
  {
  }

  /** A speaking end for a user never seen adds no entry. */
  lemma EndOfUnknownUser(c: Capture, u: string)
    requires Inv(c) && u !in c.streams
    ensures u !in Step(c, SpeakingEnd(u)).speaking
  {
  }

  // -----------------------------------------------------------------------
  // convertToMp3

  /** How the ffmpeg process ended: its 'close' event with an exit code
      (`None` when a signal killed it), or its 'error' event. */
  datatype Ffmpeg = Exited(code: Option<int>) | ProcessError(message: string)

  const EmptyInput: string := "Input file is empty"
  const EmptyOutput: string := "FFmpeg produced empty output file"

  /** `convertToMp3(inputFile)`. `inputStat` is the size of the input or
      the stat error; `stillExists` is the existence check after the 1 s
      settle wait; `outputStat` is the size of the output or the stat
      error. */
  function ConvertToMp3(inputFile: string, inputStat: Result<nat>, stillExists: bool,
                        ffmpeg: Ffmpeg, outputStat: Result<nat>): (r: Result<string>)
    ensures r.Ok? <==>
      inputStat.Ok? && inputStat.value > 0 && stillExists
      && ffmpeg == Exited(Some(0)) && outputStat.Ok? && outputStat.value > 0
    ensures r.Ok? ==> r.value == OutputName(inputFile)
    ensures inputStat == Ok(0) ==> r == Err(EmptyInput)
    ensures inputStat.Ok? && inputStat.value > 0 && !stillExists ==>
      r == Err("Input file was deleted before conversion: " + inputFile)
    ensures inputStat.Ok? && inputStat.value > 0 && stillExists && ffmpeg.Exited? && ffmpeg.code != Some(0) ==>
      r == Err("FFmpeg conversion failed with code " + RenderCode(ffmpeg.code))
    ensures inputStat.Ok? && inputStat.value > 0 && stillExists && ffmpeg == Exited(Some(0)) && outputStat == Ok(0) ==>
      r == Err(EmptyOutput)
  {
    match inputStat
    case Err(m) => Err(m)
    case Ok(size) =>
      if size == 0 then Err(EmptyInput)
      else if !stillExists then Err("Input file was deleted before conversion: " + inputFile)
      else
        match ffmpeg
        case ProcessError(m) => Err(m)
        case Exited(code) =>
          if code != Some(0) then Err("FFmpeg conversion failed with code " + RenderCode(code))
          else
            match outputStat
            case Err(m) => Err(m)
            case Ok(outSize) => if outSize == 0 then Err(EmptyOutput) else Ok(OutputName(inputFile))
  }

  /** `inputFile + '.mp3'` */
  function OutputName(inputFile: string): (out: string)
    ensures |out| == |inputFile| + 4
  {
    inputFile + ".mp3"
  }

  /** A template literal renders a null exit code as `null`. */
  function RenderCode(code: Option<int>): string {
    match code
    case None => "null"
    case Some(n) => IntToString(n)
  }

  /** The output name keeps the input name and adds the extension, so the
      input is recovered by dropping the last four characters. */
  lemma OutputNameReadsBack(inputFile: string)
    ensures StartsWith(OutputName(inputFile), inputFile)
    ensures EndsWith(OutputName(inputFile), ".mp3")
    ensures OutputName(inputFile)[..|OutputName(inputFile)| - 4] == inputFile
  {
  }
}

=== FILE: configuration.dfy ===
/** The in-memory half of the per-guild configuration store
    (src/services/ConfigurationService.js). A guild's configuration is a
    JavaScript object, modelled by its own properties; Redis is modelled by
    the configurations it holds under `guild:<id>` (`persisted`) and by the
    outcome of each call made to it, passed in as a parameter. */
module Configuration {
  import opened Wrappers
  import opened Text

  /** A JavaScript value as far as the configuration code inspects it:
      truthiness, `typeof`, and the properties of an object. A property
      that holds `undefined` is still present (`'k' in o` holds). */
  datatype Value =
    | Undefined
    | Null
    | Bool(b: bool)
    | Num(n: int)
    | Str(s: string)
    | Obj(fields: map<string, Value>)

  type Fields = map<string, Value>

  predicate Truthy(v: Value) {
    match v
    case Undefined => false
    case Null => false
    case Bool(b) => b
    case Num(n) => n != 0
    case Str(s) => s != ""
    case Obj(_) => true
  }

  /** `configs` and `inMemoryKeys` are the service's two Maps; `persisted`
      is what Redis holds for each guild. */
  datatype Store = Store(
    configs: map<string, Fields>,
    inMemoryKeys: set<string>,
    persisted: map<string, Fields>)

  /** The outcome of a setter: what it returned or threw, and the store
      after the call. */
  datatype Update = Update(result: Result<bool>, next: Store)

  const SummaryChannelField: string := "summaryChannelId"
  const TimeIntervalField: string := "timeInterval"
  const OpenAIKeyField: string := "openAIKey"

  /** `TIME_INTERVAL` of src/config.js, in minutes. */
  const DefaultTimeIntervalMinutes: int := 4

  const InvalidGuildId: string := "Invalid guild ID"
  const InvalidFormat: string := "Invalid configuration format"
  const LoadFailed: string := "Failed to load configurations"

  /** `_validateConfig(config)`: an object whose `summaryChannelId`, when
      present, is a string. */
  function ValidConfig(config: Value): (valid: bool)
    ensures !config.Obj? ==> !valid
    ensures config.Obj? && SummaryChannelField in config.fields && !config.fields[SummaryChannelField].Str? ==> !valid
    ensures config.Obj? && SummaryChannelField !in config.fields ==> valid
    ensures config.Obj? && SummaryChannelField in config.fields && config.fields[SummaryChannelField].Str? ==> valid
  {
    config.Obj? && (SummaryChannelField in config.fields ==> config.fields[SummaryChannelField].Str?)
  }

  /** The store keeps only configurations that validate. */
  ghost predicate Consistent(st: Store) {
    forall g :: g in st.configs ==> ValidConfig(Obj(st.configs[g]))
  }

  /** `getGuildConfig(guildId)`: every stored configuration is an object,
      hence truthy, so `|| null` only maps a missing guild to null. */
  function GetGuildConfig(st: Store, g: string): (r: Option<Fields>)
    ensures r.Some? <==> g in st.configs
    ensures r.Some? ==> r.value == st.configs[g]
  {
    if g in st.configs then Some(st.configs[g]) else None
  }

  /** `setGuildConfig(guildId, config)`: the guild id must be a non-empty
      string and the configuration must validate; Redis is written before
      memory, so a failed write leaves memory as it was. */
  function SetGuildConfig(st: Store, guildId: Value, config: Value, redisSet: Result<()>): (u: Update)
    ensures u.result.Ok? <==> Truthy(guildId) && guildId.Str? && ValidConfig(config) && redisSet.Ok?
    ensures u.result.Ok? ==>
      && u.result.value
      && u.next == st.(configs := st.configs[guildId.s := config.fields],
                       persisted := st.persisted[guildId.s := config.fields])
    ensures u.result.Err? ==> u.next == st
    ensures !(Truthy(guildId) && guildId.Str?) ==> u.result == Err(InvalidGuildId)
    ensures Truthy(guildId) && guildId.Str? && !ValidConfig(config) ==> u.result == Err(InvalidFormat)
    ensures Truthy(guildId) && guildId.Str? && ValidConfig(config) && redisSet.Err? ==>
      u.result == Err(redisSet.message)
  {
    if !Truthy(guildId) || !guildId.Str? then Update(Err(InvalidGuildId), st)
    else if !ValidConfig(config) then Update(Err(InvalidFormat), st)
    else if redisSet.Err? then Update(Err(redisSet.message), st)
    else
      var g := guildId.s;
      Update(Ok(true), st.(configs := st.configs[g := config.fields], persisted := st.persisted[g := config.fields]))
  }

  /** The object a read-modify-write setter starts from:
      `getGuildConfig(guildId) || {}`. */
  function BaseConfig(st: Store, g: string): (f: Fields)
    ensures g in st.configs ==> f == st.configs[g]
    ensures g !in st.configs ==> f == map[]
  {
    if g in st.configs then st.configs[g] else map[]
  }

  /** The setters as written: `getGuildConfig(guildId) || {}` hands back
      the object held in the Map, so assigning the field changes memory at
      once, before `setGuildConfig` validates or writes anything. A guild
      without a configuration gets a fresh object, which reaches memory
      only through a successful `setGuildConfig`. */
  function SetFieldAsWritten(st: Store, g: string, field: string, v: Value, redisSet: Result<()>): (u: Update)
    ensures u.result.Ok? <==> g != "" && ValidConfig(Obj(BaseConfig(st, g)[field := v])) && redisSet.Ok?
    ensures g == "" ==> u.result == Err(InvalidGuildId)
    ensures g != "" && !ValidConfig(Obj(BaseConfig(st, g)[field := v])) ==> u.result == Err(InvalidFormat)
    ensures g != "" && ValidConfig(Obj(BaseConfig(st, g)[field := v])) && redisSet.Err? ==>
      u.result == Err(redisSet.message)
    ensures u.result.Ok? ==> u.result.value
    ensures u.result.Ok? ==> u.next.persisted == st.persisted[g := BaseConfig(st, g)[field := v]]
    ensures u.result.Err? ==> u.next.persisted == st.persisted
    ensures g in st.configs || u.result.Ok? ==>
      g in u.next.configs && u.next.configs[g] == BaseConfig(st, g)[field := v]
    ensures g !in st.configs && u.result.Err? ==> u.next == st
    ensures forall h :: h != g ==> GetGuildConfig(u.next, h) == GetGuildConfig(st, h)
    ensures u.next.inMemoryKeys == st.inMemoryKeys
  {
    var mutated := BaseConfig(st, g)[field := v];
    var held := if g in st.configs then st.configs[g := mutated] else st.configs;
    SetGuildConfig(st.(configs := held), Str(g), Obj(mutated), redisSet)
  }

  /** The intended read-modify-write, with the modification made on a
      copy: memory changes only if the whole `setGuildConfig` succeeds. */
  function CorrectedSetField(st: Store, g: string, field: string, v: Value, redisSet: Result<()>): (u: Update)
    ensures u.result.Ok? <==> g != "" && ValidConfig(Obj(BaseConfig(st, g)[field := v])) && redisSet.Ok?
    ensures u.result.Ok? ==> g in u.next.configs && u.next.configs[g] == BaseConfig(st, g)[field := v]
    ensures u.result.Ok? ==> u.next.persisted == st.persisted[g := BaseConfig(st, g)[field := v]]
    ensures u.result.Ok? ==> forall h :: h != g ==> GetGuildConfig(u.next, h) == GetGuildConfig(st, h)
    ensures u.result.Err? ==> u.next == st
    ensures u.next.inMemoryKeys == st.inMemoryKeys
  {
    SetGuildConfig(st, Str(g), Obj(BaseConfig(st, g)[field := v]), redisSet)
  }

  /** `getSummaryChannel(guildId)`: a falsy channel id reads as null. */
  function GetSummaryChannel(st: Store, g: string): (r: Option<Value>)
    ensures r.Some? <==> g in st.configs && SummaryChannelField in st.configs[g]
                         && Truthy(st.configs[g][SummaryChannelField])
    ensures r.Some? ==> r.value == st.configs[g][SummaryChannelField]
  {
    FieldIfTruthy(st, g, SummaryChannelField)
  }

  /** `config?.[field] || null` */
  function FieldIfTruthy(st: Store, g: string, field: string): Option<Value> {
    if g in st.configs && field in st.configs[g] && Truthy(st.configs[g][field])
    then Some(st.configs[g][field])
    else None
  }

  /** `setSummaryChannel(guildId, channelId)`: only a string channel id
      validates, but an existing configuration holds the new id even when
      the call throws. */
  function SetSummaryChannel(st: Store, g: string, channelId: Value, redisSet: Result<()>): (u: Update)
    ensures u.result.Ok? <==> g != "" && channelId.Str? && redisSet.Ok?
    ensures g == "" ==> u.result == Err(InvalidGuildId)
    ensures g != "" && !channelId.Str? ==> u.result == Err(InvalidFormat)
    ensures g != "" && channelId.Str? && redisSet.Err? ==> u.result == Err(redisSet.message)
    ensures g in st.configs || u.result.Ok? ==>
      GetSummaryChannel(u.next, g) == (if Truthy(channelId) then Some(channelId) else None)
    ensures u.result.Ok? ==> g in u.next.persisted && g in u.next.configs && u.next.persisted[g] == u.next.configs[g]
    ensures u.result.Err? ==> u.next.persisted == st.persisted
    ensures g !in st.configs && u.result.Err? ==> u.next == st
    ensures forall h :: h != g ==> GetGuildConfig(u.next, h) == GetGuildConfig(st, h)
  {
    assert ValidConfig(Obj(BaseConfig(st, g)[SummaryChannelField := channelId])) <==> channelId.Str?;
    SetFieldAsWritten(st, g, SummaryChannelField, channelId, redisSet)
  }

  /** What `getTimeInterval` returns, in milliseconds. A number, `true` or
      the default multiply exactly; a string or an object would go through
      JavaScript's numeric coercion, which the model does not evaluate. */
  datatype IntervalMs = Exact(ms: int) | Coerced(from: Value)

  /** `(config?.timeInterval || TIME_INTERVAL) * 1000 * 60` */
  function GetTimeInterval(st: Store, g: string): (r: IntervalMs)
    ensures FieldIfTruthy(st, g, TimeIntervalField).None? ==> r == Exact(DefaultTimeIntervalMinutes * 60000)
    ensures FieldIfTruthy(st, g, TimeIntervalField) == Some(Bool(true)) ==> r == Exact(60000)
    ensures forall n :: FieldIfTruthy(st, g, TimeIntervalField) == Some(Num(n)) ==> r == Exact(n * 60000)
    ensures r.Coerced? ==> FieldIfTruthy(st, g, TimeIntervalField) == Some(r.from) && (r.from.Str? || r.from.Obj?)
    ensures r.Exact? ==> r.ms != 0
  {
    match FieldIfTruthy(st, g, TimeIntervalField)
    case None => Exact(DefaultTimeIntervalMinutes * 60000)
    case Some(v) =>
      match v
      case Num(n) => Exact(n * 60000)
      case Bool(_) => Exact(60000)
      case _ => Coerced(v)
  }

  /** `setTimeInterval(guildId, interval)`: the interval never affects
      validation; an existing configuration holds it even when the call
      throws. */
  function SetTimeInterval(st: Store, g: string, interval: Value, redisSet: Result<()>): (u: Update)
    ensures u.result.Ok? <==> g != "" && ValidConfig(Obj(BaseConfig(st, g))) && redisSet.Ok?
    ensures g == "" ==> u.result == Err(InvalidGuildId)
    ensures g != "" && !ValidConfig(Obj(BaseConfig(st, g))) ==> u.result == Err(InvalidFormat)
    ensures GetSummaryChannel(u.next, g) == GetSummaryChannel(st, g)
    ensures (g in st.configs || u.result.Ok?) && !Truthy(interval) ==>
      GetTimeInterval(u.next, g) == Exact(DefaultTimeIntervalMinutes * 60000)
    ensures forall n :: (g in st.configs || u.result.Ok?) && interval == Num(n) && n != 0 ==>
      GetTimeInterval(u.next, g) == Exact(n * 60000)
    ensures u.result.Ok? ==> g in u.next.persisted && g in u.next.configs && u.next.persisted[g] == u.next.configs[g]
    ensures u.result.Err? ==> u.next.persisted == st.persisted
    ensures g !in st.configs && u.result.Err? ==> u.next == st
    ensures forall h :: h != g ==> GetGuildConfig(u.next, h) == GetGuildConfig(st, h)
  {
    assert ValidConfig(Obj(BaseConfig(st, g)[TimeIntervalField := interval]))
      <==> ValidConfig(Obj(BaseConfig(st, g)));
    SetFieldAsWritten(st, g, TimeIntervalField, interval, redisSet)
  }

  /** `hasOpenAIKey(guildId)` consults `inMemoryKeys`. */
  function HasOpenAIKey(st: Store, g: string): (has: bool)
    ensures has <==> g in st.inMemoryKeys
  {
    g in st.inMemoryKeys
  }

  /** `getOpenAIKey(guildId)`: a missing or falsy key reads as null. */
  function GetOpenAIKey(st: Store, g: string): (r: Option<Value>)
    ensures r.Some? <==> g in st.configs && OpenAIKeyField in st.configs[g] && Truthy(st.configs[g][OpenAIKeyField])
    ensures r.Some? ==> r.value == st.configs[g][OpenAIKeyField] && Truthy(r.value)
  {
    FieldIfTruthy(st, g, OpenAIKeyField)
  }

  /** `setOpenAIKey(guildId, key)`: `setGuildConfig` is not awaited, so the
      call returns true whatever happens to the write. An existing
      configuration holds the key at once; a new one only once the write
      succeeds. The store is the one left once that write settles. */
  function SetOpenAIKey(st: Store, g: string, key: Value, redisSet: Result<()>): (u: Update)
    ensures u.result == Ok(true)
    ensures HasOpenAIKey(u.next, g) == HasOpenAIKey(st, g)
    ensures g in st.configs || (g != "" && redisSet.Ok?) ==>
      GetOpenAIKey(u.next, g) == (if Truthy(key) then Some(key) else None)
    ensures g !in st.configs && !(g != "" && redisSet.Ok?) ==> u.next == st
    ensures g != "" && ValidConfig(Obj(BaseConfig(st, g))) && redisSet.Ok? ==>
      u.next.persisted == st.persisted[g := BaseConfig(st, g)[OpenAIKeyField := key]]
    ensures !(g != "" && ValidConfig(Obj(BaseConfig(st, g))) && redisSet.Ok?) ==> u.next.persisted == st.persisted
    ensures forall h :: h != g ==> GetGuildConfig(u.next, h) == GetGuildConfig(st, h)
  {
    assert ValidConfig(Obj(BaseConfig(st, g)[OpenAIKeyField := key]))
      <==> ValidConfig(Obj(BaseConfig(st, g)));
    Update(Ok(true), SetFieldAsWritten(st, g, OpenAIKeyField, key, redisSet).next)
  }

  /** `clearOpenAIKey(guildId)`: an existing configuration loses its key in
      memory at once; the rewrite that follows is not awaited and reaches
      Redis only if it validates and the write succeeds. */
  function ClearOpenAIKey(st: Store, g: string, redisSet: Result<()>): (r: Store)
    ensures g !in st.configs ==> r == st
    ensures g in st.configs ==>
      && g in r.configs
      && r.configs[g] == st.configs[g] - {OpenAIKeyField}
      && GetOpenAIKey(r, g).None?
    ensures g in st.configs && g != "" && ValidConfig(Obj(st.configs[g])) && redisSet.Ok? ==>
      r.persisted == st.persisted[g := st.configs[g] - {OpenAIKeyField}]
    ensures !(g in st.configs && g != "" && ValidConfig(Obj(st.configs[g])) && redisSet.Ok?) ==>
      r.persisted == st.persisted
    ensures forall h :: h != g ==> GetGuildConfig(r, h) == GetGuildConfig(st, h)
    ensures r.inMemoryKeys == st.inMemoryKeys
  {
    if g in st.configs then
      var cleared := st.configs[g] - {OpenAIKeyField};
      assert ValidConfig(Obj(cleared)) <==> ValidConfig(Obj(st.configs[g]));
      SetGuildConfig(st.(configs := st.configs[g := cleared]), Str(g), Obj(cleared), redisSet).next
    else st
  }

  /** `deleteGuildConfig(guildId)`: true and the guild forgotten in Redis and
      in memory, or false with nothing changed when Redis fails. */
  function DeleteGuildConfig(st: Store, g: string, redisDel: Result<()>): (u: Update)
    ensures u.result.Ok?
    ensures u.result.value <==> redisDel.Ok?
    ensures redisDel.Ok? ==> u.next == st.(configs := st.configs - {g}, persisted := st.persisted - {g})
    ensures redisDel.Err? ==> u.next == st
  {
    if redisDel.Err? then Update(Ok(false), st)
    else Update(Ok(true), st.(configs := st.configs - {g}, persisted := st.persisted - {g}))
  }

  /** One `guild:*` key found at load time and its parsed contents; `None`
      when reading or `JSON.parse` threw. */
  datatype StoredEntry = StoredEntry(key: string, parsed: Option<Value>)

  /** `key.split(':')[1]` */
  function GuildOfKey(key: string): (g: string)
    requires StartsWith(key, "guild:")
    ensures ':' !in g
  {
    KeyHasGuildField(key);
    Split(key, ':')[1]
  }

  lemma KeyHasGuildField(key: string)
    requires StartsWith(key, "guild:")
    ensures |Split(key, ':')| >= 2
  {
    assert key == "guild" + [':'] + key[6..];
    SplitAfterField("guild", ':', key[6..]);
  }

  /** A stored id with no ':' is read back unchanged from its key. */
  lemma GuildOfOwnKey(g: string)
    requires ':' !in g
    ensures StartsWith("guild:" + g, "guild:")
    ensures GuildOfKey("guild:" + g) == g
  {
    assert "guild:" + g == "guild" + [':'] + g;
    SplitAfterField("guild", ':', g);
    SplitWithoutSeparator(g, ':');
  }

  predicate Loadable(e: StoredEntry) {
    e.parsed.Some? && ValidConfig(e.parsed.value)
  }

  /** The loop of `loadConfigs`: each entry that parses and validates is
      stored under the guild id of its key; the others are skipped. */
  function LoadEntries(configs: map<string, Fields>, entries: seq<StoredEntry>): (r: map<string, Fields>)
    requires forall i :: 0 <= i < |entries| ==> StartsWith(entries[i].key, "guild:")
    decreases |entries|
  {
    if |entries| == 0 then configs
    else
      var e := entries[0];
      var next := if Loadable(e) then configs[GuildOfKey(e.key) := e.parsed.value.fields] else configs;
      LoadEntries(next, entries[1..])
  }

  /** The configuration the last loadable entry for guild `g` holds, if
      any entry for `g` is loadable. */
  function LastLoaded(entries: seq<StoredEntry>, g: string): Option<Fields>
    requires forall i :: 0 <= i < |entries| ==> StartsWith(entries[i].key, "guild:")
    decreases |entries|
  {
    if |entries| == 0 then None
    else
      var later := LastLoaded(entries[1..], g);
      if later.Some? then later
      else if Loadable(entries[0]) && GuildOfKey(entries[0].key) == g then Some(entries[0].parsed.value.fields)
      else None
  }

  /** After the loop, a guild holds the configuration of its last loadable
      entry; a guild with none keeps what it had, or stays absent. */
  lemma {:induction false} LoadEntriesMeaning(configs: map<string, Fields>, entries: seq<StoredEntry>, g: string)
    requires forall i :: 0 <= i < |entries| ==> StartsWith(entries[i].key, "guild:")
    ensures LastLoaded(entries, g).Some? ==>
      g in LoadEntries(configs, entries) && LoadEntries(configs, entries)[g] == LastLoaded(entries, g).value
    ensures LastLoaded(entries, g).None? ==>
      && (g in LoadEntries(configs, entries) <==> g in configs)
      && (g in configs ==> LoadEntries(configs, entries)[g] == configs[g])
    decreases |entries|
  {
    if |entries| > 0 {
      var e := entries[0];
      var next := if Loadable(e) then configs[GuildOfKey(e.key) := e.parsed.value.fields] else configs;
      LoadEntriesMeaning(next, entries[1..], g);
    }
  }

  /** `loadConfigs()`: a failure to list the keys is reported as one
      error; otherwise each guild with a loadable entry holds the
      configuration of its last one, and every other guild keeps what it
      had. */
  function LoadConfigs(st: Store, keys: Result<seq<StoredEntry>>): (r: Result<Store>)
    requires keys.Ok? ==> forall i :: 0 <= i < |keys.value| ==> StartsWith(keys.value[i].key, "guild:")
    ensures keys.Err? ==> r == Err(LoadFailed)
    ensures keys.Ok? ==> r.Ok? && r.value.persisted == st.persisted && r.value.inMemoryKeys == st.inMemoryKeys
    ensures keys.Ok? ==> r.value.configs == LoadEntries(st.configs, keys.value)
    ensures keys.Ok? ==> forall g :: LastLoaded(keys.value, g).Some? ==>
      GetGuildConfig(r.value, g) == LastLoaded(keys.value, g)
    ensures keys.Ok? ==> forall g :: LastLoaded(keys.value, g).None? ==>
      GetGuildConfig(r.value, g) == GetGuildConfig(st, g)
    ensures keys.Ok? && Consistent(st) ==> Consistent(r.value)
  {
    if keys.Err? then Err(LoadFailed)
    else
      var loaded := LoadEntries(st.configs, keys.value);
      var r := st.(configs := loaded);
      LoadKeepsConsistent(st.configs, keys.value);
      LoadEntriesEveryGuild(st.configs, keys.value);
      Ok(r)
  }

  /** `LoadEntriesMeaning` for every guild at once. */
  lemma LoadEntriesEveryGuild(configs: map<string, Fields>, entries: seq<StoredEntry>)
    requires forall i :: 0 <= i < |entries| ==> StartsWith(entries[i].key, "guild:")
    ensures forall g :: LastLoaded(entries, g).Some? ==>
      g in LoadEntries(configs, entries) && LoadEntries(configs, entries)[g] == LastLoaded(entries, g).value
    ensures forall g :: LastLoaded(entries, g).None? ==>
      (g in LoadEntries(configs, entries) <==> g in configs)
      && (g in configs ==> LoadEntries(configs, entries)[g] == configs[g])
  {
    forall g | true
      ensures LastLoaded(entries, g).Some? ==>
        g in LoadEntries(configs, entries) && LoadEntries(configs, entries)[g] == LastLoaded(entries, g).value
      ensures LastLoaded(entries, g).None? ==>
        (g in LoadEntries(configs, entries) <==> g in configs)
        && (g in configs ==> LoadEntries(configs, entries)[g] == configs[g])
    {
      LoadEntriesMeaning(configs, entries, g);
    }
  }

  lemma {:induction false} LoadKeepsConsistent(configs: map<string, Fields>, entries: seq<StoredEntry>)
    requires forall i :: 0 <= i < |entries| ==> StartsWith(entries[i].key, "guild:")
    ensures (forall g :: g in configs ==> ValidConfig(Obj(configs[g]))) ==>
      forall g :: g in LoadEntries(configs, entries) ==> ValidConfig(Obj(LoadEntries(configs, entries)[g]))
    decreases |entries|
  {
    if |entries| > 0 {
      var e := entries[0];
      var next := if Loadable(e) then configs[GuildOfKey(e.key) := e.parsed.value.fields] else configs;
      assert (forall g :: g in configs ==> ValidConfig(Obj(configs[g]))) ==>
        forall g :: g in next ==> ValidConfig(Obj(next[g]));
      LoadKeepsConsistent(next, entries[1..]);
    }
  }

  // -----------------------------------------------------------------------
  // Properties

  /** A successful set is what a later get returns. */
  lemma SetThenGet(st: Store, g: string, config: Value)
    requires g != "" && ValidConfig(config)
    ensures SetGuildConfig(st, Str(g), config, Ok(())).result == Ok(true)
    ensures GetGuildConfig(SetGuildConfig(st, Str(g), config, Ok(())).next, g) == Some(config.fields)
  {
  }

  /** Every path through the corrected setter keeps the store consistent. */
  lemma CorrectedSetFieldKeepsConsistent(st: Store, g: string, field: string, v: Value, redisSet: Result<()>)
    requires Consistent(st)
    ensures Consistent(CorrectedSetField(st, g, field, v, redisSet).next)
  {
  }

  /** The setters as written keep the store consistent unless the field
      written is the summary channel and the value is not a string. */
  lemma AsWrittenKeepsConsistentUnlessChannel(st: Store, g: string, field: string, v: Value, redisSet: Result<()>)
    requires Consistent(st)
    requires field != SummaryChannelField || v.Str?
    ensures Consistent(SetFieldAsWritten(st, g, field, v, redisSet).next)
  {
    var u := SetFieldAsWritten(st, g, field, v, redisSet);
    forall h | h in u.next.configs ensures ValidConfig(Obj(u.next.configs[h])) {
      if h != g {
        assert GetGuildConfig(u.next, h) == GetGuildConfig(st, h);
      }
    }
  }

  /** The setter as written and the corrected one return the same result;
      their stores differ only when the call fails on a guild that already
      had a configuration, which as written keeps the modified object. */
  lemma AsWrittenDiffersOnlyOnFailure(st: Store, g: string, field: string, v: Value, redisSet: Result<()>)
    ensures SetFieldAsWritten(st, g, field, v, redisSet).result == CorrectedSetField(st, g, field, v, redisSet).result
    ensures CorrectedSetField(st, g, field, v, redisSet).result.Ok? || g !in st.configs ==>
      SetFieldAsWritten(st, g, field, v, redisSet).next == CorrectedSetField(st, g, field, v, redisSet).next
    ensures CorrectedSetField(st, g, field, v, redisSet).result.Err? && g in st.configs ==>
      SetFieldAsWritten(st, g, field, v, redisSet).next == st.(configs := st.configs[g := st.configs[g][field := v]])
  {
  }

  /** The store as written can hold a configuration that never validated,
      and memory and Redis disagree: setting a null summary channel on an
      existing, empty configuration throws, yet memory has changed. */
  lemma AsWrittenFailedSetChangesMemory()
    ensures var st := Store(map["1" := map[]], {}, map["1" := map[]]);
            var u := SetSummaryChannel(st, "1", Null, Ok(()));
            && Consistent(st)
            && u.result == Err(InvalidFormat)
            && !Consistent(u.next)
            && u.next.configs["1"] != u.next.persisted["1"]
  {
    var st := Store(map["1" := map[]], {}, map["1" := map[]]);
    var u := SetSummaryChannel(st, "1", Null, Ok(()));
    assert u.next.configs["1"] == map[SummaryChannelField := Null];
    assert !ValidConfig(Obj(u.next.configs["1"]));
  }

  /** The corrected setter on the same input leaves everything unchanged. */
  lemma CorrectedFailedSetKeepsMemory()
    ensures var st := Store(map["1" := map[]], {}, map["1" := map[]]);
            var u := CorrectedSetField(st, "1", SummaryChannelField, Null, Ok(()));
            u.result == Err(InvalidFormat) && u.next == st
  {
    var st := Store(map["1" := map[]], {}, map["1" := map[]]);
    assert !ValidConfig(Obj(BaseConfig(st, "1")[SummaryChannelField := Null]));
  }

  /** For a guild that has a configuration, a key set with a failing write
      is read back at once, while Redis keeps the old configuration. */
  lemma KeyVisibleWhateverTheWrite(st: Store, g: string, key: Value, message: string)
    requires g in st.configs && Truthy(key)
    ensures GetOpenAIKey(SetOpenAIKey(st, g, key, Err(message)).next, g) == Some(key)
    ensures SetOpenAIKey(st, g, key, Err(message)).next.persisted == st.persisted
  {
  }

  /** Clearing after setting leaves no key, whatever either write does,
      for a guild that had a configuration. */
  lemma ClearAfterSetForgetsKey(st: Store, g: string, key: Value, set1: Result<()>, set2: Result<()>)
    requires g in st.configs
    ensures GetOpenAIKey(ClearOpenAIKey(SetOpenAIKey(st, g, key, set1).next, g, set2), g).None?
  {
  }

  /** After a successful delete the guild has no configuration, in memory
      or in Redis; a later `loadConfigs` without its key cannot bring it
      back, and the other guilds are untouched. */
  lemma DeleteForgetsGuild(st: Store, g: string, h: string)
    requires h != g
    ensures DeleteGuildConfig(st, g, Ok(())).result == Ok(true)
    ensures GetGuildConfig(DeleteGuildConfig(st, g, Ok(())).next, g).None?
    ensures g !in DeleteGuildConfig(st, g, Ok(())).next.persisted
    ensures GetGuildConfig(DeleteGuildConfig(st, g, Ok(())).next, h) == GetGuildConfig(st, h)
  {
  }

  /** What a successful `setGuildConfig` writes to Redis under
      `guild:<id>` is what `loadConfigs` reads back for that guild. */
  lemma {:induction false} PersistedReloads(st: Store, g: string, config: Value, other: Store)
    requires ':' !in g && g != "" && ValidConfig(config)
    ensures var saved := SetGuildConfig(st, Str(g), config, Ok(())).next;
            g in saved.persisted
            && (GuildOfOwnKey(g);
                var loaded := LoadConfigs(other, Ok([StoredEntry("guild:" + g, Some(Obj(saved.persisted[g])))]));
                GetGuildConfig(loaded.value, g) == Some(config.fields))
  {
    var saved := SetGuildConfig(st, Str(g), config, Ok(()));
    GuildOfOwnKey(g);
    var entries := [StoredEntry("guild:" + g, Some(Obj(saved.next.persisted[g])))];
    assert Loadable(entries[0]) && GuildOfKey(entries[0].key) == g;
    assert LoadEntries(other.configs, entries) == LoadEntries(other.configs[g := config.fields], entries[1..]);
    assert entries[1..] == [];
  }

  /** Nothing writes `inMemoryKeys`: a guild without an entry there reports
      no key even right after `setOpenAIKey` stored one. */
  lemma SetKeyDoesNotMakeHasKey(st: Store, g: string, key: Value, redisSet: Result<()>)
    requires g !in st.inMemoryKeys
    ensures !HasOpenAIKey(SetOpenAIKey(st, g, key, redisSet).next, g)
  {
  }

  /** A zero interval falls back to the four-minute default. */
  lemma ZeroIntervalFallsBack(st: Store, g: string, redisSet: Result<()>)
    requires SetTimeInterval(st, g, Num(0), redisSet).result.Ok?
    ensures GetTimeInterval(SetTimeInterval(st, g, Num(0), redisSet).next, g) == Exact(240000)
  {
  }
}

=== FILE: container.dfy ===
/** The service container (src/services/Container.js): three maps from a
    service name to a registered instance, to a factory, and to the instance
    a factory has already produced. A factory is modelled by its value of
    type `F` and the caller-supplied `build`, which turns a factory into the
    instance it returns. */
module ServiceContainer {
  import opened Wrappers

  datatype Container<V, F> = Container(
    services: map<string, V>,
    factories: map<string, F>,
    instances: map<string, V>)

  /** The outcome of `get`: what it returned or threw, the container after
      the call, and whether a factory was invoked. */
  datatype Lookup<V, F> = Lookup(result: Result<V>, next: Container<V, F>, factoryInvoked: bool)

  function Empty<V, F>(): (c: Container<V, F>)
    ensures c.services == map[] && c.factories == map[] && c.instances == map[]
  {
    Container(map[], map[], map[])
  }

  function AlreadyRegistered(name: string): string {
    "Service " + name + " is already registered"
  }

  function FactoryAlreadyRegistered(name: string): string {
    "Factory " + name + " is already registered"
  }

  function NotFound(name: string): string {
    "Service " + name + " not found"
  }

  /** `register(name, instance)`: refused only when `services` already holds
      the name; a factory or cached instance of that name does not block it. */
  function Register<V, F>(c: Container<V, F>, name: string, instance: V): (r: Result<Container<V, F>>)
    ensures r.Err? <==> name in c.services
    ensures r.Err? ==> r.message == AlreadyRegistered(name)
    ensures r.Ok? ==> r.value.services == c.services[name := instance]
    ensures r.Ok? ==> r.value.factories == c.factories && r.value.instances == c.instances
  {
    if name in c.services then Err(AlreadyRegistered(name))
    else Ok(c.(services := c.services[name := instance]))
  }

  /** `registerFactory(name, factory)`: refused only when `factories` already
      holds the name. */
  function RegisterFactory<V, F>(c: Container<V, F>, name: string, factory: F): (r: Result<Container<V, F>>)
    ensures r.Err? <==> name in c.factories
    ensures r.Err? ==> r.message == FactoryAlreadyRegistered(name)
    ensures r.Ok? ==> r.value.factories == c.factories[name := factory]
    ensures r.Ok? ==> r.value.services == c.services && r.value.instances == c.instances
  {
    if name in c.factories then Err(FactoryAlreadyRegistered(name))
    else Ok(c.(factories := c.factories[name := factory]))
  }

  /** `get(name)`: a cached instance first, then a registered service, then
      a factory, whose product is cached; otherwise it throws. */
  function Get<V, F>(c: Container<V, F>, name: string, build: F -> V): (l: Lookup<V, F>)
    ensures l.result.Err? <==> name !in c.instances && name !in c.services && name !in c.factories
    ensures l.result.Err? ==> l.result.message == NotFound(name)
    ensures l.factoryInvoked <==> name !in c.instances && name !in c.services && name in c.factories
    ensures !l.factoryInvoked ==> l.next == c
    ensures l.factoryInvoked ==>
      l.next == c.(instances := c.instances[name := l.result.value])
      && l.result.value == build(c.factories[name])
  {
    if name in c.instances then Lookup(Ok(c.instances[name]), c, false)
    else if name in c.services then Lookup(Ok(c.services[name]), c, false)
    else if name in c.factories then
      var instance := build(c.factories[name]);
      Lookup(Ok(instance), c.(instances := c.instances[name := instance]), true)
    else Lookup(Err(NotFound(name)), c, false)
  }

  /** `has(name)`: cached instances are not consulted. */
  function Has<V, F>(c: Container<V, F>, name: string): (has: bool)
    ensures has <==> name in c.services || name in c.factories
  {
    name in c.services || name in c.factories
  }

  /** `remove(name)`: the name leaves all three maps. */
  function Remove<V, F>(c: Container<V, F>, name: string): (r: Container<V, F>)
    ensures name !in r.services && name !in r.factories && name !in r.instances
    ensures forall n :: n != name && n in c.services ==> n in r.services && r.services[n] == c.services[n]
    ensures forall n :: n != name && n in c.factories ==> n in r.factories && r.factories[n] == c.factories[n]
    ensures forall n :: n != name && n in c.instances ==> n in r.instances && r.instances[n] == c.instances[n]
    ensures r.services.Keys <= c.services.Keys && r.factories.Keys <= c.factories.Keys
    ensures r.instances.Keys <= c.instances.Keys
  {
    Container(c.services - {name}, c.factories - {name}, c.instances - {name})
  }

  /** `clear()` */
  function Clear<V, F>(c: Container<V, F>): (r: Container<V, F>)
    ensures r == Empty()
  {
    Empty()
  }

  // -----------------------------------------------------------------------
  // Properties

  /** A registered instance is what `get` returns, unless a factory of the
      same name already produced a cached instance. */
  lemma GetAfterRegister<V, F>(c: Container<V, F>, name: string, instance: V, build: F -> V)
    requires name !in c.services && name !in c.instances
    ensures Register(c, name, instance).Ok?
    ensures Get(Register(c, name, instance).value, name, build) ==
            Lookup(Ok(instance), Register(c, name, instance).value, false)
  {
  }

  /** Lookup priority: a cached instance shadows a later registration of
      the same name. */
  lemma CachedInstanceShadowsRegistration<V, F>(c: Container<V, F>, name: string, instance: V, build: F -> V)
    requires name in c.instances && name !in c.services
    ensures Register(c, name, instance).Ok?
    ensures Get(Register(c, name, instance).value, name, build).result == Ok(c.instances[name])
  {
  }

  /** A factory runs at most once: the second `get` returns the cached
      instance without invoking anything. */
  lemma FactoryInvokedAtMostOnce<V, F>(c: Container<V, F>, name: string, build: F -> V)
    ensures var first := Get(c, name, build);
            var second := Get(first.next, name, build);
            !second.factoryInvoked && second.result == first.result && second.next == first.next
  {
  }

  /** `has` holds exactly when the name is registered as a service or as a
      factory, and then `get` does not throw. */
  lemma HasMeansGetSucceeds<V, F>(c: Container<V, F>, name: string, build: F -> V)
    ensures Has(c, name) ==> Get(c, name, build).result.Ok?
    ensures !Has(c, name) && name !in c.instances ==> Get(c, name, build).result.Err?
  {
  }

  /** After `remove`, the name can be registered again and `get` then
      returns the new instance. */
  lemma RemoveThenRegister<V, F>(c: Container<V, F>, name: string, instance: V, build: F -> V)
    ensures Register(Remove(c, name), name, instance).Ok?
    ensures Get(Register(Remove(c, name), name, instance).value, name, build).result == Ok(instance)
  {
  }

  /** After `clear`, every name is unknown. */
  lemma ClearForgetsEverything<V, F>(c: Container<V, F>, name: string, build: F -> V)
    ensures !Has(Clear(c), name)
    ensures Get(Clear(c), name, build).result == Err(NotFound(name))
  {
  }
}

=== FILE: recording_processor.dfy ===
/** The finalisation loop of src/services/RecordingProcessorService.js.
    Each per-user recording carries the outcomes of the three calls made
    for it: closing its stream, transcribing its file, deleting its file. */
module RecordingProcessor {
  import opened Wrappers

  datatype UserRecording = UserRecording(
    userId: string,
    filename: string,
    close: Result<()>,
    transcription: Result<string>,
    deletion: Result<bool>)

  /** One `{ userId, transcript }` of the output. */
  datatype UserTranscript = UserTranscript(userId: string, transcript: string)

  /** The calls made on the collaborators, in order. */
  datatype Call = Close(userId: string) | Transcribe(filename: string) | Delete(filename: string)

  /** Reference: the successful transcriptions, in input order. */
  function Successful(recs: seq<UserRecording>): (out: seq<UserTranscript>)
    ensures |out| <= |recs|
    ensures forall k :: 0 <= k < |out| ==>
      exists i :: 0 <= i < |recs| && recs[i].transcription == Ok(out[k].transcript) && recs[i].userId == out[k].userId
  {
    if |recs| == 0 then []
    else
      var last := recs[|recs| - 1];
      Successful(recs[..|recs| - 1])
        + (if last.transcription.Ok? then [UserTranscript(last.userId, last.transcription.value)] else [])
  }

  /** The three calls made for one recording. */
  function CallsFor(rec: UserRecording): seq<Call> {
    [Close(rec.userId), Transcribe(rec.filename), Delete(rec.filename)]
  }

  /** The files a trace deletes, in order. */
  function DeletedFiles(calls: seq<Call>): seq<string> {
    if |calls| == 0 then []
    else
      var last := calls[|calls| - 1];
      DeletedFiles(calls[..|calls| - 1]) + (if last.Delete? then [last.filename] else [])
  }

  function Filenames(recs: seq<UserRecording>): (names: seq<string>)
    ensures |names| == |recs|
    ensures forall i :: 0 <= i < |recs| ==> names[i] == recs[i].filename
  {
    if |recs| == 0 then [] else Filenames(recs[..|recs| - 1]) + [recs[|recs| - 1].filename]
  }

  /** Reference: the calls for every recording, in input order. */
  function AllCalls(recs: seq<UserRecording>): (calls: seq<Call>)
    ensures |calls| == 3 * |recs|
    ensures forall i :: 0 <= i < |recs| ==> calls[3 * i..3 * i + 3] == CallsFor(recs[i])
  {
    if |recs| == 0 then [] else AllCalls(recs[..|recs| - 1]) + CallsFor(recs[|recs| - 1])
  }

  lemma DeletedFilesAppend(calls: seq<Call>, rec: UserRecording)
    ensures DeletedFiles(calls + CallsFor(rec)) == DeletedFiles(calls) + [rec.filename]
  {
    var a := calls + CallsFor(rec);
    var a1 := calls + [Close(rec.userId), Transcribe(rec.filename)];
    var a2 := calls + [Close(rec.userId)];
    assert a[..|a| - 1] == a1;
    assert a1[..|a1| - 1] == a2;
    assert a2[..|a2| - 1] == calls;
    assert DeletedFiles(a2) == DeletedFiles(calls);
    assert DeletedFiles(a1) == DeletedFiles(calls);
  }

  /** `processRecordings(guildId, userRecordings, audioService)`: never
      throws; every recording is closed, transcribed and deleted in turn,
      whatever the earlier calls did. */
  method ProcessRecordings(recs: seq<UserRecording>) returns (transcripts: seq<UserTranscript>, calls: seq<Call>)
    ensures transcripts == Successful(recs)
    ensures calls == AllCalls(recs)
  {
    transcripts := [];
    calls := [];
    var i := 0;
    while i < |recs|
      invariant 0 <= i <= |recs|
      invariant transcripts == Successful(recs[..i])
      invariant calls == AllCalls(recs[..i])
    {
      var rec := recs[i];
      // A failed close is logged and the transcription is still tried.
      calls := calls + [Close(rec.userId), Transcribe(rec.filename)];
      match rec.transcription {
        case Ok(t) => transcripts := transcripts + [UserTranscript(rec.userId, t)];
        case Err(_) =>
      }
      // The delete runs in `finally`; its failure is logged too.
      calls := calls + [Delete(rec.filename)];
      assert recs[..i + 1][..i] == recs[..i];
      i := i + 1;
    }
    assert recs[..|recs|] == recs;
  }

  // -----------------------------------------------------------------------
  // Properties

  /** The trace deletes the files in input order, one per recording. */
  lemma {:induction false} AllCallsDeleteEachFile(recs: seq<UserRecording>)
    ensures DeletedFiles(AllCalls(recs)) == Filenames(recs)
    decreases |recs|
  {
    if |recs| > 0 {
      AllCallsDeleteEachFile(recs[..|recs| - 1]);
      DeletedFilesAppend(AllCalls(recs[..|recs| - 1]), recs[|recs| - 1]);
    }
  }

  /** In a sequence without repeats every element occurs once. */
  lemma {:induction false} DistinctOccursOnce(s: seq<string>, k: int)
    requires 0 <= k < |s|
    requires forall i, j :: 0 <= i < j < |s| ==> s[i] != s[j]
    ensures multiset(s)[s[k]] == 1
    decreases |s|
  {
    var init, last := s[..|s| - 1], s[|s| - 1];
    assert s == init + [last];
    if k == |s| - 1 {
      assert last !in init by {
        forall j | 0 <= j < |init| ensures init[j] != last {
          assert init[j] == s[j];
        }
      }
    } else {
      assert init[k] == s[k];
      DistinctOccursOnce(init, k);
    }
  }

  /** Each recording's file is deleted exactly once (file names being
      distinct per recording). */
  lemma EachFileDeletedOnce(recs: seq<UserRecording>, k: int)
    requires 0 <= k < |recs|
    requires forall i, j :: 0 <= i < j < |recs| ==> recs[i].filename != recs[j].filename
    ensures multiset(DeletedFiles(AllCalls(recs)))[recs[k].filename] == 1
  {
    AllCallsDeleteEachFile(recs);
    DistinctOccursOnce(Filenames(recs), k);
  }

  /** A transcription failure drops only that user: the output is the
      output without it. */
  lemma {:induction false} FailureDropsOnlyThatUser(before: seq<UserRecording>, rec: UserRecording, after: seq<UserRecording>)
    requires rec.transcription.Err?
    ensures Successful(before + [rec] + after) == Successful(before + after)
    decreases |after|
  {
    if |after| == 0 {
      assert (before + [rec])[..|before|] == before;
      assert before + [rec] + after == before + [rec];
      assert before + after == before;
    } else {
      var a := after[..|after| - 1];
      var x := after[|after| - 1];
      FailureDropsOnlyThatUser(before, rec, a);
      assert (before + [rec] + after)[..|before| + 1 + |after| - 1] == before + [rec] + a;
      assert (before + after)[..|before| + |after| - 1] == before + a;
    }
  }
}

=== FILE: redis_config.dfy ===
/** The Redis connection policy of src/config/redis.js: the reconnect
    delay and the URL handed to the job queue. The environment is a
    parameter; an unset variable is `None`. */
module RedisConfig {
  import opened Wrappers
  import opened Text

  /** The environment variables the module reads. */
  datatype Env = Env(
    nodeEnv: Option<string>,
    host: Option<string>,
    port: Option<string>,
    username: Option<string>,
    password: Option<string>,
    tlsEnabled: Option<string>)

  const MaxRetryDelay: int := 2000
  const RetryStep: int := 50
  const DevelopmentUrl: string := "redis://redis:6379"

  /** `retryStrategy(times)`: 50 ms per attempt so far, capped at 2 s. */
  function RetryStrategy(times: int): (d: int)
    ensures d <= MaxRetryDelay
    ensures d == times * RetryStep || d == MaxRetryDelay
    ensures times * RetryStep < MaxRetryDelay ==> d == times * RetryStep
    ensures times >= 40 ==> d == MaxRetryDelay
  {
    if times * RetryStep < MaxRetryDelay then times * RetryStep else MaxRetryDelay
  }

  /** A later attempt never waits less. */
  lemma RetryStrategyMonotone(a: int, b: int)
    requires a <= b
    ensures RetryStrategy(a) <= RetryStrategy(b)
  {
  }

  predicate IsDevelopment(env: Env) {
    env.nodeEnv == Some("development")
  }

  /** A template literal renders an unset value as the word `undefined`. */
  function Render(v: Option<string>): (s: string)
    ensures v.Some? ==> s == v.value
  {
    match v
    case None => "undefined"
    case Some(x) => x
  }

  /** A set, non-empty username is truthy. */
  predicate HasUsername(env: Env) {
    env.username.Some? && env.username.value != ""
  }

  /** TLS is on exactly when the variable is the string 'true'. */
  predicate TlsEnabled(env: Env) {
    env.tlsEnabled == Some("true")
  }

  /** The credentials part: `user:password` with a username, the password
      alone otherwise. */
  function Auth(env: Env): (a: string)
    ensures HasUsername(env) ==> a == env.username.value + ":" + Render(env.password)
    ensures !HasUsername(env) ==> a == Render(env.password)
  {
    if HasUsername(env) then env.username.value + ":" + Render(env.password) else Render(env.password)
  }

  function Protocol(env: Env): (p: string)
    ensures p == "rediss" <==> TlsEnabled(env)
    ensures p == "redis" <==> !TlsEnabled(env)
    ensures ':' !in p
  {
    if TlsEnabled(env) then "rediss" else "redis"
  }

  /** `constructRedisUrl()` */
  function ConstructRedisUrl(env: Env): (url: string)
    ensures IsDevelopment(env) ==> url == DevelopmentUrl
    ensures !IsDevelopment(env) ==>
      url == Protocol(env) + "://" + Auth(env) + "@" + Render(env.host) + ":" + Render(env.port)
  {
    if IsDevelopment(env) then DevelopmentUrl
    else Protocol(env) + "://" + Auth(env) + "@" + Render(env.host) + ":" + Render(env.port)
  }

  /** The scheme, the text before the first ':', reads back as 'rediss'
      exactly when TLS is enabled outside development. */
  lemma SchemeReadsBack(env: Env)
    ensures Split(ConstructRedisUrl(env), ':')[0] == (if !IsDevelopment(env) && TlsEnabled(env) then "rediss" else "redis")
  {
    var url := ConstructRedisUrl(env);
    if IsDevelopment(env) {
      assert url == "redis" + [':'] + "//redis:6379";
      SplitAfterField("redis", ':', "//redis:6379");
    } else {
      var p := Protocol(env);
      var rest := "//" + Auth(env) + "@" + Render(env.host) + ":" + Render(env.port);
      assert url == p + [':'] + rest;
      SplitAfterField(p, ':', rest);
    }
  }

  /** Without a username the credentials are the password alone, so an
      unset password puts the word `undefined` in the URL. */
  lemma UnsetPasswordRendersUndefined(env: Env)
    requires !IsDevelopment(env) && !HasUsername(env) && env.password.None?
    ensures Contains(ConstructRedisUrl(env), "://undefined@")
  {
    var url := ConstructRedisUrl(env);
    var p := Protocol(env);
    var tail := Render(env.host) + ":" + Render(env.port);
    assert url == p + "://undefined@" + tail;
    ContainsInside(p, "://undefined@", tail);
  }
}

=== FILE: retry_handler.dfy ===
/** The bounded retry helper (src/utils/RetryHandler.js). The operation is
    modelled by its outcome on each attempt: `op(a)` is what attempt number
    `a` (counting from 1) returns or throws. The timer between attempts is
    recorded as the list of delays waited. */
module RetryHandler {
  import opened Wrappers
  import opened Text

  /** A thrown JavaScript error: its optional `code` property and its
      `message`. */
  datatype JsError = JsError(code: Option<string>, message: string)

  datatype Attempt<T> = Returned(value: T) | Threw(error: JsError)

  /** What `execute` settles with. */
  datatype Outcome<T> = Success(value: T) | Failure(error: JsError)

  /** The outcome, the number of attempts made, and the delays waited. */
  datatype Run<T> = Run(outcome: Outcome<T>, calls: nat, waits: seq<int>)

  /** The constructor's defaults. */
  const DefaultMaxRetries: int := 3
  const DefaultInitialDelay: int := 1000

  /** Error codes that are never retried. */
  const FatalCodes: seq<string> := ["ENOENT", "EACCES", "ERR_INVALID_ARG_TYPE", "InvalidTokenError"]

  /** `isFatalError(error)` */
  function IsFatalError(e: JsError): (fatal: bool)
    ensures e.code == Some("ENOENT") || e.code == Some("EACCES") ==> fatal
    ensures e.code == Some("ERR_INVALID_ARG_TYPE") || e.code == Some("InvalidTokenError") ==> fatal
    ensures Contains(e.message, "Invalid token") || Contains(e.message, "Unknown Channel") ==> fatal
    ensures e.code.None? && !Contains(e.message, "Invalid token") && !Contains(e.message, "Unknown Channel") ==> !fatal
    ensures e.code.Some? && e.code.value !in FatalCodes ==>
      (fatal <==> Contains(e.message, "Invalid token") || Contains(e.message, "Unknown Channel"))
  {
    || (e.code.Some? && e.code.value in FatalCodes)
    || Contains(e.message, "Invalid token")
    || Contains(e.message, "Unknown Channel")
  }

  function ExhaustedMessage(maxRetries: int, last: string): string {
    "Operation failed after " + IntToString(maxRetries) + " attempts. Last error: " + last
  }

  /** With no attempt made, `lastError` is still `undefined` and reading its
      `message` throws this TypeError. */
  const UndefinedLastError: JsError :=
    JsError(None, "Cannot read properties of undefined (reading 'message')")

  function Pow2(k: nat): (p: nat)
    ensures p >= 1
  {
    if k == 0 then 1 else 2 * Pow2(k - 1)
  }

  /** The outcome that the attempt `e` settles `execute` with, when it is
      the last attempt made. */
  ghost predicate SettledBy<T>(maxRetries: int, calls: nat, a: Attempt<T>, o: Outcome<T>) {
    match a
    case Returned(v) => o == Success(v)
    case Threw(e) =>
      if IsFatalError(e) then o == Failure(e)
      else calls == maxRetries && o == Failure(JsError(None, ExhaustedMessage(maxRetries, e.message)))
  }

  /** `execute(operation)`: at most `maxRetries` attempts; the first value
      returned wins; a fatal error is rethrown as it is; otherwise the
      delays double from `initialDelay`, and after the last attempt the
      error names the count and the last message. */
  function Execute<T>(maxRetries: int, initialDelay: int, op: nat -> Attempt<T>): (r: Run<T>)
    ensures maxRetries < 1 ==> r == Run(Failure(UndefinedLastError), 0, [])
    ensures maxRetries >= 1 ==> 1 <= r.calls <= maxRetries && |r.waits| == r.calls - 1
    ensures forall k :: 0 <= k < |r.waits| ==> r.waits[k] == initialDelay * Pow2(k)
    ensures forall a :: 1 <= a < r.calls ==> op(a).Threw? && !IsFatalError(op(a).error)
    ensures maxRetries >= 1 ==> SettledBy(maxRetries, r.calls, op(r.calls), r.outcome)
  {
    if maxRetries < 1 then Run(Failure(UndefinedLastError), 0, [])
    else Attempts(maxRetries, op, 1, initialDelay)
  }

  /** The loop from attempt number `attempt` on, with `delay` the next wait. */
  function Attempts<T>(maxRetries: int, op: nat -> Attempt<T>, attempt: nat, delay: int): (r: Run<T>)
    requires 1 <= attempt <= maxRetries
    ensures attempt <= r.calls <= maxRetries
    ensures |r.waits| == r.calls - attempt
    ensures forall k :: 0 <= k < |r.waits| ==> r.waits[k] == delay * Pow2(k)
    ensures forall a :: attempt <= a < r.calls ==> op(a).Threw? && !IsFatalError(op(a).error)
    ensures SettledBy(maxRetries, r.calls, op(r.calls), r.outcome)
    decreases maxRetries - attempt
  {
    match op(attempt)
    case Returned(v) => Run(Success(v), attempt, [])
    case Threw(e) =>
      if IsFatalError(e) then Run(Failure(e), attempt, [])
      else if attempt == maxRetries then
        Run(Failure(JsError(None, ExhaustedMessage(maxRetries, e.message))), attempt, [])
      else
        var rest := Attempts(maxRetries, op, attempt + 1, delay * 2);
        DoublingDelays(delay, rest.waits);
        Run(rest.outcome, rest.calls, [delay] + rest.waits)
  }

  lemma DoublingDelays(delay: int, waits: seq<int>)
    requires forall k :: 0 <= k < |waits| ==> waits[k] == (delay * 2) * Pow2(k)
    ensures forall k :: 0 <= k < |waits| + 1 ==> ([delay] + waits)[k] == delay * Pow2(k)
  {
    forall k | 0 <= k < |waits| + 1
      ensures ([delay] + waits)[k] == delay * Pow2(k)
    {
      if k > 0 {
        assert Pow2(k) == 2 * Pow2(k - 1);
        assert (delay * 2) * Pow2(k - 1) == delay * (2 * Pow2(k - 1));
      }
    }
  }

  // -----------------------------------------------------------------------
  // Properties

  /** With the defaults and an operation that always fails without a fatal
      error: three attempts, waits of 1000 and 2000 ms, and the summary
      error (whose text `ExhaustedMessageOfThree` spells out). */
  lemma DefaultsExhaust<T>(op: nat -> Attempt<T>, m: string)
    requires forall a :: op(a) == Threw(JsError(None, m))
    requires !Contains(m, "Invalid token") && !Contains(m, "Unknown Channel")
    ensures Execute(DefaultMaxRetries, DefaultInitialDelay, op) ==
      Run(Failure(JsError(None, ExhaustedMessage(3, m))), 3, [1000, 2000])
  {
    var e := JsError(None, m);
    assert !IsFatalError(e);
    var last := Attempts(3, op, 3, 4000);
    assert last == Run(Failure(JsError(None, ExhaustedMessage(3, m))), 3, []);
    var second := Attempts(3, op, 2, 2000);
    assert second == Run(last.outcome, 3, [2000]);
    assert Attempts(3, op, 1, 1000) == Run(last.outcome, 3, [1000, 2000]);
  }

  lemma ExhaustedMessageOfThree(m: string)
    ensures ExhaustedMessage(3, m) == "Operation failed after 3 attempts. Last error: " + m
  {
    assert NatToString(3) == [DigitChar(3)];
  }

  /** An error whose code is outside the fatal list, such as ECONNRESET,
      and whose message names neither fragment is retried after the
      initial delay. */
  lemma UnlistedCodeIsRetried<T>(maxRetries: int, initialDelay: int, op: nat -> Attempt<T>, code: string, m: string)
    requires maxRetries >= 2
    requires op(1) == Threw(JsError(Some(code), m)) && code !in FatalCodes
    requires !Contains(m, "Invalid token") && !Contains(m, "Unknown Channel")
    ensures Execute(maxRetries, initialDelay, op).calls >= 2
    ensures Execute(maxRetries, initialDelay, op).waits[0] == initialDelay
  {
    assert !IsFatalError(op(1).error);
  }

  /** A fatal error on the first attempt is rethrown unchanged without any
      wait or further attempt. */
  lemma FatalStopsImmediately<T>(maxRetries: int, initialDelay: int, op: nat -> Attempt<T>)
    requires maxRetries >= 1
    requires op(1).Threw? && IsFatalError(op(1).error)
    ensures Execute(maxRetries, initialDelay, op) == Run(Failure(op(1).error), 1, [])
  {
  }
}

=== FILE: storage.dfy ===
/** The pure parts of src/services/StorageService.js: file naming, parsing
    a timestamp back out of a name, the range and recent-N queries, the
    retention sweep and `deleteFile`. A directory is modelled by its
    listing, and reading, stat-ing or unlinking a file by an outcome
    function of the file name. */
module Storage {
  import opened Wrappers
  import opened Text

  /** `STORAGE.RETENTION_DAYS` of src/config.js. */
  const RetentionDays: int := 1
  const DefaultTempType: string := "pcm"
  const DefaultRecentLimit: int := 10

  // -----------------------------------------------------------------------
  // Names

  /** `getTempFilePath(guildId, type)`, without the directory part;
      `randomId` stands for the base-36 digits of `Math.random()` and `ms`
      for `Date.now()`. */
  function TempFileName(g: string, ms: nat, randomId: string, fileType: Option<string>): (name: string)
    ensures StartsWith(name, "recording-" + g + "-")
    ensures EndsWith(name, "." + fileType.GetOr(DefaultTempType))
  {
    var head := "recording-" + g + "-";
    var tail := "." + fileType.GetOr(DefaultTempType);
    var name := head + (NatToString(ms) + "-" + randomId) + tail;
    assert name[..|head|] == head;
    assert name[|name| - |tail|..] == tail;
    name
  }

  /** The decimal digits hold neither `-` nor `.`. */
  lemma DigitsHaveNoPunctuation(n: nat)
    ensures '-' !in NatToString(n) && '.' !in NatToString(n)
  {
    var digits := NatToString(n);
    assert forall i :: 0 <= i < |digits| ==> IsDigit(digits[i]);
  }

  /** The `-`-separated fields of a temp file name give back the guild, the
      time and the random id, provided none of them holds a `-`. */
  lemma TempFileNameFields(g: string, ms: nat, randomId: string, t: string)
    requires '-' !in g && '-' !in randomId && '-' !in t
    ensures Split(TempFileName(g, ms, randomId, Some(t)), '-') ==
            ["recording", g, NatToString(ms), randomId + "." + t]
    ensures ParseInt(Split(TempFileName(g, ms, randomId, Some(t)), '-')[2]) == Some(ms)
  {
    var digits := NatToString(ms);
    DigitsHaveNoPunctuation(ms);
    var last := randomId + "." + t;
    assert '-' !in last;
    TempFileNameShape(g, ms, randomId, t);
    FourFields("recording", g, digits, last, '-');
    ParseIntNatToString(ms);
  }

  /** A temp file name is its four fields joined by `-`. */
  lemma TempFileNameShape(g: string, ms: nat, randomId: string, t: string)
    ensures TempFileName(g, ms, randomId, Some(t)) ==
      "recording" + ['-'] + (g + ['-'] + (NatToString(ms) + ['-'] + (randomId + "." + t)))
  {
  }

  /** The two kinds of text the service saves per guild. */
  datatype Kind = Summary | Transcript

  function KindName(k: Kind): (s: string)
    ensures '-' !in s
  {
    match k
    case Summary => "summary"
    case Transcript => "transcript"
  }

  /** The prefix the queries filter a guild's directory with. */
  function Prefix(k: Kind, g: string): string {
    KindName(k) + "-" + g + "-"
  }

  /** `summary-${guildId}-${timestamp}.txt` (`saveSummary`) and
      `transcript-${guildId}-${timestamp}.txt` (`saveTranscript`). */
  function SavedFileName(k: Kind, g: string, timestamp: nat): string {
    Prefix(k, g) + (NatToString(timestamp) + ".txt")
  }

  /** A name with the prefix has at least three `-`-separated fields, so
      `file.split('-')[2]` is defined. */
  lemma PrefixedHasThreeFields(k: Kind, g: string, f: string)
    requires StartsWith(f, Prefix(k, g))
    ensures |Split(f, '-')| >= 3
  {
    var rest := f[|Prefix(k, g)|..];
    assert f == Prefix(k, g) + rest;
    assert f == KindName(k) + ['-'] + (g + ['-'] + rest);
    SplitAfterField(KindName(k), '-', g + ['-'] + rest);
    SplitMoreFields(g, '-', rest);
  }

  /** `file.split('-')[2].replace('.txt', '')` */
  function TimestampField(f: string): string
    requires |Split(f, '-')| >= 3
  {
    ReplaceFirst(Split(f, '-')[2], ".txt", "")
  }

  /** `parseInt(file.split('-')[2].replace('.txt', ''))`, with NaN as None. */
  function FileTimestamp(f: string): Option<int>
    requires |Split(f, '-')| >= 3
  {
    ParseInt(TimestampField(f))
  }

  /** A saved name carries its guild's prefix and parses back to its
      timestamp, provided the guild id holds no `-`. */
  lemma SavedFileNameRoundTrip(k: Kind, g: string, timestamp: nat)
    requires '-' !in g
    ensures StartsWith(SavedFileName(k, g, timestamp), Prefix(k, g))
    ensures |Split(SavedFileName(k, g, timestamp), '-')| >= 3
    ensures TimestampField(SavedFileName(k, g, timestamp)) == NatToString(timestamp)
    ensures FileTimestamp(SavedFileName(k, g, timestamp)) == Some(timestamp)
  {
    var digits := NatToString(timestamp);
    DigitsHaveNoPunctuation(timestamp);
    var last := digits + ".txt";
    assert '-' !in last;
    SavedFileNameShape(k, g, timestamp);
    ThreeFields(KindName(k), g, last, '-');
    TxtSuffixDropped(timestamp);
    ParseIntNatToString(timestamp);
  }

  /** A saved name is the kind, the guild and the timestamp file joined by
      `-`, behind the guild's prefix. */
  lemma SavedFileNameShape(k: Kind, g: string, timestamp: nat)
    ensures SavedFileName(k, g, timestamp) == KindName(k) + ['-'] + (g + ['-'] + (NatToString(timestamp) + ".txt"))
    ensures StartsWith(SavedFileName(k, g, timestamp), Prefix(k, g))
  {
    var name := SavedFileName(k, g, timestamp);
    assert name[..|Prefix(k, g)|] == Prefix(k, g);
  }

  /** `replace('.txt', '')` on the last field gives the digits back. */
  lemma TxtSuffixDropped(timestamp: nat)
    ensures ReplaceFirst(NatToString(timestamp) + ".txt", ".txt", "") == NatToString(timestamp)
  {
    var digits := NatToString(timestamp);
    DigitsHaveNoPunctuation(timestamp);
    ReplaceFirstAtEnd(digits, ".txt", "");
    assert digits + "" == digits;
  }

  // -----------------------------------------------------------------------
  // Range queries

  /** What `existsSync` and `readdir` report for a guild's directory. */
  datatype Listing = Missing | Listed(files: seq<string>) | ListFailed(message: string)

  /** One entry of a range query's result. */
  datatype Stored = Stored(timestamp: int, content: string, filename: string)

  /** The loop's filter: the guild's prefix and a timestamp in
      `[start, end]`; a name whose timestamp is NaN is skipped. */
  predicate Wanted(k: Kind, g: string, start: int, end: int, f: string) {
    StartsWith(f, Prefix(k, g))
    && (PrefixedHasThreeFields(k, g, f);
        FileTimestamp(f).Some? && start <= FileTimestamp(f).value <= end)
  }

  /** The timestamp a name parses to, where the loop reads one; 0 stands
      for a name the filter has already skipped. */
  function Stamp(f: string): int {
    if |Split(f, '-')| >= 3 && FileTimestamp(f).Some? then FileTimestamp(f).value else 0
  }

  /** A wanted name's timestamp is the one it parses to, and in range. */
  lemma WantedStamp(k: Kind, g: string, start: int, end: int, f: string)
    requires Wanted(k, g, start, end, f)
    ensures start <= Stamp(f) <= end
    ensures |Split(f, '-')| >= 3 && FileTimestamp(f) == Some(Stamp(f))
  {
    PrefixedHasThreeFields(k, g, f);
  }

  /** The wanted names, in listing order. */
  function WantedFiles(k: Kind, g: string, start: int, end: int, files: seq<string>): (w: seq<string>)
    ensures forall f :: f in w <==> f in files && Wanted(k, g, start, end, f)
    ensures |w| <= |files|
  {
    if |files| == 0 then []
    else
      var rest := WantedFiles(k, g, start, end, files[1..]);
      assert forall f :: f in files <==> f == files[0] || f in files[1..];
      if Wanted(k, g, start, end, files[0]) then [files[0]] + rest else rest
  }

  /** Reading the wanted files in order; the first read that fails makes
      the whole query throw. */
  function ReadAll(files: seq<string>, read: string -> Result<string>): (r: Result<seq<Stored>>)
    ensures r.Ok? <==> forall f :: f in files ==> read(f).Ok?
    ensures r.Ok? ==> |r.value| == |files|
    ensures r.Ok? ==> forall i :: 0 <= i < |files| ==>
      r.value[i] == Stored(Stamp(files[i]), read(files[i]).value, files[i])
    ensures r.Err? ==> exists f :: f in files && read(f) == Err(r.message)
  {
    if |files| == 0 then Ok([])
    else
      var f := files[0];
      assert forall h :: h in files <==> h == f || h in files[1..];
      match read(f)
      case Err(m) => Err(m)
      case Ok(content) =>
        match ReadAll(files[1..], read)
        case Err(m) => Err(m)
        case Ok(rest) => Ok([Stored(Stamp(f), content, f)] + rest)
  }

  predicate SortedByTimestamp(s: seq<Stored>) {
    forall i, j :: 0 <= i < j < |s| ==> s[i].timestamp <= s[j].timestamp
  }

  /** Inserting before the first entry that is not earlier keeps equal
      timestamps in their original order, as the stable `Array.sort` does. */
  function InsertByTimestamp(e: Stored, s: seq<Stored>): (r: seq<Stored>)
    requires SortedByTimestamp(s)
    ensures SortedByTimestamp(r)
    ensures multiset(r) == multiset(s) + multiset{e}
  {
    if |s| == 0 then [e]
    else if e.timestamp <= s[0].timestamp then
      SortedTail(s);
      ConsSortedByTimestamp(e, s);
      [e] + s
    else
      var tail := s[1..];
      SortedTail(s);
      var rest := InsertByTimestamp(e, tail);
      BoundAfterInsert(s[0].timestamp, e, tail, rest);
      ConsSortedByTimestamp(s[0], rest);
      assert s == [s[0]] + tail;
      [s[0]] + rest
  }

  /** The tail of a sorted sequence is sorted and bounded below by its
      head. */
  lemma SortedTail(s: seq<Stored>)
    requires SortedByTimestamp(s) && |s| > 0
    ensures SortedByTimestamp(s[1..])
    ensures forall y :: y in s[1..] ==> s[0].timestamp <= y.timestamp
    ensures forall y :: y in s ==> s[0].timestamp <= y.timestamp
  {
    var tail := s[1..];
    forall i, j | 0 <= i < j < |tail| ensures tail[i].timestamp <= tail[j].timestamp {
      assert tail[i] == s[i + 1] && tail[j] == s[j + 1];
    }
    forall y | y in s ensures s[0].timestamp <= y.timestamp {
      var j :| 0 <= j < |s| && s[j] == y;
    }
    forall y | y in tail ensures s[0].timestamp <= y.timestamp {
      var j :| 0 <= j < |tail| && tail[j] == y;
      assert s[j + 1] == y;
    }
  }

  /** A lower bound of `s` and `e` bounds every element of their
      insertion. */
  lemma BoundAfterInsert(b: int, e: Stored, s: seq<Stored>, r: seq<Stored>)
    requires forall y :: y in s ==> b <= y.timestamp
    requires b < e.timestamp
    requires multiset(r) == multiset(s) + multiset{e}
    ensures forall x :: x in r ==> b <= x.timestamp
  {
    forall x | x in r ensures b <= x.timestamp {
      assert x in multiset(r);
      assert x == e || x in multiset(s);
    }
  }

  lemma ConsSortedByTimestamp(x: Stored, s: seq<Stored>)
    requires SortedByTimestamp(s)
    requires forall y :: y in s ==> x.timestamp <= y.timestamp
    ensures SortedByTimestamp([x] + s)
  {
    var r := [x] + s;
    forall i, j | 0 <= i < j < |r| ensures r[i].timestamp <= r[j].timestamp {
      if i > 0 {
        assert r[i] == s[i - 1] && r[j] == s[j - 1];
      } else {
        assert r[j] == s[j - 1] && s[j - 1] in s;
      }
    }
  }

  /** `sort((a, b) => a.timestamp - b.timestamp)` */
  function SortByTimestamp(s: seq<Stored>): (r: seq<Stored>)
    ensures SortedByTimestamp(r)
    ensures multiset(r) == multiset(s)
  {
    if |s| == 0 then []
    else
      assert s == [s[0]] + s[1..];
      InsertByTimestamp(s[0], SortByTimestamp(s[1..]))
  }

  /** `getSummariesInRange` and `getTranscriptsInRange`: no directory means
      no entries; otherwise the wanted files with their contents, sorted by
      timestamp. */
  function RangeQuery(k: Kind, g: string, start: int, end: int, listing: Listing, read: string -> Result<string>): (r: Result<seq<Stored>>)
    ensures listing.Missing? ==> r == Ok([])
    ensures listing.ListFailed? ==> r == Err(listing.message)
    ensures r.Ok? ==> SortedByTimestamp(r.value)
    ensures r.Ok? ==> forall e :: e in r.value ==>
      && Wanted(k, g, start, end, e.filename)
      && e.timestamp == Stamp(e.filename)
      && start <= e.timestamp <= end
      && read(e.filename) == Ok(e.content)
    ensures listing.Listed? ==>
      (r.Ok? <==> forall f :: f in listing.files && Wanted(k, g, start, end, f) ==> read(f).Ok?)
    ensures listing.Listed? && r.Ok? ==>
      && |r.value| == |WantedFiles(k, g, start, end, listing.files)|
      && forall f :: f in listing.files && Wanted(k, g, start, end, f) ==> exists e :: e in r.value && e.filename == f
  {
    match listing
    case Missing => Ok([])
    case ListFailed(m) => Err(m)
    case Listed(files) =>
      var wanted := WantedFiles(k, g, start, end, files);
      match ReadAll(wanted, read)
      case Err(m) => Err(m)
      case Ok(entries) =>
        var sorted := SortByTimestamp(entries);
        RangeQueryEntries(k, g, start, end, wanted, read, entries, sorted);
        Ok(sorted)
  }

  /** Each entry of a range query carries the timestamp its file name
      parses to, which is the key the entries are sorted on. */
  lemma RangeQueryStampsParse(k: Kind, g: string, start: int, end: int, listing: Listing,
                              read: string -> Result<string>, r: Result<seq<Stored>>, e: Stored)
    requires r == RangeQuery(k, g, start, end, listing, read)
    requires r.Ok? && e in r.value
    ensures |Split(e.filename, '-')| >= 3 && FileTimestamp(e.filename) == Some(e.timestamp)
  {
    WantedStamp(k, g, start, end, e.filename);
  }

  lemma RangeQueryEntries(k: Kind, g: string, start: int, end: int, wanted: seq<string>,
                          read: string -> Result<string>, entries: seq<Stored>, sorted: seq<Stored>)
    requires forall f :: f in wanted ==> Wanted(k, g, start, end, f)
    requires ReadAll(wanted, read) == Ok(entries)
    requires multiset(sorted) == multiset(entries)
    ensures |sorted| == |wanted|
    ensures forall e :: e in sorted ==>
      && Wanted(k, g, start, end, e.filename) && e.timestamp == Stamp(e.filename)
      && start <= e.timestamp <= end && read(e.filename) == Ok(e.content)
    ensures forall f :: f in wanted ==> exists e :: e in sorted && e.filename == f
  {
    assert |sorted| == |multiset(sorted)| == |multiset(entries)| == |entries|;
    var good := (e: Stored) =>
      && Wanted(k, g, start, end, e.filename) && e.timestamp == Stamp(e.filename)
      && start <= e.timestamp <= end && read(e.filename) == Ok(e.content);
    forall i | 0 <= i < |entries| ensures good(entries[i]) {
      ReadAllEntry(k, g, start, end, wanted, read, entries, i);
    }
    AllInPermutation(entries, sorted, good);
    forall f | f in wanted
      ensures exists e :: e in sorted && e.filename == f
    {
      var i :| 0 <= i < |wanted| && wanted[i] == f;
      ReadAllEntry(k, g, start, end, wanted, read, entries, i);
      InSameMultiset(entries, sorted, entries[i]);
    }
  }

  /** What holds of every element holds of every element of a
      permutation. */
  lemma AllInPermutation<T>(a: seq<T>, b: seq<T>, p: T -> bool)
    requires multiset(a) == multiset(b)
    requires forall i :: 0 <= i < |a| ==> p(a[i])
    ensures forall x :: x in b ==> p(x)
  {
    forall x | x in b ensures p(x) {
      InSameMultiset(b, a, x);
      var i :| 0 <= i < |a| && a[i] == x;
    }
  }

  lemma InSameMultiset<T>(a: seq<T>, b: seq<T>, x: T)
    requires multiset(a) == multiset(b) && x in a
    ensures x in b
  {
    assert x in multiset(a);
  }

  /** Entry `i` of a successful read is the wanted file `i`, in range,
      with its content. */
  lemma ReadAllEntry(k: Kind, g: string, start: int, end: int, wanted: seq<string>,
                     read: string -> Result<string>, entries: seq<Stored>, i: int)
    requires forall f :: f in wanted ==> Wanted(k, g, start, end, f)
    requires ReadAll(wanted, read) == Ok(entries)
    requires 0 <= i < |wanted|
    ensures |entries| == |wanted| && entries[i].filename == wanted[i]
    ensures Wanted(k, g, start, end, entries[i].filename)
    ensures entries[i].timestamp == Stamp(entries[i].filename)
    ensures start <= entries[i].timestamp <= end && read(entries[i].filename) == Ok(entries[i].content)
  {
    assert wanted[i] in wanted;
    WantedStamp(k, g, start, end, wanted[i]);
  }

  // -----------------------------------------------------------------------
  // Recent summaries

  /** The order of the default `Array.sort` on strings: lexicographic on
      characters, a prefix first. */
  predicate StrLe(a: string, b: string)
    decreases |a|
  {
    |a| == 0 || (|b| > 0 && (a[0] < b[0] || (a[0] == b[0] && StrLe(a[1..], b[1..]))))
  }

  lemma {:induction false} StrLeTotal(a: string, b: string)
    ensures StrLe(a, b) || StrLe(b, a)
    decreases |a|
  {
    if |a| > 0 && |b| > 0 && a[0] == b[0] {
      StrLeTotal(a[1..], b[1..]);
    }
  }

  lemma {:induction false} StrLeTrans(a: string, b: string, c: string)
    requires StrLe(a, b) && StrLe(b, c)
    ensures StrLe(a, c)
    decreases |a|
  {
    if |a| > 0 && a[0] == b[0] && b[0] == c[0] {
      StrLeTrans(a[1..], b[1..], c[1..]);
    }
  }

  predicate Descending(s: seq<string>) {
    forall i, j :: 0 <= i < j < |s| ==> StrLe(s[j], s[i])
  }

  function InsertDescending(f: string, s: seq<string>): (r: seq<string>)
    requires Descending(s)
    ensures Descending(r)
    ensures multiset(r) == multiset(s) + multiset{f}
  {
    if |s| == 0 then [f]
    else if StrLe(s[0], f) then
      assert forall y :: y in s ==> StrLe(y, f) by {
        forall y | y in s ensures StrLe(y, f) {
          var j :| 0 <= j < |s| && s[j] == y;
          if j > 0 {
            StrLeTrans(s[j], s[0], f);
          }
        }
      }
      ConsDescending(f, s);
      [f] + s
    else
      StrLeTotal(s[0], f);
      var rest := InsertDescending(f, s[1..]);
      assert s == [s[0]] + s[1..];
      assert forall y :: y in rest ==> StrLe(y, s[0]) by {
        forall y | y in rest ensures StrLe(y, s[0]) {
          assert y in multiset(rest);
          assert y == f || y in multiset(s[1..]);
        }
      }
      ConsDescending(s[0], rest);
      [s[0]] + rest
  }

  lemma ConsDescending(x: string, s: seq<string>)
    requires Descending(s)
    requires forall y :: y in s ==> StrLe(y, x)
    ensures Descending([x] + s)
  {
    var r := [x] + s;
    forall i, j | 0 <= i < j < |r| ensures StrLe(r[j], r[i]) {
      if i > 0 {
        assert r[i] == s[i - 1] && r[j] == s[j - 1];
      } else {
        assert r[j] == s[j - 1] && s[j - 1] in s;
      }
    }
  }

  /** `.sort().reverse()`: names in a listing are distinct, so this is the
      descending order. */
  function SortDescending(s: seq<string>): (r: seq<string>)
    ensures Descending(r)
    ensures multiset(r) == multiset(s)
  {
    if |s| == 0 then []
    else
      assert s == [s[0]] + s[1..];
      InsertDescending(s[0], SortDescending(s[1..]))
  }

  /** `s.slice(0, limit)`: a negative limit counts from the end. */
  function Take<T>(s: seq<T>, limit: int): (r: seq<T>)
    ensures limit >= 0 ==> |r| == if limit < |s| then limit else |s|
    ensures limit < 0 ==> |r| == if |s| + limit > 0 then |s| + limit else 0
    ensures r == s[..|r|]
  {
    var end := if limit >= 0 then (if limit < |s| then limit else |s|)
               else (if |s| + limit > 0 then |s| + limit else 0);
    s[..end]
  }

  /** The names with the guild's summary prefix, in listing order. */
  function SummaryNames(g: string, files: seq<string>): (w: seq<string>)
    ensures forall f :: f in w <==> f in files && StartsWith(f, Prefix(Summary, g))
  {
    if |files| == 0 then []
    else
      var rest := SummaryNames(g, files[1..]);
      assert forall f :: f in files <==> f == files[0] || f in files[1..];
      if StartsWith(files[0], Prefix(Summary, g)) then [files[0]] + rest else rest
  }

  /** The files `getRecentSummaries` reads: the prefixed names, greatest
      first, `limit` of them when there are that many. */
  function RecentFiles(g: string, files: seq<string>, limit: int): (r: seq<string>)
    ensures Descending(r)
    ensures forall f :: f in r ==> f in files && StartsWith(f, Prefix(Summary, g))
    ensures limit >= 0 ==> |r| == if limit < |SummaryNames(g, files)| then limit else |SummaryNames(g, files)|
    ensures limit < 0 ==> |r| == if |SummaryNames(g, files)| + limit > 0 then |SummaryNames(g, files)| + limit else 0
  {
    var sorted := SortDescending(SummaryNames(g, files));
    assert |sorted| == |multiset(sorted)| == |SummaryNames(g, files)|;
    var r := Take(sorted, limit);
    assert forall f :: f in r ==> f in multiset(sorted);
    r
  }

  /** One entry of `getRecentSummaries`: the timestamp text of the name, and
      the file's content. */
  datatype Recent = Recent(timestamp: string, content: string)

  /** The timestamp text of a name with at least three `-` fields; every
      name the query reads has them. */
  function StampText(f: string): string {
    if |Split(f, '-')| >= 3 then TimestampField(f) else ""
  }

  /** The files whose read succeeds, in their original order. */
  function ReadableFiles(files: seq<string>, read: string -> Result<string>): (w: seq<string>)
    ensures forall f :: f in w <==> f in files && read(f).Ok?
    ensures |w| <= |files|
    ensures (forall f :: f in files ==> read(f).Ok?) ==> w == files
  {
    if |files| == 0 then []
    else
      var rest := ReadableFiles(files[1..], read);
      assert forall f :: f in files <==> f == files[0] || f in files[1..];
      if read(files[0]).Ok? then [files[0]] + rest else rest
  }

  /** Dropping the unreadable files keeps a descending order. */
  lemma {:induction false} ReadableKeepsDescending(files: seq<string>, read: string -> Result<string>)
    requires Descending(files)
    ensures Descending(ReadableFiles(files, read))
    decreases |files|
  {
    if |files| > 0 {
      var tail := files[1..];
      assert Descending(tail) by {
        forall i, j | 0 <= i < j < |tail| ensures StrLe(tail[j], tail[i]) {
          assert tail[j] == files[j + 1] && tail[i] == files[i + 1];
        }
      }
      ReadableKeepsDescending(tail, read);
      var rest := ReadableFiles(tail, read);
      if read(files[0]).Ok? {
        forall y | y in rest ensures StrLe(y, files[0]) {
          var j :| 0 <= j < |tail| && tail[j] == y;
          assert files[j + 1] == y;
        }
        ConsDescending(files[0], rest);
      }
    }
  }

  /** Reading the chosen files; a file that cannot be read is skipped, and
      the others give one entry each, in order. */
  function ReadReadable(files: seq<string>, read: string -> Result<string>): (r: seq<Recent>)
    ensures |r| == |ReadableFiles(files, read)|
    ensures forall k :: 0 <= k < |r| ==> ReadableEntry(files, read, r, k)
  {
    if |files| == 0 then []
    else
      var f := files[0];
      var rest := ReadReadable(files[1..], read);
      match read(f)
      case Err(_) =>
        SkippedEntries(files, read, rest);
        rest
      case Ok(content) =>
        var r := [Recent(StampText(f), content)] + rest;
        ReadableEntries(files, read, rest, r);
        r
  }

  /** Entry `k` of `r` is the one the `k`-th readable file gives. */
  predicate ReadableEntry(files: seq<string>, read: string -> Result<string>, r: seq<Recent>, k: nat)
    requires k < |r|
  {
    var w := ReadableFiles(files, read);
    k < |w| && read(w[k]).Ok? && r[k] == Recent(StampText(w[k]), read(w[k]).value)
  }

  /** An unreadable first file adds no entry. */
  lemma SkippedEntries(files: seq<string>, read: string -> Result<string>, rest: seq<Recent>)
    requires |files| > 0 && read(files[0]).Err?
    requires forall k :: 0 <= k < |rest| ==> ReadableEntry(files[1..], read, rest, k)
    ensures forall k :: 0 <= k < |rest| ==> ReadableEntry(files, read, rest, k)
  {
    assert ReadableFiles(files, read) == ReadableFiles(files[1..], read);
    forall k | 0 <= k < |rest| ensures ReadableEntry(files, read, rest, k) {
      assert ReadableEntry(files[1..], read, rest, k);
    }
  }

  /** Putting the first file's entry in front of the entries of the others
      gives the entries of all of them. */
  lemma ReadableEntries(files: seq<string>, read: string -> Result<string>, rest: seq<Recent>, r: seq<Recent>)
    requires |files| > 0 && read(files[0]).Ok?
    requires |rest| == |ReadableFiles(files[1..], read)|
    requires forall k :: 0 <= k < |rest| ==> ReadableEntry(files[1..], read, rest, k)
    requires r == [Recent(StampText(files[0]), read(files[0]).value)] + rest
    ensures forall k :: 0 <= k < |r| ==> ReadableEntry(files, read, r, k)
  {
    var w := ReadableFiles(files, read);
    var tail := ReadableFiles(files[1..], read);
    assert w == [files[0]] + tail;
    forall k | 0 <= k < |r| ensures ReadableEntry(files, read, r, k) {
      if k > 0 {
        assert ReadableEntry(files[1..], read, rest, k - 1);
        assert r[k] == rest[k - 1] && w[k] == tail[k - 1];
      }
    }
  }

  /** `getRecentSummaries(guildId, limit)`: one entry per readable chosen
      file, newest name first. */
  function GetRecentSummaries(g: string, limit: int, listing: Listing, read: string -> Result<string>): (r: Result<seq<Recent>>)
    ensures listing.Missing? ==> r == Ok([])
    ensures listing.ListFailed? ==> r == Err(listing.message)
    ensures listing.Listed? ==> r.Ok?
    ensures listing.Listed? ==> Descending(ReadableFiles(RecentFiles(g, listing.files, limit), read))
    ensures listing.Listed? ==> |r.value| == |ReadableFiles(RecentFiles(g, listing.files, limit), read)|
    ensures listing.Listed? ==>
      forall k :: 0 <= k < |r.value| ==> ReadableEntry(RecentFiles(g, listing.files, limit), read, r.value, k)
    ensures listing.Listed? && limit >= 0 ==> |r.value| <= limit
  {
    match listing
    case Missing => Ok([])
    case ListFailed(m) => Err(m)
    case Listed(files) =>
      ReadableKeepsDescending(RecentFiles(g, files, limit), read);
      Ok(ReadReadable(RecentFiles(g, files, limit), read))
  }

  /** When every read succeeds, the query returns `limit` entries, or all
      of the guild's summaries when there are fewer, newest name first. */
  lemma AllReadableGivesNewest(g: string, limit: int, files: seq<string>, read: string -> Result<string>)
    requires limit >= 0
    requires forall f :: f in files ==> read(f).Ok?
    ensures var r := GetRecentSummaries(g, limit, Listed(files), read).value;
            var chosen := RecentFiles(g, files, limit);
            && |r| == (if limit < |SummaryNames(g, files)| then limit else |SummaryNames(g, files)|)
            && forall k :: 0 <= k < |r| ==> r[k] == Recent(StampText(chosen[k]), read(chosen[k]).value)
  {
    var chosen := RecentFiles(g, files, limit);
    var r := GetRecentSummaries(g, limit, Listed(files), read).value;
    assert ReadableFiles(chosen, read) == chosen;
    forall k | 0 <= k < |r| ensures r[k] == Recent(StampText(chosen[k]), read(chosen[k]).value) {
      assert ReadableEntry(chosen, read, r, k);
    }
  }

  /** The chosen names are the greatest: a prefixed name left out is not
      above any chosen one. */
  lemma RecentAreGreatest(g: string, files: seq<string>, limit: int, chosen: string, other: string)
    requires chosen in RecentFiles(g, files, limit)
    requires other in files && StartsWith(other, Prefix(Summary, g))
    requires other !in RecentFiles(g, files, limit)
    ensures StrLe(other, chosen)
  {
    var sorted := SortDescending(SummaryNames(g, files));
    var r := RecentFiles(g, files, limit);
    assert r == Take(sorted, limit);
    assert other in multiset(sorted);
    var j :| 0 <= j < |sorted| && sorted[j] == other;
    var i :| 0 <= i < |r| && r[i] == chosen;
    assert sorted[i] == chosen;
    assert forall x :: 0 <= x < |r| ==> r[x] == sorted[x];
    assert j >= |r|;
  }

  // -----------------------------------------------------------------------
  // Retention and deletion

  /** `RETENTION_DAYS * 24 * 60 * 60 * 1000` */
  function MaxAgeMs(days: int): int {
    days * 24 * 60 * 60 * 1000
  }

  /** The sweep's test: strictly older than the maximum age. */
  predicate Expired(now: int, mtimeMs: int, maxAge: int) {
    now - mtimeMs > maxAge
  }

  /** One day of retention is 86,400,000 ms; a file exactly that old stays. */
  lemma RetentionBoundary(now: int)
    ensures MaxAgeMs(RetentionDays) == 86400000
    ensures !Expired(now, now - 86400000, MaxAgeMs(RetentionDays))
    ensures Expired(now, now - 86400001, MaxAgeMs(RetentionDays))
  {
  }

  /** `cleanDirectory(dir, maxAge)`: every listed file whose stat succeeds
      and shows it expired is unlinked; a failure on one file is logged and
      the loop goes on; a failed `readdir` deletes nothing. Returns the
      names unlinked, in listing order. */
  method CleanDirectory(now: int, maxAge: int, listing: Result<seq<string>>,
                        stat: string -> Result<int>, unlink: string -> Result<()>)
    returns (deleted: seq<string>)
    ensures listing.Err? ==> deleted == []
    ensures listing.Ok? ==> forall f :: f in deleted <==>
      f in listing.value && stat(f).Ok? && Expired(now, stat(f).value, maxAge) && unlink(f).Ok?
    ensures listing.Ok? ==> |deleted| <= |listing.value|
  {
    deleted := [];
    if listing.Err? {
      return;
    }
    var files := listing.value;
    var i := 0;
    while i < |files|
      invariant 0 <= i <= |files|
      invariant |deleted| <= i
      invariant forall f :: f in deleted <==>
        f in files[..i] && stat(f).Ok? && Expired(now, stat(f).value, maxAge) && unlink(f).Ok?
    {
      var f := files[i];
      assert files[..i + 1] == files[..i] + [f];
      if stat(f).Ok? && Expired(now, stat(f).value, maxAge) && unlink(f).Ok? {
        deleted := deleted + [f];
      }
      i := i + 1;
    }
    assert files[..i] == files;
  }

  /** The outcome of `deleteFile(filePath)` and the files left. */
  datatype Deletion = Deletion(deleted: bool, files: set<string>)

  /** `deleteFile(filePath)`: true exactly when the file existed and was
      unlinked; it never throws. */
  function DeleteFile(files: set<string>, path: string, unlink: Result<()>): (r: Deletion)
    ensures r.deleted <==> path in files && unlink.Ok?
    ensures r.deleted ==> r.files == files - {path}
    ensures !r.deleted ==> r.files == files
    ensures path !in r.files || (path in files && unlink.Err?)
  {
    if path in files && unlink.Ok? then Deletion(true, files - {path}) else Deletion(false, files)
  }
}

=== FILE: text.dfy ===
/** The handful of JavaScript string operations the services rely on, with
    the edge cases of the ECMAScript definitions: `startsWith`, `includes`,
    `split` on one character, `replace` of the first occurrence, `trim`
    whitespace, `parseInt` without a radix, and the decimal rendering a
    template literal gives a non-negative integer. */
module Text {
  import opened Wrappers

  // ---------------------------------------------------------------------
  // Prefixes and substrings

  /** `s.startsWith(prefix)` */
  predicate StartsWith(s: string, prefix: string) {
    |prefix| <= |s| && s[..|prefix|] == prefix
  }

  /** `s.endsWith(suffix)` */
  predicate EndsWith(s: string, suffix: string) {
    |suffix| <= |s| && s[|s| - |suffix|..] == suffix
  }

  /** `s.includes(sub)`: some suffix of `s` starts with `sub`. */
  predicate Contains(s: string, sub: string)
    decreases |s|
  {
    StartsWith(s, sub) || (|s| > 0 && Contains(s[1..], sub))
  }

  /** Whatever surrounds an occurrence, `includes` finds it. */
  lemma {:induction false} ContainsInside(a: string, sub: string, b: string)
    ensures Contains(a + sub + b, sub)
    decreases |a|
  {
    if |a| == 0 {
      assert a + sub + b == sub + b;
      assert (sub + b)[..|sub|] == sub;
    } else {
      assert (a + sub + b)[1..] == a[1..] + sub + b;
      ContainsInside(a[1..], sub, b);
    }
  }

  /** `s.replace(pattern, replacement)` with a string pattern: only the
      first occurrence is replaced. */
  function ReplaceFirst(s: string, pattern: string, replacement: string): string
    decreases |s|
  {
    if StartsWith(s, pattern) then replacement + s[|pattern|..]
    else if |s| == 0 then s
    else [s[0]] + ReplaceFirst(s[1..], pattern, replacement)
  }

  /** When the pattern's first character does not occur before it, the first
      occurrence is the trailing one. */
  lemma {:induction false} ReplaceFirstAtEnd(a: string, pattern: string, replacement: string)
    requires |pattern| > 0 && pattern[0] !in a
    ensures ReplaceFirst(a + pattern, pattern, replacement) == a + replacement
    decreases |a|
  {
    if |a| == 0 {
      assert a + pattern == pattern;
    } else {
      var s := a + pattern;
      assert s[0] == a[0] && s[0] != pattern[0];
      assert !StartsWith(s, pattern);
      assert s[1..] == a[1..] + pattern;
      ReplaceFirstAtEnd(a[1..], pattern, replacement);
      assert [a[0]] + (a[1..] + replacement) == a + replacement;
    }
  }

  // ---------------------------------------------------------------------
  // split on a single character, and its inverse

  /** `s.split(sep)` for a one-character separator: the fields between
      separators, empty fields included; `"".split(sep)` is `[""]`. */
  function Split(s: string, sep: char): (parts: seq<string>)
    ensures |parts| >= 1
    ensures forall i :: 0 <= i < |parts| ==> sep !in parts[i]
    decreases |s|
  {
    if |s| == 0 then [""]
    else
      var rest := Split(s[1..], sep);
      if s[0] == sep then [""] + rest
      else [[s[0]] + rest[0]] + rest[1..]
  }

  /** `parts.join(sep)` */
  function Join(parts: seq<string>, sep: char): string
    requires |parts| >= 1
    decreases |parts|
  {
    if |parts| == 1 then parts[0] else parts[0] + [sep] + Join(parts[1..], sep)
  }

  /** Joining the fields back with the separator restores the string. */
  lemma {:induction false} JoinSplit(s: string, sep: char)
    ensures Join(Split(s, sep), sep) == s
    decreases |s|
  {
    if |s| > 0 {
      JoinSplit(s[1..], sep);
      var rest := Split(s[1..], sep);
      if s[0] == sep {
        assert ([""] + rest)[1..] == rest;
        assert Join([""] + rest, sep) == "" + [sep] + Join(rest, sep);
        assert s == [s[0]] + s[1..];
      } else {
        var parts := [[s[0]] + rest[0]] + rest[1..];
        if |rest| == 1 {
          assert Join(parts, sep) == [s[0]] + rest[0];
          assert s == [s[0]] + s[1..];
        } else {
          assert parts[1..] == rest[1..];
          assert Join(rest, sep) == rest[0] + [sep] + Join(rest[1..], sep);
          assert Join(parts, sep) == [s[0]] + rest[0] + [sep] + Join(rest[1..], sep);
          assert s == [s[0]] + s[1..];
        }
      }
    }
  }

  /** A string without the separator is a single field. */
  lemma {:induction false} SplitWithoutSeparator(s: string, sep: char)
    requires sep !in s
    ensures Split(s, sep) == [s]
    decreases |s|
  {
    if |s| > 0 {
      assert sep !in s[1..];
      SplitWithoutSeparator(s[1..], sep);
      assert [s[0]] + s[1..] == s;
    }
  }

  /** A separator after a separator-free head ends the first field. */
  lemma {:induction false} SplitAfterField(a: string, sep: char, b: string)
    requires sep !in a
    ensures Split(a + [sep] + b, sep) == [a] + Split(b, sep)
    decreases |a|
  {
    var s := a + [sep] + b;
    if |a| == 0 {
      assert s == [sep] + b;
      assert s[1..] == b;
    } else {
      assert s[0] == a[0] && a[0] != sep;
      assert s[1..] == a[1..] + [sep] + b;
      assert sep !in a[1..];
      SplitAfterField(a[1..], sep, b);
      assert [a[0]] + a[1..] == a;
    }
  }

  /** A separator adds a field: whatever precedes it, the fields after it
      are still there. */
  lemma {:induction false} SplitMoreFields(a: string, sep: char, b: string)
    ensures |Split(a + [sep] + b, sep)| >= 1 + |Split(b, sep)|
    decreases |a|
  {
    var s := a + [sep] + b;
    if |a| == 0 {
      assert s == [sep] + b;
      assert s[1..] == b;
    } else {
      assert s[1..] == a[1..] + [sep] + b;
      SplitMoreFields(a[1..], sep, b);
    }
  }

  /** Three separator-free fields joined by the separator split back. */
  lemma ThreeFields(a: string, b: string, c: string, sep: char)
    requires sep !in a && sep !in b && sep !in c
    ensures Split(a + [sep] + (b + [sep] + c), sep) == [a, b, c]
  {
    SplitAfterField(a, sep, b + [sep] + c);
    SplitAfterField(b, sep, c);
    SplitWithoutSeparator(c, sep);
  }

  /** Four separator-free fields joined by the separator split back. */
  lemma FourFields(a: string, b: string, c: string, d: string, sep: char)
    requires sep !in a && sep !in b && sep !in c && sep !in d
    ensures Split(a + [sep] + (b + [sep] + (c + [sep] + d)), sep) == [a, b, c, d]
  {
    SplitAfterField(a, sep, b + [sep] + (c + [sep] + d));
    ThreeFields(b, c, d, sep);
  }

  /** Splitting a join of separator-free fields gives the fields back. */
  lemma {:induction false} SplitJoin(parts: seq<string>, sep: char)
    requires |parts| >= 1
    requires forall i :: 0 <= i < |parts| ==> sep !in parts[i]
    ensures Split(Join(parts, sep), sep) == parts
    decreases |parts|
  {
    if |parts| == 1 {
      SplitWithoutSeparator(parts[0], sep);
    } else {
      SplitJoin(parts[1..], sep);
      SplitAfterField(parts[0], sep, Join(parts[1..], sep));
      assert [parts[0]] + parts[1..] == parts;
    }
  }

  // ---------------------------------------------------------------------
  // Whitespace, as `trim` and `parseInt` understand it

  /** ECMAScript WhiteSpace and LineTerminator code points. */
  predicate IsJsWhitespace(c: char) {
    c == '\t' || c == '\n' || c == '\U{000B}' || c == '\U{000C}' || c == '\r'
    || c == ' ' || c == '\U{00A0}' || c == '\U{1680}'
    || ('\U{2000}' <= c <= '\U{200A}')
    || c == '\U{2028}' || c == '\U{2029}' || c == '\U{202F}' || c == '\U{205F}'
    || c == '\U{3000}' || c == '\U{FEFF}'
  }

  /** `s.trim().length === 0` */
  predicate IsBlank(s: string) {
    forall i :: 0 <= i < |s| ==> IsJsWhitespace(s[i])
  }

  /** `s.trimStart()` */
  function TrimStart(s: string): (t: string)
    ensures |t| <= |s| && t == s[|s| - |t|..]
    ensures |t| > 0 ==> !IsJsWhitespace(t[0])
    ensures forall i :: 0 <= i < |s| - |t| ==> IsJsWhitespace(s[i])
    decreases |s|
  {
    if |s| > 0 && IsJsWhitespace(s[0]) then TrimStart(s[1..]) else s
  }

  // ---------------------------------------------------------------------
  // Digits, decimal rendering and parseInt

  predicate IsDigit(c: char) {
    '0' <= c <= '9'
  }

  predicate AllDigits(s: string) {
    forall i :: 0 <= i < |s| ==> IsDigit(s[i])
  }

  /** The value of `c` as a base-36 digit, as `parseInt` reads it. */
  function DigitOf(c: char): Option<nat> {
    if '0' <= c <= '9' then Some(c as int - '0' as int)
    else if 'a' <= c <= 'z' then Some(c as int - 'a' as int + 10)
    else if 'A' <= c <= 'Z' then Some(c as int - 'A' as int + 10)
    else None
  }

  predicate IsRadixDigit(c: char, radix: nat) {
    DigitOf(c).Some? && DigitOf(c).value < radix
  }

  function DigitChar(d: nat): (c: char)
    requires d < 10
    ensures IsDigit(c) && DigitOf(c) == Some(d)
  {
    ('0' as int + d) as char
  }

  /** The decimal text of a non-negative integer, as `${n}` renders it. */
  function NatToString(n: nat): (s: string)
    ensures |s| >= 1 && AllDigits(s)
    ensures s[0] == '0' <==> n == 0
    ensures n == 0 ==> s == "0"
    decreases n
  {
    if n < 10 then [DigitChar(n)] else NatToString(n / 10) + [DigitChar(n % 10)]
  }

  /** `${i}` for any integer. */
  function IntToString(i: int): string {
    if i < 0 then "-" + NatToString(-i) else NatToString(i)
  }

  /** The number of leading characters of `s` that are digits in `radix`. */
  function LeadingDigits(s: string, radix: nat): (k: nat)
    ensures k <= |s|
    ensures forall i :: 0 <= i < k ==> IsRadixDigit(s[i], radix)
    ensures k < |s| ==> !IsRadixDigit(s[k], radix)
    decreases |s|
  {
    if |s| > 0 && IsRadixDigit(s[0], radix) then 1 + LeadingDigits(s[1..], radix) else 0
  }

  function RadixValue(s: string, radix: nat): nat
    requires forall i :: 0 <= i < |s| ==> IsRadixDigit(s[i], radix)
    decreases |s|
  {
    if |s| == 0 then 0
    else
      var init := s[..|s| - 1];
      var last := s[|s| - 1];
      assert IsRadixDigit(last, radix);
      assert forall i :: 0 <= i < |init| ==> init[i] == s[i];
      var high: nat := RadixValue(init, radix);
      MulNonNegative(high, radix);
      high * radix + DigitOf(last).value
  }

  lemma MulNonNegative(a: nat, b: nat)
    ensures a * b >= 0
  {
  }

  /** `parseInt(s)` with no radix: leading whitespace is skipped, one sign is
      read, a `0x`/`0X` prefix selects base 16, and the longest run of digits
      that follows is converted; no digits at all gives `NaN` (`None`). */
  function ParseInt(s: string): Option<int> {
    var t := TrimStart(s);
    var negative := |t| > 0 && t[0] == '-';
    var u := if |t| > 0 && (t[0] == '-' || t[0] == '+') then t[1..] else t;
    var hex := |u| >= 2 && u[0] == '0' && (u[1] == 'x' || u[1] == 'X');
    var radix := if hex then 16 else 10;
    var v := if hex then u[2..] else u;
    var k := LeadingDigits(v, radix);
    if k == 0 then None
    else
      var magnitude: int := RadixValue(v[..k], radix);
      if negative then Some(-magnitude) else Some(magnitude)
  }

  lemma {:induction false} NatToStringValue(n: nat)
    ensures forall i :: 0 <= i < |NatToString(n)| ==> IsRadixDigit(NatToString(n)[i], 10)
    ensures RadixValue(NatToString(n), 10) == n
    decreases n
  {
    var s := NatToString(n);
    forall i | 0 <= i < |s|
      ensures IsRadixDigit(s[i], 10)
    {
      assert IsDigit(s[i]);
    }
    if n >= 10 {
      NatToStringValue(n / 10);
      assert s[..|s| - 1] == NatToString(n / 10);
    }
  }

  /** `parseInt` reads back what `${n}` wrote. */
  lemma ParseIntNatToString(n: nat)
    ensures ParseInt(NatToString(n)) == Some(n)
  {
    var s := NatToString(n);
    NatToStringValue(n);
    ParseIntDigits(s);
  }

  /** A plain run of decimal digits without a `0x` look-alike parses to its
      decimal value. */
  lemma ParseIntDigits(s: string)
    requires |s| >= 1 && AllDigits(s)
    requires s[0] == '0' ==> |s| == 1
    requires forall i :: 0 <= i < |s| ==> IsRadixDigit(s[i], 10)
    ensures ParseInt(s) == Some(RadixValue(s, 10))
  {
    assert IsDigit(s[0]);
    assert !IsJsWhitespace(s[0]);
    var t := TrimStart(s);
    assert t == s;
    assert !(t[0] == '-' || t[0] == '+');
    assert !(|s| >= 2 && s[0] == '0');
    LeadingDigitsAll(s, 10);
    assert s[..|s|] == s;
  }

  lemma {:induction false} LeadingDigitsAll(s: string, radix: nat)
    requires forall i :: 0 <= i < |s| ==> IsRadixDigit(s[i], radix)
    ensures LeadingDigits(s, radix) == |s|
    decreases |s|
  {
    if |s| > 0 {
      LeadingDigitsAll(s[1..], radix);
    }
  }
}

=== FILE: transcription.dfy ===
/** The summary loop and the API-key guard of
    src/services/TranscriptionService.js. Each completion request is
    modelled by what it produced: `request(i)` is the response to the
    request made with model number `i` (0 to 3). */
module Transcription {
  import opened Wrappers
  import opened Text
  import Configuration

  /** The models tried, in order. */
  const SummaryModels: seq<string> := ["chatgpt-4o-latest", "gpt-3.5-turbo", "gpt-4o-mini", "gpt-4o"]

  /** A reply containing this text is not accepted as a summary. */
  const NoTranscriptMarker: string := "No transcript available"

  /** Every error leaving `generateSummary` carries this prefix. */
  const SummaryErrorPrefix: string := "Failed to generate summary: "

  /** Thrown inside the loop when the fourth reply still has the marker. */
  const AllRepliesEmpty: string := "Failed to generate summary"

  const NoKeyMessage: string := "No OpenAI API key set for this server. Please set it using the /setkey command."

  /** One completion request: the content of its first choice, or the
      message of the error it threw. */
  datatype Completion = Content(text: string) | RequestThrew(message: string)

  /** The outcome, the models requested in order, and the waits made. */
  datatype SummaryRun = SummaryRun(result: Result<string>, models: seq<string>, waits: seq<int>)

  /** The backoff before request number `i`. */
  function Backoff(i: nat): int {
    2 * i * 1000
  }

  /** How the response to request `i` settles the call when it is the last
      request made. */
  ghost predicate SettledBy(i: nat, c: Completion, result: Result<string>) {
    match c
    case RequestThrew(m) => result == Err(SummaryErrorPrefix + m)
    case Content(t) =>
      if Contains(t, NoTranscriptMarker) then i == 3 && result == Err(SummaryErrorPrefix + AllRepliesEmpty)
      else result == Ok(t)
  }

  /** One pass of the loop body: `Some` of the outcome when the response to
      request `i` ends the loop, `None` when the next model is tried. */
  function Step(i: nat, c: Completion): (o: Option<Result<string>>)
    ensures o.None? <==> i != 3 && c.Content? && Contains(c.text, NoTranscriptMarker)
    ensures o.Some? ==> SettledBy(i, c, o.value)
  {
    match c
    case RequestThrew(m) => Some(Err(SummaryErrorPrefix + m))
    case Content(t) =>
      if !Contains(t, NoTranscriptMarker) then Some(Ok(t))
      else if i == 3 then Some(Err(SummaryErrorPrefix + AllRepliesEmpty))
      else None
  }

  /** `generateSummary(transcript)` */
  function GenerateSummary(request: nat -> Completion): (r: SummaryRun)
    ensures 1 <= |r.models| <= 4
    ensures forall k :: 0 <= k < |r.models| ==> r.models[k] == SummaryModels[k]
    ensures |r.waits| == |r.models| - 1
    ensures forall k :: 0 <= k < |r.waits| ==> r.waits[k] == Backoff(k + 1)
    ensures forall j :: 0 <= j < |r.models| - 1 ==>
      request(j).Content? && Contains(request(j).text, NoTranscriptMarker)
    ensures SettledBy(|r.models| - 1, request(|r.models| - 1), r.result)
  {
    match Step(0, request(0))
    case Some(result) => SummaryRun(result, [SummaryModels[0]], [])
    case None =>
      var rest := Retries(request, 1);
      SummaryRun(rest.result, [SummaryModels[0]] + rest.models, rest.waits)
  }

  /** The loop from request number `i` > 0 on: each request is preceded by
      its backoff. */
  function Retries(request: nat -> Completion, i: nat): (r: SummaryRun)
    requires 1 <= i < 4
    ensures 1 <= |r.models| <= 4 - i
    ensures forall k :: 0 <= k < |r.models| ==> r.models[k] == SummaryModels[i + k]
    ensures |r.waits| == |r.models|
    ensures forall k :: 0 <= k < |r.waits| ==> r.waits[k] == Backoff(i + k)
    ensures forall j :: i <= j < i + |r.models| - 1 ==>
      request(j).Content? && Contains(request(j).text, NoTranscriptMarker)
    ensures SettledBy(i + |r.models| - 1, request(i + |r.models| - 1), r.result)
    decreases 4 - i
  {
    match Step(i, request(i))
    case Some(result) => SummaryRun(result, [SummaryModels[i]], [Backoff(i)])
    case None =>
      var rest := Retries(request, i + 1);
      SummaryRun(rest.result, [SummaryModels[i]] + rest.models, [Backoff(i)] + rest.waits)
  }

  /** Whatever happens, an error leaving `generateSummary` has the prefix. */
  lemma ErrorsArePrefixed(request: nat -> Completion)
    ensures GenerateSummary(request).result.Err? ==>
      StartsWith(GenerateSummary(request).result.message, SummaryErrorPrefix)
  {
    var r := GenerateSummary(request);
    var last := request(|r.models| - 1);
    if r.result.Err? {
      var rest := if last.RequestThrew? then last.message else AllRepliesEmpty;
      assert r.result.message == SummaryErrorPrefix + rest;
    }
  }

  /** The constructor assigns `configService` and `openai` but never
      `this.config`, so building either request reads a property of
      `undefined`. */
  const TranscriptionPromptUnreadable: string := "Cannot read properties of undefined (reading 'TRANSCRIPTION_PROMPT')"
  const SummaryPromptUnreadable: string := "Cannot read properties of undefined (reading 'SUMMARY_PROMPT')"

  /** Until a `transcribe` call with a key has assigned `this.openai`, the
      client is null. */
  const NullClient: string := "Cannot read properties of null (reading 'chat')"

  /** `transcribe(audioPath, guildId)` as written: without a key for the
      guild it throws before any request; with one it stats the file, and
      if that succeeds the request object it builds reads
      `this.config.TRANSCRIPTION_PROMPT`, which throws before the request
      is sent. */
  function Transcribe(st: Configuration.Store, guildId: string, stat: Result<()>): (r: Result<string>)
    ensures Configuration.GetOpenAIKey(st, guildId).None? ==> r == Err(NoKeyMessage)
    ensures Configuration.GetOpenAIKey(st, guildId).Some? && stat.Err? ==> r == Err(stat.message)
    ensures Configuration.GetOpenAIKey(st, guildId).Some? && stat.Ok? ==> r == Err(TranscriptionPromptUnreadable)
  {
    if Configuration.GetOpenAIKey(st, guildId).None? then Err(NoKeyMessage)
    else if stat.Err? then Err(stat.message)
    else Err(TranscriptionPromptUnreadable)
  }

  /** `transcribe` with the prompts it evidently expects in `this.config`:
      the same two guards, then the transcription request settles the
      call. */
  function TranscribeCorrected(st: Configuration.Store, guildId: string, stat: Result<()>,
                               transcription: Result<string>): (r: Result<string>)
    ensures Configuration.GetOpenAIKey(st, guildId).None? ==> r == Err(NoKeyMessage)
    ensures Configuration.GetOpenAIKey(st, guildId).Some? && stat.Err? ==> r == Err(stat.message)
    ensures Configuration.GetOpenAIKey(st, guildId).Some? && stat.Ok? ==> r == transcription
  {
    if Configuration.GetOpenAIKey(st, guildId).None? then Err(NoKeyMessage)
    else if stat.Err? then Err(stat.message)
    else transcription
  }

  /** The first summary request as written: evaluating
      `this.openai.chat.completions.create` throws while the client is
      null; once it is set, reading `this.config.SUMMARY_PROMPT` for the
      request body throws. Either way no request is sent. */
  function SummaryRequestAsWritten(clientSet: bool): (c: Completion)
    ensures c.RequestThrew?
    ensures clientSet <==> c.message == SummaryPromptUnreadable
  {
    RequestThrew(if clientSet then SummaryPromptUnreadable else NullClient)
  }

  // -----------------------------------------------------------------------
  // Properties

  /** The first reply without the marker is the summary, and no later
      model is asked. */
  lemma FirstUsableReplyWins(request: nat -> Completion, i: nat)
    requires i < 4
    requires forall j :: 0 <= j < i ==> request(j).Content? && Contains(request(j).text, NoTranscriptMarker)
    requires request(i).Content? && !Contains(request(i).text, NoTranscriptMarker)
    ensures GenerateSummary(request).result == Ok(request(i).text)
    ensures GenerateSummary(request).models == SummaryModels[..i + 1]
  {
  }

  /** Four replies with the marker: four models asked, waits of 2, 4 and
      6 seconds, and the prefixed error. */
  lemma AllMarkedFails(request: nat -> Completion)
    requires forall j :: 0 <= j < 4 ==> request(j).Content? && Contains(request(j).text, NoTranscriptMarker)
    ensures GenerateSummary(request) ==
      SummaryRun(Err(SummaryErrorPrefix + AllRepliesEmpty), SummaryModels, [2000, 4000, 6000])
  {
    var r := GenerateSummary(request);
    assert |r.models| == 4;
    assert r.models == SummaryModels;
    assert r.waits == [2000, 4000, 6000];
  }

  /** A request that throws ends the loop at once with the prefixed
      message: the first request throwing means no other model is asked. */
  lemma FirstRequestThrows(request: nat -> Completion)
    requires request(0).RequestThrew?
    ensures GenerateSummary(request) ==
      SummaryRun(Err(SummaryErrorPrefix + request(0).message), ["chatgpt-4o-latest"], [])
  {
  }

  /** As written, `transcribe` never succeeds: every call throws, and it
      differs from the intended call exactly when the guild has a key and
      the file exists, where the intended call returns the transcription. */
  lemma TranscribeNeverReachesRequest(st: Configuration.Store, guildId: string, stat: Result<()>,
                                      transcription: Result<string>)
    ensures Transcribe(st, guildId, stat).Err?
    ensures Configuration.GetOpenAIKey(st, guildId).None? || stat.Err? ==>
      Transcribe(st, guildId, stat) == TranscribeCorrected(st, guildId, stat, transcription)
    ensures Configuration.GetOpenAIKey(st, guildId).Some? && stat.Ok? ==>
      && Transcribe(st, guildId, stat) == Err(TranscriptionPromptUnreadable)
      && TranscribeCorrected(st, guildId, stat, transcription) == transcription
  {
  }

  /** As written, `generateSummary` always fails on its first pass, with
      no wait and no second model, whatever the transcript. */
  lemma GenerateSummaryAsWritten(clientSet: bool)
    ensures GenerateSummary(i => SummaryRequestAsWritten(clientSet)) ==
      SummaryRun(Err(SummaryErrorPrefix + SummaryRequestAsWritten(clientSet).message), ["chatgpt-4o-latest"], [])
    ensures clientSet ==>
      GenerateSummary(i => SummaryRequestAsWritten(clientSet)).result == Err(SummaryErrorPrefix + SummaryPromptUnreadable)
  {
    FirstRequestThrows(i => SummaryRequestAsWritten(clientSet));
  }
}

=== FILE: transcription_worker.dfy ===
/** The result shaping of src/workers/transcriptionWorker.js. The two
    service calls are raced against timers; each race is modelled by how
    it settled: the call's value, the call's rejection, or the timer. */
module TranscriptionWorker {
  import opened Wrappers
  import opened Text

  /** How a call raced against its timeout settled. */
  datatype Raced<+T> = Settled(value: T) | Rejected(message: string) | TimedOut

  /** The fields the worker destructures from the summary provider's reply;
      a field the reply lacks is `None` (undefined). */
  datatype SummaryReply = SummaryReply(
    summary: Option<string>,
    isTranscription: Option<bool>,
    isUnableToSummarize: Option<bool>)

  /** What `processRecording` resolves to: `success: true` with the four
      fields, or `success: false` with an error message. */
  datatype WorkerResult =
    | Succeeded(transcript: string, summary: Option<string>,
                isTranscription: Option<bool>, isUnableToSummarize: Option<bool>)
    | FailedWith(error: string)

  /** The result, and whether a summary was requested at all. */
  datatype WorkerRun = WorkerRun(result: WorkerResult, summaryRequested: bool)

  const TranscriptionTimeoutMs: int := 180000
  const SummaryTimeoutMs: int := 120000
  const TranscriptionTimeout: string := "Transcription timeout"
  const SummaryTimeout: string := "Summary generation timeout"
  const UnknownError: string := "Unknown error in worker thread"
  const NoSpeech: string := "No speech detected in recording."

  /** `error.message || 'Unknown error in worker thread'` */
  function ErrorText(message: string): (e: string)
    ensures e != ""
    ensures message != "" ==> e == message
  {
    if message == "" then UnknownError else message
  }

  /** `!transcript || transcript.trim().length === 0`; an absent transcript
      is `None`. */
  predicate NoSpeechIn(transcript: Option<string>) {
    transcript.None? || IsBlank(transcript.value)
  }

  /** The result for a blank or absent transcript. */
  function NoSpeechResult(): WorkerResult {
    Succeeded("", Some(NoSpeech), Some(false), Some(true))
  }

  /** `processRecording({ audioPath, guildId })` */
  function ProcessRecording(transcription: Raced<Option<string>>, summarise: Raced<SummaryReply>): (r: WorkerRun)
    ensures r.result.FailedWith? ==> r.result.error != ""
    ensures r.summaryRequested <==> transcription.Settled? && !NoSpeechIn(transcription.value)
    ensures transcription.TimedOut? ==> r.result == FailedWith(TranscriptionTimeout)
    ensures transcription.Rejected? ==> r.result == FailedWith(ErrorText(transcription.message))
    ensures transcription.Settled? && NoSpeechIn(transcription.value) ==> r.result == NoSpeechResult()
    ensures r.summaryRequested ==>
      match summarise
      case TimedOut => r.result == FailedWith(SummaryTimeout)
      case Rejected(m) => r.result == FailedWith(ErrorText(m))
      case Settled(reply) =>
        r.result == Succeeded(transcription.value.value, reply.summary, reply.isTranscription, reply.isUnableToSummarize)
  {
    match transcription
    case TimedOut => WorkerRun(FailedWith(TranscriptionTimeout), false)
    case Rejected(m) => WorkerRun(FailedWith(ErrorText(m)), false)
    case Settled(t) =>
      if NoSpeechIn(t) then WorkerRun(NoSpeechResult(), false)
      else
        var result := match summarise
          case TimedOut => FailedWith(SummaryTimeout)
          case Rejected(m) => FailedWith(ErrorText(m))
          case Settled(reply) => Succeeded(t.value, reply.summary, reply.isTranscription, reply.isUnableToSummarize);
        WorkerRun(result, true)
  }

  // -----------------------------------------------------------------------
  // Properties

  /** A success carries a transcript that is either the empty no-speech
      placeholder or the non-blank transcript the service returned. */
  lemma SuccessCarriesTranscript(transcription: Raced<Option<string>>, summarise: Raced<SummaryReply>)
    ensures var r := ProcessRecording(transcription, summarise).result;
      r.Succeeded? ==>
        && transcription.Settled?
        && (r.transcript == "" || (transcription.value == Some(r.transcript) && !IsBlank(r.transcript)))
        && (r.transcript == "" <==> NoSpeechIn(transcription.value))
  {
    var r := ProcessRecording(transcription, summarise).result;
    if r.Succeeded? && transcription.Settled? && !NoSpeechIn(transcription.value) {
      var t := transcription.value.value;
      assert !IsBlank(t);
      assert t != "";
    }
  }

  /** The summary service's string reply has none of the destructured
      fields, so a transcript with speech yields a success whose summary
      and flags are all undefined. */
  lemma StringReplyLosesSummary(t: string)
    requires !IsBlank(t)
    ensures ProcessRecording(Settled(Some(t)), Settled(SummaryReply(None, None, None))).result ==
      Succeeded(t, None, None, None)
  {
  }
}

=== FILE: voice_recorder.dfy ===
/** The recording-session engine of src/VoiceRecorder.js, run
    sequentially. The recorder's state holds the registry of active
    recordings together with everything the operations touch in their
    collaborators: the voice-connection registry, the configuration store,
    the live rotation timers, the temporary files, and the traces of
    emitted events, scheduled background jobs, saved transcripts and
    channel posts. Every collaborator outcome (joins, decoder creation,
    file checks, ffmpeg, transcription, summarisation, channel lookup) is
    a parameter; `now` stands for `Date.now()`. */
module VoiceRecorder {
  import opened Wrappers
  import opened Text
  import Configuration
  import VoiceStateService
  import AudioService
  import Storage

  /** A recording info: the capture state `AudioService.StartRecording`
      built, the temp file it writes to, and the rotation timer it owns
      (only the info built by `startRecording` owns one). */
  datatype Info = Info(capture: AudioService.Capture, filename: string, timer: Option<nat>)

  /** The names of src/events/RecordingEvents.js that the recorder emits;
      `RotationError` stands for `RecordingEvents.ROTATION_ERROR`, which
      that class does not define, so the event is emitted under the name
      `undefined`. */
  datatype EventName =
    | RecordingStarted | RecordingStopped | RecordingSummarized
    | ConnectionClosed | IntervalCompleted | RotationError

  function EventString(e: EventName): Option<string> {
    match e
    case RecordingStarted => Some("recording_started")
    case RecordingStopped => Some("recording_stopped")
    case RecordingSummarized => Some("recording_summarized")
    case ConnectionClosed => Some("connection_closed")
    case IntervalCompleted => Some("interval_completed")
    case RotationError => None
  }

  datatype Emitted = Emitted(name: EventName, guild: string)

  /** A live `setInterval` timer: it calls `rotateStreams(guild)` every
      `period`. */
  datatype Timer = Timer(guild: string, period: Configuration.IntervalMs)

  datatype Post = Post(channel: Configuration.Value, content: string)
  datatype Job = Job(guild: string, transcript: string)
  datatype Saved = Saved(guild: string, transcript: string, timestamp: int)

  datatype Recorder = Recorder(
    active: map<string, Info>,
    voice: VoiceStateService.VoiceState,
    config: Configuration.Store,
    timers: map<nat, Timer>,
    nextTimer: nat,
    tempFiles: set<string>,
    deleteCalls: seq<string>,
    events: seq<Emitted>,
    jobs: seq<Job>,
    saved: seq<Saved>,
    posts: seq<Post>,
    reentrantStops: seq<string>)

  /** The outcome of an operation and the recorder after it. */
  datatype Transition<+T> = Transition(result: Result<T>, next: Recorder)

  const AlreadyRecording: string := "Recording already in progress"
  const NoDecoder: string := "No opus decoder available. Please install either opusscript, node-opus, or @discordjs/opus"
  const NoAudio: string := "No audio data was received during recording"
  const EmptyRecording: string := "Recording file is empty"
  const UndefinedGuildId: string := "Cannot set properties of undefined (setting 'guildId')"

  /** The outcomes of the file checks and the ffmpeg run inside
      `convertToMp3`. */
  datatype Conversion = Conversion(inputStat: Result<nat>, stillExists: bool,
                                   ffmpeg: AudioService.Ffmpeg, outputStat: Result<nat>)

  /** What `client.channels.fetch` gave: a channel, null, or an error. */
  datatype ChannelFetch = ChannelFound | ChannelNull | FetchThrew(message: string)

  /** The collaborator outcomes met while a finished segment is processed:
      the conversion, the stat of the PCM file after it, the
      transcription, the summary (`generateSummary`'s outcome) and the
      channel lookup. */
  datatype Processing = Processing(conversion: Conversion, size: Result<nat>,
                                   transcription: Result<string>, summary: Result<string>,
                                   channel: ChannelFetch)

  /** The outcomes met by a stop: the wait for the output stream to end,
      the existence check of the PCM file, the processing, and the final
      stat in `stopRecording`. */
  datatype StopOutcomes = StopOutcomes(endWait: Result<()>, fileExists: bool,
                                       processing: Processing, finalStat: Result<nat>)

  // -----------------------------------------------------------------------
  // Invariant

  /** Timer ids are below the next id, and an info's own timer is live and
      rotates the info's guild. */
  ghost predicate Inv(r: Recorder) {
    && (forall id :: id in r.timers ==> id < r.nextTimer)
    && (forall g :: g in r.active && r.active[g].timer.Some? ==>
          r.active[g].timer.value in r.timers && r.timers[r.active[g].timer.value].guild == g)
  }

  // -----------------------------------------------------------------------
  // Small pieces

  /** `storage.deleteFile(path)`: the call is traced; the file goes away
      if it exists. */
  function DeleteTemp(r: Recorder, f: string): (d: Recorder)
    ensures f !in d.tempFiles && d.tempFiles == r.tempFiles - {f}
    ensures d.deleteCalls == r.deleteCalls + [f]
    ensures d == r.(tempFiles := d.tempFiles, deleteCalls := d.deleteCalls)
  {
    r.(tempFiles := Storage.DeleteFile(r.tempFiles, f, Ok(())).files, deleteCalls := r.deleteCalls + [f])
  }

  function Emit(r: Recorder, name: EventName, g: string): (d: Recorder)
    ensures d.events == r.events + [Emitted(name, g)]
    ensures d == r.(events := d.events)
  {
    r.(events := r.events + [Emitted(name, g)])
  }

  /** The 'disconnected' listener, run synchronously by the emission in
      `leaveChannel`: for an active guild it starts `stopRecording` and
      emits CONNECTION_CLOSED. The started stop runs concurrently with the
      code that emitted; the model records it and does not follow it. */
  function OnDisconnected(r: Recorder, g: string): (d: Recorder)
    ensures g !in r.active ==> d == r
    ensures g in r.active ==>
      d == r.(events := r.events + [Emitted(ConnectionClosed, g)], reentrantStops := r.reentrantStops + [g])
  {
    if g in r.active then Emit(r, ConnectionClosed, g).(reentrantStops := r.reentrantStops + [g]) else r
  }

  /** `Math.round(duration / 60000)`: halves round up. */
  function DurationMinutes(d: int): (m: int)
    ensures m * 60000 - 30000 <= d < m * 60000 + 30000
  {
    (d + 30000) / 60000
  }

  /** The message posted to the summary channel. */
  function SummaryPost(minutes: int, summary: string): string {
    "**Recording Summary** (" + IntToString(minutes) + " minutes)\n\n" + summary + "\n\n"
  }

  /** The summary with its fallback: a failed summarisation falls back to
      the transcript and schedules a background job for it. */
  datatype Summarised = Summarised(text: string, job: Option<Job>)

  function SummaryWithFallback(g: string, transcript: string, summary: Result<string>): (s: Summarised)
    ensures summary.Ok? <==> s.job.None?
    ensures summary.Ok? ==> s.text == summary.value
    ensures summary.Err? ==> s.text == transcript && s.job == Some(Job(g, transcript))
  {
    match summary
    case Ok(text) => Summarised(text, None)
    case Err(_) => Summarised(transcript, Some(Job(g, transcript)))
  }

  function ScheduleJob(r: Recorder, job: Option<Job>): (d: Recorder)
    ensures d.jobs == r.jobs + (if job.Some? then [job.value] else [])
    ensures d == r.(jobs := d.jobs)
  {
    if job.Some? then r.(jobs := r.jobs + [job.value]) else r
  }

  /** `sendSummaryToChannel(guildId, summary, startTime)`: posts only when
      the guild id is set, its configured channel id is truthy and the
      channel is found; it never throws. */
  function SendSummary(r: Recorder, g: string, summary: string, startTime: int, now: int, channel: ChannelFetch): (d: Recorder)
    ensures d == r.(posts := d.posts)
    ensures |d.posts| <= |r.posts| + 1
    ensures |d.posts| == |r.posts| + 1 <==>
      g != "" && Configuration.GetSummaryChannel(r.config, g).Some? && channel.ChannelFound?
    ensures |d.posts| == |r.posts| + 1 ==>
      d.posts == r.posts + [Post(Configuration.GetSummaryChannel(r.config, g).value,
                                 SummaryPost(DurationMinutes(now - startTime), summary))]
  {
    if g == "" then r
    else
      match Configuration.GetSummaryChannel(r.config, g)
      case None => r
      case Some(id) =>
        if channel.ChannelFound? then
          r.(posts := r.posts + [Post(id, SummaryPost(DurationMinutes(now - startTime), summary))])
        else r
  }

  /** `audioService.convertToMp3(filename)`; a produced file joins the
      temporary files. */
  function Convert(r: Recorder, filename: string, c: Conversion): (t: Transition<string>)
    ensures t.result == AudioService.ConvertToMp3(filename, c.inputStat, c.stillExists, c.ffmpeg, c.outputStat)
    ensures t.result.Ok? ==> t.next == r.(tempFiles := r.tempFiles + {t.result.value})
    ensures t.result.Err? ==> t.next == r
  {
    match AudioService.ConvertToMp3(filename, c.inputStat, c.stillExists, c.ffmpeg, c.outputStat)
    case Err(m) => Transition(Err(m), r)
    case Ok(mp3) => Transition(Ok(mp3), r.(tempFiles := r.tempFiles + {mp3}))
  }

  // -----------------------------------------------------------------------
  // Operations

  /** `cleanup(guildId, deleteFiles)`: leave the voice channel, then, for an
      active guild, clear its timer, delete its temp file when asked, and
      in any case drop its entry. */
  function Cleanup(r: Recorder, g: string, deleteFiles: bool): (d: Recorder)
    ensures g !in d.active
    ensures forall h :: h != g ==> (h in d.active <==> h in r.active) && (h in d.active ==> d.active[h] == r.active[h])
    ensures g !in d.voice.connections
    ensures g !in r.active ==> d.timers == r.timers && d.deleteCalls == r.deleteCalls
    ensures g in r.active ==>
      && d.timers == (if r.active[g].timer.Some? then r.timers - {r.active[g].timer.value} else r.timers)
      && d.deleteCalls == r.deleteCalls + (if deleteFiles && r.active[g].filename != "" then [r.active[g].filename] else [])
    ensures d.nextTimer == r.nextTimer && d.config == r.config && d.jobs == r.jobs
    ensures d.saved == r.saved && d.posts == r.posts
    ensures d.events == r.events + (if g in r.voice.connections && g in r.active then [Emitted(ConnectionClosed, g)] else [])
    ensures d.reentrantStops == r.reentrantStops + (if g in r.voice.connections && g in r.active then [g] else [])
    ensures Inv(r) ==> Inv(d)
  {
    var wasConnected := g in r.voice.connections;
    var r1 := r.(voice := VoiceStateService.LeaveChannel(r.voice, g));
    var r2 := if wasConnected then OnDisconnected(r1, g) else r1;
    if g !in r2.active then r2
    else
      var info := r2.active[g];
      var timers := if info.timer.Some? then r2.timers - {info.timer.value} else r2.timers;
      var r3 := if deleteFiles && info.filename != "" then DeleteTemp(r2, info.filename) else r2;
      r3.(timers := timers, active := r3.active - {g})
  }

  /** `startRecording(voiceChannel)`. `attempt` gives the join attempts,
      `filename` the temp path, `decoderOk` whether an opus decoder could
      be created, and `hasReceiver` whether the connection has a
      receiver. */
  function StartRecording(r: Recorder, g: string, attempt: nat -> VoiceStateService.JoinAttempt,
                          filename: string, decoderOk: bool, hasReceiver: bool, now: int): (t: Transition<Info>)
    ensures g in r.active ==> t == Transition(Err(AlreadyRecording), r)
    ensures t.result.Err? ==> g !in r.active ==> g !in t.next.active
    ensures t.result.Ok? <==>
      g !in r.active && VoiceStateService.JoinChannel(r.voice, g, attempt).result.Ok? && decoderOk && hasReceiver
    ensures t.result.Ok? ==>
      && t.next.active == r.active[g := t.result.value]
      && t.result.value == Info(AudioService.Fresh(now), filename, Some(r.nextTimer))
      && t.next.timers == r.timers[r.nextTimer := Timer(g, Configuration.GetTimeInterval(r.config, g))]
      && t.next.events == r.events + [Emitted(RecordingStarted, g)]
    ensures forall h :: h != g ==> (h in t.next.active <==> h in r.active) && (h in t.next.active ==> t.next.active[h] == r.active[h])
    ensures Inv(r) ==> Inv(t.next)
  {
    if g in r.active then Transition(Err(AlreadyRecording), r)
    else
      // The join's own leaveChannel may emit 'disconnected'; the guild is
      // not active, so the listener does nothing.
      var join := VoiceStateService.JoinChannel(r.voice, g, attempt);
      var r1 := r.(voice := join.state);
      if join.result.Err? then Transition(Err(join.result.message), Cleanup(r1, g, true))
      else
        var r2 := r1.(tempFiles := r1.tempFiles + {filename});
        if !decoderOk then Transition(Err(NoDecoder), Cleanup(r2, g, true))
        else
          match AudioService.StartRecording(hasReceiver, now)
          case Err(m) => Transition(Err(m), Cleanup(r2, g, true))
          case Ok(capture) =>
            var id := r2.nextTimer;
            var info := Info(capture, filename, Some(id));
            var r3 := r2.(active := r2.active[g := info],
                           timers := r2.timers[id := Timer(g, Configuration.GetTimeInterval(r2.config, g))],
                           nextTimer := id + 1);
            Transition(Ok(info), Emit(r3, RecordingStarted, g))
  }

  /** `processRotatedRecording(recordingInfo, guildId)`: convert, skip an
      empty file, transcribe, summarise with fallback, save, post, emit,
      and delete both files. Any collaborator error is rethrown. */
  function ProcessRotated(r: Recorder, info: Info, g: string, p: Processing, now: int): (t: Transition<()>)
    ensures t.next.active == r.active && t.next.timers == r.timers && t.next.nextTimer == r.nextTimer
    ensures t.next.config == r.config && t.next.voice == r.voice
    ensures t.result.Err? <==>
      AudioService.ConvertToMp3(info.filename, p.conversion.inputStat, p.conversion.stillExists,
                                p.conversion.ffmpeg, p.conversion.outputStat).Err?
      || p.size.Err? || (p.size.value > 0 && p.transcription.Err?)
    ensures t.result.Ok? && p.size.value > 0 ==>
      && p.transcription.Ok?
      && t.next.saved == r.saved + [Saved(g, p.transcription.value, now)]
      && t.next.jobs == r.jobs + (if p.summary.Err? then [Job(g, p.transcription.value)] else [])
      && t.next.events == r.events + [Emitted(IntervalCompleted, g), Emitted(RecordingSummarized, g)]
    ensures !(t.result.Ok? && p.size.value > 0) ==> t.next.saved == r.saved && t.next.jobs == r.jobs
    ensures t.result.Ok? && p.size.value > 0 ==>
      && t.next.posts == SendSummary(r, g, SummaryWithFallback(g, p.transcription.value, p.summary).text,
                                     info.capture.startTime, now, p.channel).posts
      && t.next.deleteCalls == r.deleteCalls + [info.filename, AudioService.OutputName(info.filename)]
      && info.filename !in t.next.tempFiles && AudioService.OutputName(info.filename) !in t.next.tempFiles
    ensures t.result.Ok? && p.size.value == 0 ==>
      && t.next.deleteCalls == r.deleteCalls + [info.filename]
      && info.filename !in t.next.tempFiles && AudioService.OutputName(info.filename) in t.next.tempFiles
      && t.next.posts == r.posts && t.next.events == r.events
    ensures t.result.Err? ==> t.next.deleteCalls == r.deleteCalls && t.next.posts == r.posts && t.next.events == r.events
  {
    match Convert(r, info.filename, p.conversion)
    case Transition(Err(m), _) => Transition(Err(m), r)
    case Transition(Ok(mp3), r1) =>
      match p.size
      case Err(m) => Transition(Err(m), r1)
      case Ok(size) =>
        if size == 0 then Transition(Ok(()), DeleteTemp(r1, info.filename))
        else
          match p.transcription
          case Err(m) => Transition(Err(m), r1)
          case Ok(transcript) =>
            var s := SummaryWithFallback(g, transcript, p.summary);
            var r2 := ScheduleJob(r1, s.job).(saved := r1.saved + [Saved(g, transcript, now)]);
            var r3 := SendSummary(r2, g, s.text, info.capture.startTime, now, p.channel);
            var r4 := Emit(Emit(r3, IntervalCompleted, g), RecordingSummarized, g);
            Transition(Ok(()), DeleteTemp(DeleteTemp(r4, info.filename), mp3))
  }

  /** `rotateStreams(guildId)`: swap in a fresh info writing to `filename`
      and process the old one. The new info owns no timer. When the new
      info cannot be set up, the old one is put back and the error is
      rethrown; a failure while processing the old one is only reported. */
  function RotateStreams(r: Recorder, g: string, filename: string, decoderOk: bool, hasReceiver: bool,
                         now: int, p: Processing): (t: Transition<()>)
    ensures g !in r.active ==> t == Transition(Ok(()), r)
    ensures g in r.active ==> g in t.next.active
    ensures g in r.active && t.result.Err? ==> t.next.active == r.active
    ensures g in r.active && t.result.Ok? ==>
      t.next.active == r.active[g := Info(AudioService.Fresh(now), filename, None)]
    ensures t.result.Err? <==> g in r.active && !(decoderOk && hasReceiver)
    ensures t.next.timers == r.timers && t.next.nextTimer == r.nextTimer
    ensures g in r.active && t.result.Err? ==>
      t.next == r.(tempFiles := r.tempFiles + {filename}, events := r.events + [Emitted(RotationError, g)])
    ensures g in r.active && t.result.Ok? ==>
      var swapped := r.(active := (r.active - {g})[g := Info(AudioService.Fresh(now), filename, None)],
                        tempFiles := r.tempFiles + {filename});
      var processed := ProcessRotated(swapped, r.active[g], g, p, now);
      && t.next.saved == processed.next.saved && t.next.jobs == processed.next.jobs
      && t.next.posts == processed.next.posts && t.next.deleteCalls == processed.next.deleteCalls
      && t.next.tempFiles == processed.next.tempFiles
      && t.next.events == processed.next.events + (if processed.result.Err? then [Emitted(RotationError, g)] else [])
    ensures Inv(r) ==> Inv(t.next)
  {
    if g !in r.active then Transition(Ok(()), r)
    else
      var previous := r.active[g];
      var r1 := r.(active := r.active - {g}, tempFiles := r.tempFiles + {filename});
      var started := if !decoderOk then Err(NoDecoder) else AudioService.StartRecording(hasReceiver, now);
      match started
      case Err(m) =>
        // The guild is absent, so the previous info is put back.
        Transition(Err(m), Emit(r1.(active := r1.active[g := previous]), RotationError, g))
      case Ok(capture) =>
        var r2 := r1.(active := r1.active[g := Info(capture, filename, None)]);
        var processed := ProcessRotated(r2, previous, g, p, now);
        var r3 := if processed.result.Err? then Emit(processed.next, RotationError, g) else processed.next;
        Transition(Ok(()), r3)
  }

  /** `ClearStreamsAndSave(recordingInfo, true)` for the active guild `g`,
      as `stopRecording` calls it. Returns the MP3 name, or `None` when
      the PCM file is gone. */
  function ClearStreamsAndSave(r: Recorder, g: string, o: StopOutcomes, now: int): (t: Transition<Option<string>>)
    requires g in r.active
    ensures !r.active[g].capture.dataReceived ==> t == Transition(Err(NoAudio), r)
    ensures r.active[g].capture.dataReceived && g in t.next.active ==>
      t.next.active[g].capture.streams == {} && t.next.active[g].capture.speaking == map[]
    ensures t.result.Ok? && t.result.value.Some? ==> g !in t.next.active
    ensures t.result.Err? || t.result.value.None? ==> g in t.next.active
    ensures t.result.Ok? && t.result.value.Some? ==>
      && o.processing.transcription.Ok?
      && t.next.jobs == r.jobs + (if o.processing.summary.Err? then [Job(g, o.processing.transcription.value)] else [])
    ensures t.next.timers == r.timers || (g !in t.next.active && r.active[g].timer.Some? && t.next.timers == r.timers - {r.active[g].timer.value})
    ensures t.next.nextTimer == r.nextTimer
    ensures t.result.Ok? && t.result.value.Some? ==>
      var info := r.active[g];
      var p := o.processing;
      && t.result.value.value == AudioService.OutputName(info.filename)
      && t.next.saved == r.saved + [Saved(g, p.transcription.value, now)]
      && t.next.posts == SendSummary(r, g, SummaryWithFallback(g, p.transcription.value, p.summary).text,
                                     info.capture.startTime, now, p.channel).posts
      && t.next.events == r.events + [Emitted(RecordingSummarized, g)]
                          + (if g in r.voice.connections then [Emitted(ConnectionClosed, g)] else [])
      && t.next.deleteCalls == r.deleteCalls
    ensures t.result.Err? || t.result.value.None? ==>
      && t.next.saved == r.saved && t.next.jobs == r.jobs && t.next.posts == r.posts
      && t.next.events == r.events && t.next.deleteCalls == r.deleteCalls
    ensures forall h :: h != g ==> (h in t.next.active <==> h in r.active) && (h in t.next.active ==> t.next.active[h] == r.active[h])
    ensures Inv(r) ==> Inv(t.next)
  {
    var info := r.active[g];
    if !info.capture.dataReceived then Transition(Err(NoAudio), r)
    else
      // The live info's stream and speaking maps are cleared.
      var cleared := info.(capture := info.capture.(streams := {}, speaking := map[]));
      var r1 := r.(active := r.active[g := cleared]);
      if o.endWait.Err? then Transition(Err(o.endWait.message), r1)
      else if !o.fileExists then Transition(Ok(None), r1)
      else
        var p := o.processing;
        match p.size
        case Err(m) => Transition(Err(m), r1)
        case Ok(size) =>
          if size == 0 then Transition(Err(EmptyRecording), r1)
          else
            match Convert(r1, info.filename, p.conversion)
            case Transition(Err(m), _) => Transition(Err(m), r1)
            case Transition(Ok(mp3), r2) =>
              match p.transcription
              case Err(m) => Transition(Err(m), r2)
              case Ok(transcript) =>
                var r3 := r2.(saved := r2.saved + [Saved(g, transcript, now)]);
                var s := SummaryWithFallback(g, transcript, p.summary);
                var r4 := SendSummary(ScheduleJob(r3, s.job), g, s.text, info.capture.startTime, now, p.channel);
                var r5 := Emit(r4, RecordingSummarized, g);
                Transition(Ok(Some(mp3)), Cleanup(r5, g, false))
  }

  /** `stopRecording(guildId)`. An empty guild id or an empty registry
      returns at once. A guild missing from a non-empty registry throws,
      because the info is dereferenced before the null check. Otherwise
      any error cleans up without deleting files and is rethrown. */
  function StopRecording(r: Recorder, g: string, o: StopOutcomes, now: int): (t: Transition<Option<string>>)
    ensures g == "" || |r.active| == 0 ==> t == Transition(Ok(None), r)
    ensures g != "" && |r.active| > 0 && g !in r.active ==> t == Transition(Err(UndefinedGuildId), r)
    ensures g != "" && g in r.active && t.result.Err? ==> g !in t.next.active
    ensures g != "" && g in r.active && !r.active[g].capture.dataReceived ==> t.result == Err(NoAudio)
    ensures t.result.Ok? && t.result.value.Some? ==>
      |t.next.events| > 0 && t.next.events[|t.next.events| - 1] == Emitted(RecordingStopped, g)
    ensures forall h :: h != g ==> (h in t.next.active <==> h in r.active) && (h in t.next.active ==> t.next.active[h] == r.active[h])
    ensures t.result.Ok? && t.result.value.Some? ==>
      && g in r.active && o.processing.transcription.Ok? && o.finalStat.Ok?
      && var info := r.active[g];
         var p := o.processing;
         && t.result.value.value == AudioService.OutputName(info.filename)
         && g !in t.next.active
         && t.next.saved == r.saved + [Saved(g, p.transcription.value, now)]
         && t.next.jobs == r.jobs + (if p.summary.Err? then [Job(g, p.transcription.value)] else [])
         && t.next.posts == SendSummary(r, g, SummaryWithFallback(g, p.transcription.value, p.summary).text,
                                        info.capture.startTime, now, p.channel).posts
         && t.next.events == r.events + [Emitted(RecordingSummarized, g)]
                             + (if g in r.voice.connections then [Emitted(ConnectionClosed, g)] else [])
                             + [Emitted(RecordingStopped, g)]
         && t.next.deleteCalls == r.deleteCalls
    ensures Inv(r) ==> Inv(t.next)
  {
    if g == "" || |r.active| == 0 then Transition(Ok(None), r)
    else if g !in r.active then Transition(Err(UndefinedGuildId), r)
    else
      var saved := ClearStreamsAndSave(r, g, o, now);
      match saved.result
      case Err(m) => Transition(Err(m), Cleanup(saved.next, g, false))
      case Ok(mp3) =>
        match o.finalStat
        case Err(m) => Transition(Err(m), Cleanup(saved.next, g, false))
        case Ok(_) => Transition(Ok(mp3), Emit(saved.next, RecordingStopped, g))
  }

  /** What `getStatus(guildId)` reports (the arrays of entries and keys
      become a map and a set). */
  datatype Status = Status(duration: int, bytesWritten: nat, hasData: bool, lastDataTime: Option<int>,
                           speakingStates: map<string, bool>, activeStreams: set<string>)

  function GetStatus(r: Recorder, g: string, now: int): (s: Option<Status>)
    ensures s.None? <==> g !in r.active
    ensures s.Some? ==>
      var c := r.active[g].capture;
      s.value == Status(now - c.startTime, c.bytesWritten, c.dataReceived, c.lastDataTime, c.speaking, c.streams)
  {
    if g !in r.active then None
    else
      var c := r.active[g].capture;
      Some(Status(now - c.startTime, c.bytesWritten, c.dataReceived, c.lastDataTime, c.speaking, c.streams))
  }

  /** A timer firing: `rotateStreams` for its guild, or nothing when the
      timer was cleared. */
  function FireTimer(r: Recorder, id: nat, filename: string, decoderOk: bool, hasReceiver: bool,
                     now: int, p: Processing): (t: Transition<()>)
    ensures id !in r.timers ==> t == Transition(Ok(()), r)
    ensures id in r.timers && r.timers[id].guild !in r.active ==> t == Transition(Ok(()), r)
    ensures id in r.timers && r.timers[id].guild in r.active ==>
      var g := r.timers[id].guild;
      && g in t.next.active
      && (t.result.Ok? ==> t.next.active == r.active[g := Info(AudioService.Fresh(now), filename, None)])
      && (t.result.Err? ==> t.next.active == r.active)
    ensures t.result.Err? <==> id in r.timers && r.timers[id].guild in r.active && !(decoderOk && hasReceiver)
    ensures t.next.timers == r.timers && t.next.nextTimer == r.nextTimer
    ensures Inv(r) ==> Inv(t.next)
  {
    if id !in r.timers then Transition(Ok(()), r)
    else RotateStreams(r, r.timers[id].guild, filename, decoderOk, hasReceiver, now, p)
  }

  // -----------------------------------------------------------------------
  // Properties

  /** A failed start leaves no entry for the guild, and the registry
      otherwise as before. */
  lemma FailedStartLeavesNoEntry(r: Recorder, g: string, attempt: nat -> VoiceStateService.JoinAttempt,
                                 filename: string, decoderOk: bool, hasReceiver: bool, now: int)
    requires g !in r.active
    requires StartRecording(r, g, attempt, filename, decoderOk, hasReceiver, now).result.Err?
    ensures StartRecording(r, g, attempt, filename, decoderOk, hasReceiver, now).next.active == r.active
  {
    var d := StartRecording(r, g, attempt, filename, decoderOk, hasReceiver, now).next;
    assert d.active.Keys == r.active.Keys;
  }

  /** Stopping an active guild removes it, on success and on error alike,
      unless the PCM file vanished before the existence check and yet the
      final stat succeeded. */
  lemma StopRemoves(r: Recorder, g: string, o: StopOutcomes, now: int)
    requires g != "" && g in r.active
    requires o.fileExists || o.finalStat.Err?
    ensures g !in StopRecording(r, g, o, now).next.active
  {
    var saved := ClearStreamsAndSave(r, g, o, now);
    if saved.result.Ok? && saved.result.value.Some? {
      assert g !in saved.next.active;
    }
  }

  /** The stray timer: the rotation timer of a start survives a rotation
      and the cleanup that follows, still aimed at the guild; once the
      guild is gone its firing changes nothing. */
  lemma StrayTimerSurvivesCleanup(r: Recorder, g: string, attempt: nat -> VoiceStateService.JoinAttempt,
                                  f1: string, f2: string, now: int, p: Processing, deleteFiles: bool)
    requires g !in r.active && VoiceStateService.JoinChannel(r.voice, g, attempt).result.Ok?
    ensures var started := StartRecording(r, g, attempt, f1, true, true, now);
            var id := r.nextTimer;
            var rotated := RotateStreams(started.next, g, f2, true, true, now, p);
            var cleaned := Cleanup(rotated.next, g, deleteFiles);
            && id in cleaned.timers && cleaned.timers[id].guild == g
            && g !in cleaned.active
            && FireTimer(cleaned, id, f2, true, true, now, p) == Transition(Ok(()), cleaned)
  {
    var started := StartRecording(r, g, attempt, f1, true, true, now);
    var rotated := RotateStreams(started.next, g, f2, true, true, now, p);
    assert rotated.next.active[g].timer.None?;
  }

  /** Restarting the guild while a stray timer aims at it gives it two
      live timers, so its recording is rotated by both. */
  lemma RestartKeepsStrayTimer(c: Recorder, g: string, attempt: nat -> VoiceStateService.JoinAttempt,
                               f: string, now: int, id: nat)
    requires Inv(c)
    requires id in c.timers && c.timers[id].guild == g && g !in c.active
    requires VoiceStateService.JoinChannel(c.voice, g, attempt).result.Ok?
    ensures var restarted := StartRecording(c, g, attempt, f, true, true, now);
            && restarted.result.Ok?
            && id in restarted.next.timers && restarted.next.timers[id].guild == g
            && c.nextTimer in restarted.next.timers && restarted.next.timers[c.nextTimer].guild == g
            && id != c.nextTimer
  {
  }

  /** The status of a recording started at `now` whose handlers then saw
      the receiver events `es`: the elapsed time, the streams of the users
      who started speaking, the sum of the chunk lengths, and whether any
      chunk arrived. */
  lemma StatusAfterEvents(r: Recorder, g: string, attempt: nat -> VoiceStateService.JoinAttempt,
                          f: string, now: int, es: seq<AudioService.ReceiverEvent>, later: int)
    requires g !in r.active && VoiceStateService.JoinChannel(r.voice, g, attempt).result.Ok?
    requires AudioService.ChunksFollowStarts(es)
    ensures var started := StartRecording(r, g, attempt, f, true, true, now);
            var info := started.result.value;
            var live := started.next.(active := started.next.active[g := info.(capture := AudioService.Run(info.capture, es))]);
            var s := GetStatus(live, g, later);
            && s.Some?
            && s.value.duration == later - now
            && s.value.activeStreams == AudioService.StartedUsers(es)
            && s.value.bytesWritten == AudioService.ChunkBytes(es)
            && (s.value.hasData <==> AudioService.HasChunk(es))
  {
    AudioService.RunFromFresh(now, es);
    AudioService.RunKeepsStart(AudioService.Fresh(now), es);
  }

  /** A disconnect for a guild with no entry changes nothing. */
  lemma DisconnectOfIdleGuild(r: Recorder, g: string)
    requires g !in r.active
    ensures OnDisconnected(r, g) == r
  {
  }

  /** Where a summary is posted, its duration is the elapsed time rounded
      to the nearest minute, the summary follows the heading, and a
      failed summarisation posts the transcript. */
  lemma PostedSummaryFallsBack(r: Recorder, g: string, transcript: string, startTime: int, now: int)
    requires g != "" && Configuration.GetSummaryChannel(r.config, g).Some?
    ensures var s := SummaryWithFallback(g, transcript, Err("failed"));
            var d := SendSummary(r, g, s.text, startTime, now, ChannelFound);
            d.posts[|d.posts| - 1].content == SummaryPost(DurationMinutes(now - startTime), transcript)
  {
  }
}

=== FILE: voice_state.dfy ===
/** Voice-connection handling (src/services/VoiceStateService.js). The
    voice library's per-guild connection registry is part of the state:
    joining tracks a new connection under the guild, and destroying a
    connection takes it out of the registry, as the library does. Each
    join attempt is modelled by its outcome: `attempt(k)` is how attempt
    number `k` (1 to 3) ended. */
module VoiceStateService {
  import opened Wrappers
  import opened Text

  datatype Connection = Connection(id: nat, destroyed: bool)

  /** The registry, the guild ids for which 'disconnected' was emitted (in
      order), and the id the next connection gets. */
  datatype VoiceState = VoiceState(
    connections: map<string, Connection>,
    disconnected: seq<string>,
    nextId: nat)

  /** How one join attempt ended: the connection became ready, or the
      attempt failed with an error message (timeout, error event, or
      destruction). */
  datatype JoinAttempt = Ready | Failed(message: string)

  /** The outcome of `joinChannel`, the state after it, the attempts made
      and the delays waited. */
  datatype JoinRun = JoinRun(result: Result<Connection>, state: VoiceState, attempts: nat, waits: seq<int>)

  const MaxJoinAttempts: nat := 3
  const BaseDelay: int := 2000

  /** Only the guild's own registry entry may differ. */
  ghost predicate OthersUnchanged(before: map<string, Connection>, after: map<string, Connection>, g: string) {
    forall h :: h != g ==> (h in after <==> h in before) && (h in after ==> after[h] == before[h])
  }

  /** `leaveChannel(guildId)`: destroys the guild's connection and emits
      'disconnected', or does nothing when there is none. */
  function LeaveChannel(vs: VoiceState, g: string): (r: VoiceState)
    ensures g !in r.connections
    ensures g in vs.connections ==> r.disconnected == vs.disconnected + [g]
    ensures g !in vs.connections ==> r == vs
    ensures OthersUnchanged(vs.connections, r.connections, g)
    ensures r.nextId == vs.nextId
  {
    if g !in vs.connections then vs
    else vs.(connections := vs.connections - {g}, disconnected := vs.disconnected + [g])
  }

  /** `getConnection(guildId)`: null for a missing or destroyed connection. */
  function GetConnection(vs: VoiceState, g: string): (r: Option<Connection>)
    ensures r.Some? <==> g in vs.connections && !vs.connections[g].destroyed
    ensures r.Some? ==> r.value == vs.connections[g]
  {
    if g in vs.connections && !vs.connections[g].destroyed then Some(vs.connections[g]) else None
  }

  function Pow3(k: nat): (p: nat)
    ensures p >= 1
  {
    if k == 0 then 1 else 3 * Pow3(k - 1)
  }

  /** The wait after failed attempt `k`: exponential in 3 when the message
      mentions a 500, linear otherwise. */
  function JoinWait(k: nat, message: string): (w: int)
    requires k >= 1
    ensures Contains(message, "500") ==> w == BaseDelay * Pow3(k - 1)
    ensures !Contains(message, "500") ==> w == BaseDelay * k
    ensures w >= 2000
  {
    if Contains(message, "500") then BaseDelay * Pow3(k - 1) else BaseDelay * k
  }

  /** `joinChannel(channel)`: leave first, then up to three attempts. */
  function JoinChannel(vs: VoiceState, g: string, attempt: nat -> JoinAttempt): (r: JoinRun)
    ensures 1 <= r.attempts <= MaxJoinAttempts
    ensures forall k :: 1 <= k < r.attempts ==> attempt(k).Failed?
    ensures attempt(r.attempts).Ready? ==>
      && r.result.Ok?
      && g in r.state.connections && r.state.connections[g] == r.result.value
      && GetConnection(r.state, g) == Some(r.result.value)
    ensures attempt(r.attempts).Failed? ==>
      r.attempts == MaxJoinAttempts && r.result == Err(attempt(r.attempts).message) && g !in r.state.connections
    ensures |r.waits| == r.attempts - 1
    ensures forall k :: 0 <= k < |r.waits| ==> r.waits[k] == JoinWait(k + 1, attempt(k + 1).message)
    ensures r.state.disconnected == vs.disconnected + (if g in vs.connections then [g] else [])
    ensures OthersUnchanged(vs.connections, r.state.connections, g)
  {
    JoinFrom(LeaveChannel(vs, g), g, attempt, 1)
  }

  /** The attempt loop from attempt number `k` on; the guild has no
      connection in the registry. */
  function JoinFrom(vs: VoiceState, g: string, attempt: nat -> JoinAttempt, k: nat): (r: JoinRun)
    requires 1 <= k <= MaxJoinAttempts
    requires g !in vs.connections
    ensures k <= r.attempts <= MaxJoinAttempts
    ensures forall j :: k <= j < r.attempts ==> attempt(j).Failed?
    ensures attempt(r.attempts).Ready? ==>
      r.result.Ok? && r.state.connections == vs.connections[g := r.result.value] && !r.result.value.destroyed
    ensures attempt(r.attempts).Failed? ==>
      r.attempts == MaxJoinAttempts && r.result == Err(attempt(r.attempts).message)
      && r.state.connections == vs.connections
    ensures |r.waits| == r.attempts - k
    ensures forall j :: 0 <= j < |r.waits| ==> r.waits[j] == JoinWait(k + j, attempt(k + j).message)
    ensures r.state.disconnected == vs.disconnected
    decreases MaxJoinAttempts - k
  {
    var connection := Connection(vs.nextId, false);
    match attempt(k)
    case Ready =>
      JoinRun(Ok(connection), vs.(connections := vs.connections[g := connection], nextId := vs.nextId + 1), k, [])
    case Failed(m) =>
      // The failed connection is destroyed, so the registry is as before.
      var after := vs.(nextId := vs.nextId + 1);
      if k == MaxJoinAttempts then JoinRun(Err(m), after, k, [])
      else
        var rest := JoinFrom(after, g, attempt, k + 1);
        JoinRun(rest.result, rest.state, rest.attempts, [JoinWait(k, m)] + rest.waits)
  }

  // -----------------------------------------------------------------------
  // Properties

  /** Three failures: the last error is thrown, after waits of 2 and 4
      seconds, or 2 and 6 seconds when every message mentions a 500. */
  lemma ThreeFailures(vs: VoiceState, g: string, attempt: nat -> JoinAttempt, server500: bool)
    requires forall k :: 1 <= k <= 3 ==> attempt(k).Failed? && Contains(attempt(k).message, "500") == server500
    ensures JoinChannel(vs, g, attempt).result == Err(attempt(3).message)
    ensures JoinChannel(vs, g, attempt).waits == if server500 then [2000, 6000] else [2000, 4000]
  {
    var r := JoinChannel(vs, g, attempt);
    assert r.attempts == 3;
    assert Pow3(1) == 3;
  }

  /** A second join of the same guild replaces the first connection and
      emits one 'disconnected' for it. */
  lemma RejoinLeavesFirst(vs: VoiceState, g: string, attempt: nat -> JoinAttempt)
    requires attempt(1).Ready?
    ensures var first := JoinChannel(vs, g, attempt);
            var second := JoinChannel(first.state, g, attempt);
            && second.state.disconnected == first.state.disconnected + [g]
            && second.result.Ok? && second.result.value != first.result.value
  {
  }
}

=== FILE: wrappers.dfy ===
/** Failure-carrying values shared by every module of the model.
    A JavaScript `throw new Error(m)` becomes `Err(m)`; a value that may be
    `null`/`undefined` becomes an `Option`. */
module Wrappers {

  datatype Option<+T> = None | Some(value: T) {
    function GetOr(default: T): T {
      match this
      case Some(v) => v
      case None => default
    }
  }

  /** The outcome of an operation that either returns a value or throws an
      error carrying a message. */
  datatype Result<+T> = Ok(value: T) | Err(message: string) {
    predicate IsFailure() {
      Err?
    }

    function PropagateFailure<U>(): Result<U>
      requires Err?
    {
      Err(message)
    }

    function Extract(): T
      requires Ok?
    {
      value
    }
  }
}
